=== FILE: README.md ===
# Storefront and admin console cores, modelled in Dafny

This project models the sequential cores of a clothing storefront and its admin
console. The application is written in TypeScript over a Convex backend, with an
in-memory mock backend beside it. The model covers:

- **The auth query engine** (`convex/auth.ts`). It evaluates where-clauses over
  documents, folds clauses with AND/OR connectors, and projects, sorts, pages and
  counts rows. It also runs first-match and all-match updates and deletes.
- **The auth storage adapter** (`convex-adapter.ts`). It marshals dates to and from
  epoch milliseconds and fans join data out to each row.
- **The two catalog and inventory backends.** These are the Convex mutations
  (`convex/products.ts`, `convex/inventory.ts`) and the in-memory repository
  (`repositories/mock.ts`). The model covers:
  - slug probing;
  - create, update, soft delete, duplicate and bulk publish;
  - stock updates with their audit log;
  - the flattened inventory and the audit-log query.
- **The catalog selectors and record normalisers** of `repositories/convex.ts` and
  `mock-data.ts`.
- **Small rules:**
  - cart line merging and totals;
  - order arithmetic and order numbers;
  - the data-source decision table;
  - the de-duplicated, capped telemetry breadcrumb buffer;
  - the settings and users upserts;
  - the super-admin, session and `/admin` route rules.

Each source file has its own module. Code that works by changing state is modelled
as a class whose fields are the stored tables (`ProductTable`, `AuditLogTable`,
`SettingsTable`, `UserTable`, `AuthTable`, `MockState`, `BreadcrumbTrail`). Those
methods are proved against specification functions of the old state. Loops in the
source are `while` loops with their invariants: `matchesWhere`, `attachJoinData`,
both `ensureUniqueSlug`s, the bulk toggles, `updateMany`/`removeMany`,
`listFlattened` and the normalisers. Pure code is functions plus lemmas.

Some inputs are parameters of the model:

- clocks (`Date.now()`);
- random suffixes;
- fresh Convex ids;
- environment variables;
- cookie values;
- the remote query of the adapter.

Shared modules:

- `Wrappers`: Option and Result.
- `Strings`: `trim`, ASCII `toLowerCase`, `includes`, `String(n)`, `padStart`,
  `split`/`join` and code-unit order.
- `Seqs`: filter, find-index, slicing and counting.
- `Sorting`: a stable insertion sort over a strict weak order. It models
  `Array.prototype.sort`, which is stable. Permutation, sortedness and stability
  are proved.
- `Values`: a tagged JavaScript value with `===`, truthiness, `String()` and
  Convex `patch`.
- `Domain`: the shared records.

A clause list in `convex/auth.ts:100-115` is a left fold: each clause's own
connector joins it to everything before it, so `[A AND, B OR, C AND]` evaluates
as `(A OR B) AND C`, and the connector of the first clause is never read
(`AuthQuery.ConnectorJoinsWithPrefix`, `AuthQuery.FirstConnectorIgnored`).

Where the two backends differ, each is modelled as written, and module
`Backends` states each difference as a lemma:

- the publish state of a duplicate (`Backends.DuplicatePublishDiffers`);
- the bulk-toggle count (`Backends.ToggleCountsDiffer`);
- slug normalisation: an inner space survives on the server and never in
  the mock (`Backends.SlugNormalisationDiffers`);
- the inventory order (`Backends.FlattenedOrderDiffers`);
- which holder of a slug `getBySlug` finds (`Backends.GetBySlugDiffers`).

`mock-data.ts` returns nothing for a childless parent category, whereas the
repositories return the products filed directly in it.

## Model

| member | source | states |
|---|---|---|
| AuthQuery.EvaluateClause | convex/auth.ts:61-98 | `eq` (also when no operator is given) matches exactly a primitive field value equal to the clause value; `ne` is its negation; lt/lte/gt/gte match exactly when both values are numbers and compare that way; `in` over an array value matches exactly a primitive field value among its items and `not_in` is the negation; both fail without an array value; an unknown operator never matches |
| AuthQuery.MissingOperatorIsEq | convex/auth.ts:61-68 | a clause without an operator evaluates as `eq`: the field value is a primitive equal to the clause value |
| AuthQuery.UnknownOperatorIsFalse | convex/auth.ts:95-97 | an operator outside the known list never matches |
| AuthQuery.OrderingNeedsNumbers | convex/auth.ts:71-78 | lt/lte/gt/gte match only when the field value and the clause value are both numbers |
| AuthQuery.OrderingCompares | convex/auth.ts:71-78 | lt/lte/gt/gte match exactly when both values are numbers and the numeric comparison holds |
| AuthQuery.InNeedsArray | convex/auth.ts:79-82 | without an array clause value both `in` and `not_in` fail; with one, `not_in` is the negation of `in` |
| AuthQuery.StringOperators | convex/auth.ts:83-94 | contains/starts_with/ends_with are substring, prefix and suffix tests on two strings and false otherwise |
| AuthQuery.MatchesWhere | convex/auth.ts:100-115 | the accumulator loop computes the left fold: true for no clauses, otherwise seeded by clause 0, each later clause ORed when its connector is OR and ANDed otherwise |
| AuthQuery.AllAndMeansEvery | convex/auth.ts:100-115 | with no OR connector after the first clause, the list matches exactly when every clause does |
| AuthQuery.AllOrMeansSome | convex/auth.ts:100-115 | with OR on every later clause, a non-empty list matches exactly when some clause does |
| AuthQuery.FirstConnectorIgnored | convex/auth.ts:103 | the first clause's connector does not affect the result |
| AuthQuery.ConnectorJoinsWithPrefix | convex/auth.ts:104-112 | `[A, OR B, AND C]` matches exactly when (A or B) and C |
| AuthQuery.PickFields | convex/auth.ts:117-120 | no or empty selection returns the document; otherwise exactly the document keys listed in the selection, with their values |
| AuthQuery.PickFieldsIdempotent | convex/auth.ts:117-120 | projecting twice is projecting once |
| AuthQuery.FindOne | convex/auth.ts:142-153 | null exactly when no row matches; otherwise the projection of the first matching row |
| AuthQuery.Filtered | convex/auth.ts:181-183 | an absent or empty clause list keeps every row, otherwise exactly the rows `matchesWhere` accepts, in order |
| AuthQuery.Count | convex/auth.ts:206-218 | the number of rows `matchesWhere` accepts (all rows for no clauses) |
| AuthQuery.Project | convex/auth.ts:181-183 | every filtered row is projected, keeping length and order |
| AuthQuery.DocBeforeMeans | convex/auth.ts:185-196 | the row order compares the sort-field values by the key order in the requested direction |
| AuthQuery.SourceCompareAgrees | convex/auth.ts:186-194 | on comparable keys the comparator as written is negative exactly when the key order puts a first, positive exactly when it puts b first |
| AuthQuery.KeyLessTransitive | convex/auth.ts:186-194 | the key order is transitive |
| AuthQuery.DocBeforeIsStrictWeakOrder | convex/auth.ts:185-196 | the comparator's order is a strict weak order, so the stable sort is well defined |
| AuthQuery.Ordered | convex/auth.ts:180-196 | filtered, projected, then sorted rows: as many as the filter keeps |
| AuthQuery.Page | convex/auth.ts:197-202 | the slice [offset, offset + limit) with both clamped at 0 and cut at the end, or to the end without a limit |
| AuthQuery.FindMany | convex/auth.ts:155-204 | every returned row is the projection of a matching row, no more rows than match and no more than the limit; without limit and offset, exactly the projected matching rows |
| AuthQuery.OrderedPermutation | convex/auth.ts:180-196 | before paging, `findMany` returns exactly the projected matching rows, reordered |
| AuthQuery.OrderedSorted | convex/auth.ts:185-196 | with a sort field the rows are sorted by the comparator's order |
| AuthQuery.OrderedStable | convex/auth.ts:185-196 | rows with equal sort keys keep their input order |
| AuthQuery.NullsFirstWhenAscending | convex/auth.ts:189-190 | ascending: every row with a null or undefined key comes before every row with another key |
| AuthQuery.NullsLastWhenDescending | convex/auth.ts:189-190 | descending: every row with a null or undefined key comes after every row with another key |
| AuthQuery.SortOnDroppedFieldKeepsOrder | convex/auth.ts:181-196 | projection happens before sorting, so sorting on a field the selection drops leaves the filtered order |
| AuthQuery.PagingExample | convex/auth.ts:197-202 | offset 2 and limit 3 over ten rows return rows 2, 3 and 4 |
| AuthQuery.NegativePagingClamped | convex/auth.ts:197-201 | a negative offset reads as 0 and a negative limit returns nothing |
| AuthQuery.FirstMatch | convex/auth.ts:231 | the index of the first matching row, -1 exactly when none matches |
| AuthQuery.AuthTable.Create | convex/auth.ts:129-140 | data setting a system field (`_id`, `_creationTime`, any `_` name) is refused and nothing changes; otherwise the data is appended with the fresh `_id` and the insertion time as `_creationTime`, and the stored row is returned |
| AuthQuery.AuthTable.Update | convex/auth.ts:220-237 | patches only the first matching row when it has an id and returns it; null and no change otherwise |
| AuthQuery.AuthTable.UpdateMany | convex/auth.ts:239-259 | patches every matching row that has an id, leaves the others, keeps the row count, returns the number of matching rows |
| AuthQuery.AuthTable.Remove | convex/auth.ts:261-272 | deletes only the first matching row when it has an id; no change otherwise |
| AuthQuery.AuthTable.RemoveMany | convex/auth.ts:274-290 | keeps exactly the rows that do not match or lack an id, in order, and returns the number of matching rows |
| Values.Patch | convex/auth.ts:234 | Convex `patch`: a defined update field is written, an undefined one removes the field, other fields and `_id` are kept |
| AuthAdapter.SerializeValue | src/lib/auth/better-auth/convex-adapter.ts:25-38 | a Date becomes epoch milliseconds only in a date field; every other value passes unchanged |
| AuthAdapter.DeserializeValue | src/lib/auth/better-auth/convex-adapter.ts:40-45 | a number becomes a Date only in a date field; every other value passes unchanged |
| AuthAdapter.SerializeRecord | src/lib/auth/better-auth/convex-adapter.ts:47-51 | the same key set, each value serialised by its own key |
| AuthAdapter.DeserializeRecord | src/lib/auth/better-auth/convex-adapter.ts:53-57 | the same key set, each value deserialised by its own key |
| AuthAdapter.RecordRoundTrip | src/lib/auth/better-auth/convex-adapter.ts:33-57 | deserialising a serialised record gives it back when no date field holds a number |
| AuthAdapter.StoredRoundTrip | src/lib/auth/better-auth/convex-adapter.ts:33-57 | serialising a deserialised row gives it back when no date field holds a Date |
| AuthAdapter.NumberInDateFieldDoesNotRoundTrip | src/lib/auth/better-auth/convex-adapter.ts:40-45 | the round-trip condition is needed: a number in `createdAt` comes back as a Date |
| AuthAdapter.SerializeWhere | src/lib/auth/better-auth/convex-adapter.ts:59-64 | every Date clause value becomes milliseconds whatever the field; length, order, field, operator and connector are kept |
| AuthAdapter.FindManyRaw | src/lib/auth/better-auth/convex-adapter.ts:66-85 | the remote rows for the serialised clauses, each deserialised, so no date field of a result holds a number |
| AuthAdapter.NormalizeJoinValue | src/lib/auth/better-auth/convex-adapter.ts:106-112 | strings, numbers and booleans pass as they are, null and undefined become null, anything else is stringified |
| AuthAdapter.JoinedValue | src/lib/auth/better-auth/convex-adapter.ts:127-131 | one-to-one gives the first related row or null; any other relation the whole related list |
| AuthAdapter.Attached | src/lib/auth/better-auth/convex-adapter.ts:98-137 | no join or no rows returns the rows untouched; otherwise as many rows as given |
| AuthAdapter.AttachJoinData | src/lib/auth/better-auth/convex-adapter.ts:87-138 | the nested row and join loops compute the joined rows |
| AuthAdapter.JoinRowKeys | src/lib/auth/better-auth/convex-adapter.ts:102-131 | a joined row has the source row's keys plus one key per join model |
| AuthAdapter.JoinRowKeepsOthers | src/lib/auth/better-auth/convex-adapter.ts:102-131 | keys that are not join models keep their values |
| AuthAdapter.JoinRowShape | src/lib/auth/better-auth/convex-adapter.ts:127-131 | under each join model: null or a row for one-to-one, a list otherwise |
| AuthAdapter.JoinRowIndependent | src/lib/auth/better-auth/convex-adapter.ts:105-125 | when no join reads another join's key, each lookup is a single `eq` clause on `on.to` against the original row's `on.from`, with the join's limit |
| AuthAdapter.AttachedRows | src/lib/auth/better-auth/convex-adapter.ts:100-137 | the same number and order of rows; each output row is its input row plus one key per join model |
| ConvexProducts.SlugBase | convex/products.ts:93 | the trimmed, lower-cased slug, or `product` when that is empty |
| ConvexProducts.SlugHolder | convex/products.ts:98-101 | the first product holding the slug, -1 exactly when none does |
| ConvexProducts.FirstFreeUnique | convex/products.ts:95-110 | the probe's answer is determined: at most one candidate is the first free one |
| ConvexProducts.ProbeProgress | convex/products.ts:95-110 | each rejected candidate uses up one of the table's slugs, so the probe terminates |
| ConvexProducts.OwnBaseAccepted | convex/products.ts:102-104 | when nobody holds the base or its first holder is the product itself, the product keeps the base |
| ConvexProducts.ProductTable.EnsureUniqueSlug | convex/products.ts:91-110 | returns the base if the probe accepts it, otherwise the first of base-1, base-2, ... that nobody holds or that `excludeId` holds first |
| ConvexProducts.ListProductsSpec | convex/products.ts:116-125 | the listing is exactly the (published) rows, ordered by `updatedAt` descending, equal timestamps in table order |
| ConvexProducts.ListProducts | convex/products.ts:116-125 | only stored rows, all of them unless `publishedOnly` is true, and then only published ones |
| ConvexProducts.ListPublishedOnly | convex/products.ts:122 | with `publishedOnly` every listed product is published and every published product is listed |
| ConvexProducts.BySlug | convex/products.ts:134-152 | null when nobody holds the slug; the first holder, hidden when unpublished unless `publishedOnly` is explicitly false |
| ConvexProducts.ProductTable.Create | convex/products.ts:154-167 | inserts one product from the input under the probed slug with createdAt = updatedAt = now; the slug is held by no other product |
| ConvexProducts.ProductTable.Update | convex/products.ts:169-190 | "Product not found." and no change for a missing id; otherwise the input overlaid at the same index with a slug probed while excluding itself and updatedAt refreshed, so its own slug is kept |
| ConvexProducts.ProductTable.SoftDelete | convex/products.ts:192-201 | returns the id; a missing id changes nothing, otherwise only isPublished (false) and updatedAt change |
| ConvexProducts.ProductTable.Duplicate | convex/products.ts:203-232 | "Product not found." for a missing source; otherwise one copy named "<name> (Copy)", unpublished, sku "-COPY" only when non-empty, slug probed from "<slug>-copy", variant ids suffixed "-copy-<random>" |
| ConvexProducts.ProductTable.ToggleBulkStatus | convex/products.ts:234-254 | sets isPublished on every listed id that resolves and counts each resolving listed id |
| ConvexProducts.PatchedInTurnIsToggled | convex/products.ts:242-250 | patching id by id sets the flag on exactly the products whose id is listed |
| ConvexProducts.DuplicateIdsCountTwice | convex/products.ts:242-250 | an existing id listed twice counts two updates |
| ConvexProducts.ProbeAfterX | convex/products.ts:95-110 | after a product took "x", the probe for "x" gives "x-1" |
| ConvexProducts.CreateTwiceSameSlug | convex/products.ts:154-167 | creating two products with slug "x" gives them "x" and "x-1" |
| ConvexProducts.ProbeOnEmpty | convex/products.ts:95-110 | on an empty table the probe keeps the base |
| ConvexProducts.SecondProbeForX | convex/products.ts:95-110 | with "x" taken, "x-1" is the first free candidate |
| ConvexProducts.PatchKeepsIds | convex/products.ts:181-188 | patching a row under its own id keeps the ids unique |
| ConvexInventory.RowCompareAgrees | convex/inventory.ts:32-51 | the comparator is negative exactly when the first row sorts first by name, then colour, then size, and zero exactly when all three agree |
| ConvexInventory.RowBeforeIsStrictWeakOrder | convex/inventory.ts:32-51 | the name/colour/size order is a strict weak order |
| ConvexInventory.RowNotBeforeMeans | convex/inventory.ts:44-50 | a row not before another is after it at the first field where they differ, or equal |
| ConvexInventory.ListFlattenedSpec | convex/inventory.ts:53-74 | exactly one row per product, variant and selected size (a permutation of the flattened rows), with stock defaulting to 0, ordered by name, colour, size |
| ConvexInventory.ListFlattened | convex/inventory.ts:53-74 | a reordering of the flattened rows |
| ConvexInventory.UpdateStockWithAudit | convex/inventory.ts:76-152 | "Product not found." / "Variant not found." with no writes; otherwise only that variant's size entry set to max(0, floor(newValue)), the size appended if absent, updatedAt refreshed, exactly one log with the prior stock (0 if unset) and the stored value, and the row returned with that stock |
| Domain.ClampStock | convex/inventory.ts:106 | `Math.max(0, Math.floor(v))`: 0 for negative requests, otherwise the largest integer not above v |
| Domain.SetStock | convex/inventory.ts:108-117 | the size's entry set, other entries unchanged, the size appended only when absent |
| Domain.SetStockEffect | convex/inventory.ts:108-117 | the stored value is read back, other sizes are untouched, the size is listed, and no duplicate size is introduced |
| Domain.IndexOfId | convex/products.ts:176 | the first product with the id, -1 exactly when none has it |
| Domain.IndexOfVariant | convex/inventory.ts:99 | `findIndex` on variant ids: the first variant with the id, -1 exactly when none |
| Domain.CopySku | convex/products.ts:218 | "<sku>-COPY" for a non-empty sku, absent otherwise |
| Domain.CopyVariants | convex/products.ts:219-222 | each variant keeps everything but its id, which gets "-copy-<suffix>" |
| Domain.Overlay | src/lib/data/repositories/mock.ts:217-230 | `{...existing, ...input}`: every input field replaces the stored one, an absent optional field keeps it, id and createdAt are kept |
| Domain.FromInput | convex/products.ts:154-167 | a product carrying every input field, with the given id, slug and timestamps |
| Domain.RowFor | convex/inventory.ts:62-71 | the inventory row of a product, variant and size, with the size's stock or 0 |
| Domain.Toggled | src/lib/data/repositories/mock.ts:268-276 | the same products with the same ids, every listed one with the new isPublished and updatedAt |
| Domain.SuffixedInjective | convex/products.ts:105 | different numbers give different "<base>-<n>" slugs, none equal to the base |
| Domain.CandidateInjective | convex/products.ts:95-110 | distinct probe attempts try distinct slugs |
| Inventory.SizeRows | convex/inventory.ts:60-72 | one row per selected size, each the row of that product, variant and size |
| Inventory.VariantRowsSpec | convex/inventory.ts:58-72 | one row per variant and selected size, and every row is the row of one such pair |
| Inventory.FlattenSpec | convex/inventory.ts:58-73 | `Inventory.Flatten`, the rows before sorting: one row per product, variant and selected size, with the size's stock or 0 |
| Inventory.WithStockEffect | convex/inventory.ts:108-125 | only the targeted variant changes, in its size entry and sizes only; updatedAt is refreshed |
| Inventory.WithStock | convex/inventory.ts:104-125 | the product with only variant j's stock for the size replaced; the variant count is kept |
| Inventory.ReturnedRowIsListed | convex/inventory.ts:140-148 | the returned row is the flattened row of the updated product for that variant and size |
| Inventory.ListAuditLogsSpec | convex/inventory.ts:154-176 | a prefix of the matching entries sorted newest first: each entry matches every supplied filter, changedAt descends, and there are min(limit, matches) entries, 50 by default |
| Inventory.ListAuditLogs | convex/inventory.ts:154-176 | only stored entries that match the filters, no more than 50 without a limit |
| Inventory.NewestMatchingSpec | convex/inventory.ts:170-174 | the sorted entries are the matching entries, each from the log, in descending changedAt |
| MockRepository.StripDisallowed | src/lib/data/repositories/mock.ts:51 | keeps only a-z, 0-9, whitespace and dashes |
| MockRepository.CollapseRuns | src/lib/data/repositories/mock.ts:52-53 | every run of the class becomes one dash; no other character is introduced |
| MockRepository.CollapseDashes | src/lib/data/repositories/mock.ts:53 | after collapsing dash runs no two dashes are adjacent, and a leading non-dash is kept |
| MockRepository.ToSlugShape | src/lib/data/repositories/mock.ts:47-54 | a slug holds only a-z, 0-9 and '-', never two dashes in a row |
| MockRepository.ToSlugIdempotent | src/lib/data/repositories/mock.ts:47-54 | slugging a slug changes nothing |
| MockRepository.ToSlug | src/lib/data/repositories/mock.ts:47-54 | the slug holds only a-z, 0-9 and '-', and never two dashes in a row |
| MockRepository.SlugShapedIsFixed | src/lib/data/repositories/mock.ts:47-54 | a slug-shaped string is its own slug |
| MockRepository.CleanBase | src/lib/data/repositories/mock.ts:57 | the slug of the base, or "product-<suffix>" when that is empty |
| MockRepository.FirstUntakenUnique | src/lib/data/repositories/mock.ts:56-69 | at most one candidate is the first one nobody else holds |
| MockRepository.TakenProgress | src/lib/data/repositories/mock.ts:61-66 | each rejected candidate uses up one of the products' slugs, so the loop terminates |
| MockRepository.OwnSlugKept | src/lib/data/repositories/mock.ts:56-69 | a non-empty slug-shaped slug that nobody else holds is returned unchanged |
| MockRepository.MockState.EnsureUniqueSlug | src/lib/data/repositories/mock.ts:56-69 | the first of clean, clean-1, clean-2, ... that no product other than `currentId` holds |
| MockRepository.MockState.constructor | src/lib/data/repositories/mock.ts:31-41 | the store starts with the given categories, products, settings and audit logs |
| MockRepository.WithVariantIds | src/lib/data/repositories/mock.ts:196-200 | an empty variant id becomes a fresh one; a non-empty one and all other fields are kept |
| MockRepository.MockState.Create | src/lib/data/repositories/mock.ts:192-209 | prepends exactly one product from the input with createdAt = updatedAt = now and a slug held by no existing product; the existing products are unchanged |
| MockRepository.MockState.Update | src/lib/data/repositories/mock.ts:211-233 | "Product not found." and no change for an unknown id; otherwise the stored product overlaid with the input at the same index, id kept, slug probed while ignoring itself, updatedAt refreshed |
| MockRepository.MockState.SoftDelete | src/lib/data/repositories/mock.ts:235-240 | an unknown id changes nothing; otherwise only isPublished (false) and updatedAt change |
| MockRepository.MockState.Duplicate | src/lib/data/repositories/mock.ts:242-265 | "Product not found." for an unknown id; otherwise prepends a copy named "(Copy)" with sku "-COPY" if present, slug probed from "<slug>-copy", variant ids "-copy-<suffix>", isPublished copied |
| MockRepository.MockState.ToggleBulkStatus | src/lib/data/repositories/mock.ts:267-279 | sets isPublished on exactly the stored products whose id is listed and counts those products once each |
| MockRepository.MockState.ListFlattened | src/lib/data/repositories/mock.ts:310-330 | the nested loops build the flattened rows, then a stable sort by product name |
| MockRepository.ProductRows | src/lib/data/repositories/mock.ts:313-326 | the variant and size loops for one product give its flattened rows in order |
| MockRepository.ListFlattenedSpec | src/lib/data/repositories/mock.ts:310-330 | a permutation of the flattened rows ordered by product name, rows of one product in stored order |
| MockRepository.ByProductNameIsStrictWeakOrder | src/lib/data/repositories/mock.ts:329 | ordering by product name is a strict weak order |
| MockRepository.FindInventoryRow | src/lib/data/repositories/mock.ts:116-136 | the error for an unknown product or variant; otherwise the row of the first product and variant with the ids |
| MockRepository.RowAfterUpdate | src/lib/data/repositories/mock.ts:364-367 | after a stock update the re-read succeeds and reports the stored value |
| MockRepository.MockState.UpdateStock | src/lib/data/repositories/mock.ts:332-369 | errors on an unknown product or variant with no change; otherwise stores max(0, floor(newValue)), appends the size if absent, prepends exactly one log with the prior stock or 0 |
| MockRepository.List | src/lib/data/repositories/mock.ts:140-143 | all products in stored order, or exactly the published ones when `publishedOnly` is true |
| MockRepository.ListCategories | src/lib/data/repositories/mock.ts:285-290 | only stored categories, all of them when `activeOnly` is false, otherwise only active ones |
| MockRepository.ListFeatured | src/lib/data/repositories/mock.ts:145-148 | exactly the published featured products |
| MockRepository.ListByCategorySlug | src/lib/data/repositories/mock.ts:150-152 | the category filter over the published products |
| MockRepository.ListBySubcategorySlugs | src/lib/data/repositories/mock.ts:154-167 | nothing when either slug fails to resolve; otherwise published products of the subcategory |
| MockRepository.ListRelatedBySlug | src/lib/data/repositories/mock.ts:169-174 | published products without the slug, at most `limit ?? 4` |
| MockRepository.GetById | src/lib/data/repositories/mock.ts:176-179 | the first product with the id, or nothing exactly when none has it |
| MockRepository.GetBySlug | src/lib/data/repositories/mock.ts:181-190 | the first holder of the slug that is published (any holder when `publishedOnly` is false); nothing only when no such holder exists |
| MockRepository.SettingsWithBrand | src/lib/data/repositories/mock.ts:296-304 | the stored settings with the brand contact details filling the four absent contact fields, nothing else changed |
| MockRepository.SettingsWithBrandStable | src/lib/data/repositories/mock.ts:296-304 | reading twice equals reading once, and a configured contact field is never replaced |
| Catalog.TopLevelBySlug | src/lib/data/repositories/convex.ts:236 | the first category with the slug and no parent, nothing exactly when there is none |
| Catalog.FilterByCategorySlug | src/lib/data/repositories/convex.ts:221-249 | only listed products, and for `sale` only those with 0 < salePrice < basePrice |
| Catalog.SaleSlug | src/lib/data/repositories/convex.ts:226-232 | `sale` keeps exactly the products with 0 < salePrice < basePrice, a missing price reading as 0 |
| Catalog.NewSlug | src/lib/data/repositories/convex.ts:234-237 | `new` keeps the products of the top-level `new` category, or every product when it is absent |
| Catalog.UnresolvedSlugKeepsAll | src/lib/data/repositories/convex.ts:239-240 | an unresolved top-level slug keeps every product |
| Catalog.ParentSlug | src/lib/data/repositories/convex.ts:242-248 | a parent with children keeps exactly the products of those children; a childless parent keeps the products filed directly in it |
| Catalog.FilterOnlySelects | src/lib/data/repositories/convex.ts:221-249 | every branch only selects: no product is added or repeated |
| Catalog.SubcategoryBySlug | src/lib/data/repositories/convex.ts:272-274 | the first category with the slug under the parent, nothing exactly when none |
| Catalog.SubcategorySelection | src/lib/data/repositories/convex.ts:267-278 | `Catalog.ListBySubcategorySlugs` gives nothing when either slug fails to resolve; otherwise exactly the products filed in the subcategory |
| Catalog.RelatedSelection | src/lib/data/repositories/convex.ts:280-283 | `Catalog.ListRelatedBySlug` is a prefix of the other products in order, without the slug, at most `limit`, 4 by default |
| Catalog.Featured | src/lib/data/repositories/convex.ts:257-260 | exactly the featured products of the published listing |
| ConvexRepository.ToStringOrUndefined | src/lib/data/repositories/convex.ts:43-45 | the string exactly for a string value |
| ConvexRepository.ToNumberOrUndefined | src/lib/data/repositories/convex.ts:47-49 | the number exactly for a number value |
| ConvexRepository.ToStringArray | src/lib/data/repositories/convex.ts:55-59 | empty for a non-array; otherwise its string entries, in order and with repeats, position by position the items the string filter keeps |
| ConvexRepository.StringsOf | src/lib/data/repositories/convex.ts:55-59 | position by position the items `filter(entry => typeof entry === 'string')` keeps, so the same order and repeats; exactly the string entries |
| ConvexRepository.ToStockRecord | src/lib/data/repositories/convex.ts:82-93 | the entry loop computes `StockRecordOf`: empty for a primitive, otherwise the numeric entries of the object or array |
| ConvexRepository.StockRecordOf | src/lib/data/repositories/convex.ts:82-93 | empty for a non-object, non-array value (a Date too, as it has no own entries); otherwise a key is kept exactly when its entry is a number, mapped to that number |
| Values.OwnEntries | src/lib/data/repositories/convex.ts:86 | `Object.entries`: an object's own fields, an array's items under their decimal index, nothing for any other value |
| Values.ArrayEntries | src/lib/data/repositories/convex.ts:86 | an array's item `i` is its entry under `String(i)`, and only indices are keys |
| ConvexRepository.StockRecordOfArrayKeys | src/lib/data/repositories/convex.ts:86-90 | of an array, index `i` is kept exactly when item `i` is a number, with that number, and no other key appears |
| ConvexRepository.StockRecordOfArray | src/lib/data/repositories/convex.ts:86-90 | `[5, "x", 7]` gives `{"0": 5, "2": 7}` |
| ConvexRepository.MeasurementOf | src/lib/data/repositories/convex.ts:69-76 | each of shoulder, chest, sleeve, waist and length of an object entry is its numeric field or undefined; an array entry has only `length`, its item count; a Date entry has none |
| ConvexRepository.MeasurementEntries | src/lib/data/repositories/convex.ts:61-80 | nothing for a non-object, non-array value; otherwise a key gives an entry exactly when its entry is an object (arrays and Dates included), normalised by `MeasurementOf` |
| ConvexRepository.MeasurementEntriesOfArrayKeys | src/lib/data/repositories/convex.ts:68-77 | of an array, index `i` gives an entry exactly when item `i` is an object, and no other key appears |
| ConvexRepository.MeasurementMapOfArray | src/lib/data/repositories/convex.ts:68-79 | an array holding one object gives one measurement under key "0" |
| ConvexRepository.MeasurementMapOfArrayEntry | src/lib/data/repositories/convex.ts:69-76 | `{M: [1, 2]}` gives `{M: {length: 2}}`: an array entry is kept, with its item count as length |
| ConvexRepository.MeasurementMapOf | src/lib/data/repositories/convex.ts:61-80 | undefined exactly when no own entry of the object or array is an object (always for any other value); otherwise the normalised entries |
| ConvexRepository.ToMeasurementMap | src/lib/data/repositories/convex.ts:61-80 | the entry loop computes `MeasurementMapOf` |
| ConvexRepository.ToStoreSettings | src/lib/data/repositories/convex.ts:139-164 | the four contact fields are always present; no row gives id "store-settings" and updatedAt now; a non-nullish `_id` is its `String()` form; updatedAt is `UpdatedAtOf` |
| ConvexRepository.UpdatedAtOf | src/lib/data/repositories/convex.ts:162 | a missing or null `updatedAt` (or no row) reads as now, a number as itself, a boolean as 1 or 0, a Date as its milliseconds |
| ConvexRepository.StoreSettingsFallbacks | src/lib/data/repositories/convex.ts:139-164 | field by field: each of the eleven optional text settings is kept only when it is a string; a stored string contact field wins, otherwise the brand value; saleBannerEnabled is kept only when it is a boolean; featuredProductIds is the string items of an array, else undefined; a nullish `_id` reads as "store-settings", a string one as itself |
| ConvexRepository.NoSettingsRow | src/lib/data/repositories/convex.ts:139-164 | with no row every optional field is absent and the contact fields take the brand values |
| ConvexRepository.ListCategoriesSpec | src/lib/data/repositories/convex.ts:352-362 | ascending sortOrder; all categories when `activeOnly` is false, otherwise exactly the active ones |
| ConvexRepository.ListCategories | src/lib/data/repositories/convex.ts:352-362 | only stored categories, all of them when `activeOnly` is false, otherwise only active ones |
| Backends.CategoryListsAgree | src/lib/data/repositories/mock.ts:285-290 | the mock (filter then sort) and the server (sort then filter) list the same categories in the same order |
| Backends.ProductListsSameContents | convex/products.ts:116-125 | both product listings hold the same products; only the server reorders them |
| Backends.GetBySlugDiffers | convex/products.ts:140-150 | when the first holder of a slug is unpublished and a later one published, the server finds nothing and the mock finds the later one |
| Backends.ToggleCountsDiffer | src/lib/data/repositories/mock.ts:268-276 | an id listed twice counts once in the mock and twice on the server |
| Backends.SlugNormalisationDiffers | convex/products.ts:93 | when the trimmed, lower-cased slug holds a space, the server's slug base keeps it while the mock's `toSlug` (src/lib/data/repositories/mock.ts:47-54) never has one |
| Backends.DuplicatePublishDiffers | convex/products.ts:203-231 | a duplicate of a published product is unpublished on the server but stays published in the mock (src/lib/data/repositories/mock.ts:242-265) |
| Backends.FlattenedOrderDiffers | src/lib/data/repositories/mock.ts:329 | the mock keeps one product's variants in stored order, the server orders them by colour |
| MockData.GetProductBySlug | src/lib/mock-data.ts:285-287 | the first product with the slug that is published, nothing exactly when none |
| MockData.GetProductsByCategory | src/lib/mock-data.ts:289-307 | only catalogue products, and for `sale` only those with a non-zero sale price below the base price |
| MockData.NewIsCatNew | src/lib/mock-data.ts:290-292 | `new` keeps exactly the products of category `cat-new` |
| MockData.SaleSelection | src/lib/mock-data.ts:294-296 | `sale` keeps products with a non-zero sale price below the base price (missing base as 0), which unlike the repositories admits a negative sale price |
| MockData.UnknownSlugKeepsAll | src/lib/mock-data.ts:298-301 | a slug naming no top-level category keeps every product |
| MockData.ParentKeepsChildren | src/lib/mock-data.ts:303-306 | a top-level slug keeps exactly the products of its children, so a childless parent gives nothing |
| MockData.MenIncludesMenShirts | src/lib/mock-data.ts:6-63 | with the seeded categories, `men` includes every product filed under the men's shirts |
| MockData.GetFeaturedProducts | src/lib/mock-data.ts:309-311 | exactly the featured and published products |
| Cart.SameLine | src/components/store/cart-context.tsx:34-39 | two lines are the same exactly when product, colour variant and size agree |
| Cart.UnitPrice | src/components/store/cart-context.tsx:28-32 | the sale price, else the base price, else 0; 0 for an unknown product |
| Cart.AddItem | src/components/store/cart-context.tsx:66-74 | an existing line gains the quantity, keeping the length and the other lines; otherwise the item is appended |
| Cart.AddItemTotals | src/components/store/cart-context.tsx:66-74 | adding raises the item count by the quantity and the subtotal by unit price times quantity |
| Cart.AddItemKeepsUniqueKeys | src/components/store/cart-context.tsx:66-74 | adding keeps line keys unique and leaves a line with the item's key |
| Cart.SetQuantity | src/components/store/cart-context.tsx:80-82 | the quantity replaced on the matching lines only, order kept |
| Cart.RemoveItem | src/components/store/cart-context.tsx:85-87 | exactly the lines on the key are dropped, the others kept in order |
| Cart.UpdateQuantity | src/components/store/cart-context.tsx:76-83 | a quantity of 0 or less removes the matching lines; any other sets it on the matching lines and keeps the order |
| Cart.UpdatesKeepUniqueKeys | src/components/store/cart-context.tsx:76-87 | removing and re-quantifying keep line keys unique |
| Cart.RemoveItemAt | src/components/store/cart-context.tsx:85-87 | with unique keys, removing a line's key removes that line alone and lowers the totals by its share |
| Cart.ClearCart | src/components/store/cart-context.tsx:89 | the empty cart, with no items |
| Cart.TotalItemsConcat | src/components/store/cart-context.tsx:95 | `Cart.TotalItems`: the item count of two carts together is the sum of their counts |
| Cart.SubtotalConcat | src/components/store/cart-context.tsx:91-93 | `Cart.Subtotal`: the subtotal of two carts together is the sum of their subtotals |
| Cart.TotalItemsNonNegative | src/components/store/cart-context.tsx:95 | non-negative quantities give a non-negative item count |
| Cart.SubtotalNonNegative | src/components/store/cart-context.tsx:91-93 | lines of non-negative amount give a non-negative subtotal |
| OrderUtils.SubtotalConcat | src/lib/order-utils.ts:4-6 | `OrderUtils.CalculateSubtotal`: the subtotal of a concatenation is the sum of the subtotals |
| OrderUtils.SubtotalNonNegative | src/lib/order-utils.ts:4-6 | non-negative prices and quantities give a non-negative subtotal |
| OrderUtils.SubtotalExample | src/lib/order-utils.test.ts:6-13 | 49000 × 1 plus 12000 × 2 is 73000 |
| OrderUtils.CalculateShippingFee | src/lib/order-utils.ts:8-10 | 0 exactly for pickup, 2500 for shipping |
| OrderUtils.GenerateOrderNumber | src/lib/order-utils.ts:12-15 | "ORD-<year>-" followed by the sequence, left-padded with '0' to four characters |
| OrderUtils.OrderNumberExample | src/lib/order-utils.test.ts:19-22 | sequence 7 in 2026 gives ORD-2026-0007 |
| OrderUtils.NoTruncation | src/lib/order-utils.ts:14 | a sequence of four or more digits appears verbatim |
| OrderUtils.OrderNumberInjective | src/lib/order-utils.ts:12-15 | within one year distinct non-negative sequences get distinct order numbers |
| DataSource.ParseSource | src/lib/data/source.ts:14-18 | `mock` or `convex` exactly when the trimmed, lower-cased value is that name; nothing otherwise |
| DataSource.ParseSourceTrimsAndLowers | src/lib/data/source.ts:16 | " Convex " parses as convex |
| DataSource.ParseSourceBlank | src/lib/data/source.ts:15-17 | empty and blank values name no source |
| DataSource.HasConvexConfig | src/lib/data/source.ts:20-22 | configured exactly when both the deployment and the public URL are non-empty |
| DataSource.Selected | src/lib/data/source.ts:24-66 | a mock request gives mock with no reason; a convex request gives convex when configured, else mock with a reason; no request gives convex exactly when configured, with a reason exactly for mock; convex only when configured |
| DataSource.RequestHonoured | src/lib/data/source.ts:29-50 | a valid request is honoured exactly when it is mock or convex is configured |
| DataSource.ResolveClientPreferredSource | src/lib/data/source.ts:68-75 | the public variable if valid, else the server variable if valid, else mock |
| Telemetry.CrumbOf | src/lib/data/telemetry.ts:33-40 | the breadcrumb carries the selection's fields and the time |
| Telemetry.Newest | src/lib/data/telemetry.ts:41 | `slice(-50)`: the last (at most) 50 entries |
| Telemetry.NewestAppend | src/lib/data/telemetry.ts:33-41 | capping after each append equals capping once at the end |
| Telemetry.Step | src/lib/data/telemetry.ts:17-42 | the same selection as last time changes nothing; otherwise the last key is updated and one breadcrumb is appended, then capped |
| Telemetry.FirstCallLogs | src/lib/data/telemetry.ts:3 | the first call always logs, because the last key starts empty |
| Telemetry.AlternatingLogsEachTime | src/lib/data/telemetry.ts:17-23 | de-duplication only looks at the previous selection: A, B, A logs three breadcrumbs |
| Telemetry.RepeatLogsOnce | src/lib/data/telemetry.ts:17-21 | repeating a selection logs once |
| Telemetry.TwoDistinctLog | src/lib/data/telemetry.ts:17-42 | two different selections from the start log two breadcrumbs in order |
| Telemetry.RunKeepsNewest | src/lib/data/telemetry.ts:41 | after every run at most 50 breadcrumbs remain, and they are the newest of those an uncapped run logs |
| Telemetry.BreadcrumbTrail.AddDataSourceBreadcrumb | src/lib/data/telemetry.ts:17-42 | the module state after a call is one step of the trail, capped at 50 |
| Telemetry.BreadcrumbTrail.constructor | src/lib/data/telemetry.ts:3-33 | the module starts with an empty last key and no breadcrumbs (`?? []`) |
| Telemetry.ResolveServerDataSource | src/lib/data/source.ts:24-66 | returns the selection for the environment and records it in the trail |
| ConvexSettings.SettingsTable.Get | convex/settings.ts:5-10 | the first row, or nothing exactly for an empty table |
| ConvexSettings.MergeFields | convex/settings.ts:32-36 | each of the sixteen settings fields is merged by `Pick`: a supplied field replaces the stored one, an absent one keeps it |
| ConvexSettings.Pick | convex/settings.ts:32-36 | the supplied value when there is one, otherwise the stored value |
| ConvexSettings.MergeLaws | convex/settings.ts:32-36 | upserting nothing changes nothing, upserting the same fields twice is upserting once, later fields win |
| ConvexSettings.Upserted | convex/settings.ts:12-43 | an existing first row is patched with the fields and updatedAt, keeping the id, its featuredProductIds and the other rows; an empty table gets one row without featuredProductIds |
| ConvexSettings.SettingsTable.Upsert | convex/settings.ts:12-43 | patches the first row and returns its id, or inserts one row and returns the new id |
| ConvexSettings.UpsertsLeaveOneRow | convex/settings.ts:32-41 | from at most one row, any non-empty run of upserts leaves exactly one row, keeping its first id |
| ConvexUsers.ByEmail | convex/users.ts:12-20 | the first row with the email, nothing exactly when none |
| ConvexUsers.ByBetterAuthId | convex/users.ts:22-30 | the first row with the auth id, nothing exactly when none |
| ConvexUsers.UpsertedUsers | convex/users.ts:32-66 | an existing email's row gets only the new name, phone, role and auth id, the row count is kept; a new email adds one active row |
| ConvexUsers.UserTable.UpsertFromAuth | convex/users.ts:32-66 | the table becomes the upserted table; returns the existing id or the new one |
| ConvexUsers.UpsertThenByEmail | convex/users.ts:41-64 | after the upsert, looking the email up finds a row with the given name, role and auth id |
| RoleSync.AllowListSpec | src/lib/auth/role-sync.ts:5-10 | an address is listed exactly when it is the non-empty trimmed, lower-cased form of some comma-separated entry |
| RoleSync.AllowListSound | src/lib/auth/role-sync.ts:5-10 | every listed address is the non-empty normal form of some entry |
| RoleSync.AllowListComplete | src/lib/auth/role-sync.ts:5-10 | the non-empty normal form of every entry is listed |
| RoleSync.AllowedIsNormal | src/lib/auth/role-sync.ts:7-8 | every listed address is non-empty and normalised |
| RoleSync.NoSettingNoAdmins | src/lib/auth/role-sync.ts:6-9 | an unset or empty setting lists nobody |
| RoleSync.IsSuperAdminEmailSpec | src/lib/auth/role-sync.ts:12-14 | `RoleSync.IsSuperAdminEmail` (`isSuperAdminEmail`) is true exactly when the trimmed, lower-cased address is non-empty and equals the trimmed, lower-cased form of some entry of the setting |
| RoleSync.MembershipIgnoresPadding | src/lib/auth/role-sync.ts:12-14 | membership ignores case and surrounding whitespace: an address and its normal form, or the address with a leading space, get the same answer |
| RoleSync.NobodyWithoutSetting | src/lib/auth/role-sync.ts:5-14 | with the setting unset or empty, no address is a super-admin |
| RoleSync.RoleFor | src/lib/auth/role-sync.ts:20 | admin exactly for a super-admin address, customer otherwise |
| RoleSync.SyncDomainRoleFromAuthIdentity | src/lib/auth/role-sync.ts:16-35 | the chosen role and the identity's id are returned and written through the users upsert; the returned user id is the id of the first user with that email, or the new id when there was none |
| Session.IsSuperAdminEmailSpec | src/lib/auth/session.ts:17-23 | `Session.IsSuperAdminEmail` (`isSuperAdminEmail`) is true exactly when the lower-cased (untrimmed) address is non-empty and equals the trimmed, lower-cased form of some entry of the setting |
| Session.PaddingDefeatsMatch | src/lib/auth/session.ts:17-23 | a leading space defeats the session rule's match, though the sync rule ignores it |
| Session.PaddedNotListed | src/lib/auth/session.ts:17-23 | a space-prefixed address is never on the normalised list |
| Session.NormalFormAgrees | src/lib/auth/session.ts:17-23 | on a normalised address both super-admin rules agree |
| Session.GetSession | src/lib/auth/session.ts:25-37 | no token: unauthenticated customer; with a token: authenticated, admin exactly when the role cookie is "admin", email and name passed through |
| AdminGuard.Middleware | middleware.ts:3-18 | a path not starting with `/admin` passes; one that does passes exactly with role cookie "admin" and a non-empty session cookie; otherwise a redirect to /auth/login with next = the path |
| AdminGuard.Guard | middleware.ts:20-22 | paths outside `/admin` and `/admin/...` pass without the middleware running; on those paths a request passes exactly with role cookie "admin" and a non-empty session cookie, otherwise it is redirected to /auth/login with next = the path |
| AdminGuard.MatcherNarrowsPrefix | middleware.ts:3-22 | `/administrator` would be redirected by the prefix test alone, but the matcher keeps the middleware from running, so it passes |
| AdminGuard.GuardMatchesSession | middleware.ts:8-17 | on matched paths the guard passes exactly when the session read from the same cookies is an authenticated admin |
| Sorting.SortPermutation | convex/auth.ts:185-196 | the stable sort returns a permutation of its input |
| Sorting.SortSorted | convex/auth.ts:185-196 | under a strict weak order the result is sorted |
| Sorting.SortStable | convex/auth.ts:185-196 | elements the order does not separate keep their input order |
| Sorting.FilterSort | src/lib/data/repositories/mock.ts:285-290 | filtering a sorted list equals sorting the filtered list |
| Strings.Includes | convex/auth.ts:83-86 | `includes` holds exactly when the needle occurs somewhere |
| Strings.TrimLowerIdempotent | src/lib/data/source.ts:16 | trimming and lower-casing twice is doing it once |
| Strings.Trim | src/lib/data/source.ts:16 | `trim()`: no longer than the input, neither starting nor ending with whitespace |
| Strings.TrimCutsWhitespace | src/lib/data/source.ts:16 | `trim()` is the input with its leading and trailing whitespace cut off: a window of the input with only whitespace before and after it |
| Strings.ToLower | src/lib/data/source.ts:16 | `toLowerCase()` on ASCII: same length, each character lowered |
| Strings.Split | src/lib/auth/role-sync.ts:7 | `split(',')`: at least one piece, none containing the separator |
| Strings.IntToString | src/lib/order-utils.ts:14 | `String(n)`: the digits of n, after a '-' for a negative n |
| Strings.IntToStringValue | src/lib/order-utils.ts:14 | `String(n)` has a '-' exactly for a negative n, then decimal digits without a leading zero whose value is the magnitude of n |
| Strings.NatToStringValue | src/lib/order-utils.ts:14 | the digits `String(n)` prints denote n |
| Strings.PadStart | src/lib/order-utils.ts:14 | `padStart` never truncates and fills only on the left |
| Strings.SplitJoin | src/lib/auth/role-sync.ts:7 | splitting on the separator loses nothing: joining the pieces gives the input back |
| Strings.LocaleCompare | convex/inventory.ts:44-50 | negative, zero or positive exactly as a sorts before, equals or sorts after b |

## Left out

- Mixed-type sort keys in `findMany`. JavaScript's `>` across types is not a consistent order. The model proves the comparator only on comparable keys (`AuthQuery.SourceCompareAgrees`): null with null, undefined with undefined, nullish with anything, and two values of one primitive type. The sort itself is stated over the consistent key order.
- Floating point. Prices, stock and timestamps are integers. `newValue` is a real number floored by `Math.floor`. NaN and Infinity are not modelled.
- Unicode case mapping. `toLowerCase` lowers only ASCII A-Z. `localeCompare` is plain code-unit order.
- Dates are epoch milliseconds. `getFullYear` is taken as a year parameter, so time zones are not modelled.
- AuthQuery.AuthTable.Create: of the store's field-name rules only the reserved `_` prefix is modelled; other validation of `v.any()` data (nested names, value types) is not, and the refusal is a `Failure` value rather than a thrown error.
- ConvexRepository.ToStoreSettings: a string, array or object `updatedAt` reads as 0, where `Number()` would parse the text or give NaN; strings are not parsed in this model.
- Each mutation uses one `now`. The source reads `Date.now()` separately for the product patch and the audit log.
- Random suffixes, fresh ids and environment and cookie values are parameters.
- Network and client plumbing are not part of this model: Convex clients, the remote calls of the repositories and the adapter factory. The adapter's remote query is a parameter.
- `toCategory`, `toProduct`, `toInventoryRow` and `toInventoryAuditLog` in `repositories/convex.ts` are not part of this model. The repositories are modelled over typed records.
- The mock's `deepClone` is value copying. Spreading an explicit `undefined` input field over a stored one is not modelled: an absent optional field keeps the stored value.
- Telemetry key equality: `JSON.stringify(selection)` equality is modelled as selection equality, so key order inside the JSON text is not modelled. Console logging is left out.
- localStorage persistence of the cart, cookie writes in `createSession`/`clearSession`, and React context and hooks are I/O and are left out.
- Concurrency. Each mutation is one atomic method, so the read-modify-write race in the stock update is not modelled.
- AuthQuery.AuthTable.RemoveMany, AuthQuery.AuthTable.UpdateMany: the loop builds the new row sequence and assigns it once, rather than issuing one delete or patch per row.
- AuthQuery.AuthTable.Update: the returned row is the patched row held in the table, rather than a second read.
- AuthAdapter.NormalizeJoinValue: the stringification of objects, arrays and Dates follows `Values.JsString`. A Date prints as its milliseconds, not as its calendar text.
- ConvexRepository.ToStoreSettings: a Date `_id` prints as its milliseconds rather than as calendar text, as for `AuthAdapter.NormalizeJoinValue`.
- Session.IsSuperAdminEmail does not trim the address; that is the source's behaviour, stated in `Session.PaddingDefeatsMatch`.

=== FILE: admin_guard.dfy ===
/** The route guard in `middleware.ts`: requests under `/admin` need the
    admin role cookie and a session cookie. Path and cookies are parameters. */
module AdminGuard {
  import opened Wrappers
  import opened Strings
  import opened Domain
  import Session

  datatype Response = Next | Redirect(path: string, nextParam: string)

  const AdminPrefix := "/admin"
  const LoginPath := "/auth/login"

  /** `middleware`: pass, or redirect to the login page with the original path. */
  function Middleware(pathname: string, roleCookie: Option<string>, sessionCookie: Option<string>): (r: Response)
    ensures !StartsWith(pathname, AdminPrefix) ==> r == Next
    ensures StartsWith(pathname, AdminPrefix) ==> (r == Next <==> roleCookie == Some("admin") && Filled(sessionCookie))
    ensures r != Next ==> r == Redirect(LoginPath, pathname)
  {
    if !StartsWith(pathname, AdminPrefix) then Next
    else if roleCookie != Some("admin") || !Filled(sessionCookie) then Redirect(LoginPath, pathname)
    else Next
  }

  /** The `config.matcher` pattern `/admin/:path*`: the middleware runs only
      for `/admin` itself and paths below it. */
  predicate MatcherApplies(pathname: string) {
    pathname == AdminPrefix || StartsWith(pathname, AdminPrefix + "/")
  }

  /** A request as the framework routes it: the middleware runs only where
      the matcher applies, and every other request passes. */
  function Guard(pathname: string, roleCookie: Option<string>, sessionCookie: Option<string>): (r: Response)
    ensures !MatcherApplies(pathname) ==> r == Next
    ensures MatcherApplies(pathname) ==> (r == Next <==> roleCookie == Some("admin") && Filled(sessionCookie))
    ensures r != Next ==> r == Redirect(LoginPath, pathname)
  {
    if MatcherApplies(pathname) then
      assert AdminPrefix <= AdminPrefix + "/";
      Middleware(pathname, roleCookie, sessionCookie)
    else Next
  }

  /** The matcher is narrower than the prefix test: `/administrator` starts
      with `/admin`, so the middleware alone would redirect it, but the
      middleware never runs for it. */
  lemma MatcherNarrowsPrefix()
    ensures Middleware("/administrator", None, None) == Redirect(LoginPath, "/administrator")
    ensures Guard("/administrator", None, None) == Next
  {
    assert AdminPrefix <= "/administrator";
    assert "/administrator"[6] != '/';
  }

  /** On admin paths the guard lets a request through exactly when the
      session read from the same cookies is an authenticated admin. */
  lemma GuardMatchesSession(pathname: string, roleCookie: Option<string>, sessionCookie: Option<string>,
                            emailCookie: Option<string>, nameCookie: Option<string>)
    requires MatcherApplies(pathname)
    ensures var s := Session.GetSession(sessionCookie, roleCookie, emailCookie, nameCookie);
      Guard(pathname, roleCookie, sessionCookie) == Next <==> s.isAuthenticated && s.role == Admin
  {
  }
}

=== FILE: auth_adapter.dfy ===
/** The storage adapter between the authentication library and the auth tables
    (`src/lib/auth/better-auth/convex-adapter.ts`): dates travel as epoch
    milliseconds for a fixed set of field names, and `attachJoinData` hangs
    related rows off each source row. The remote query is a parameter. */
module AuthAdapter {
  import opened Wrappers
  import opened Strings
  import opened Values
  import opened AuthQuery

  /** The field names whose values are stored as epoch milliseconds. */
  const DateFields: set<string> :=
    {"createdAt", "updatedAt", "expiresAt", "accessTokenExpiresAt", "refreshTokenExpiresAt"}

  /** `serializeValue`: a Date in a date field becomes its milliseconds. */
  function SerializeValue(field: string, v: Value): (r: Value)
    ensures v.Date? && field in DateFields ==> r == Num(v.ms)
    ensures !(v.Date? && field in DateFields) ==> r == v
    ensures field in DateFields ==> !r.Date?
  {
    if v.Date? && field in DateFields then Num(v.ms) else v
  }

  /** `deserializeValue`: a number in a date field becomes a Date. */
  function DeserializeValue(field: string, v: Value): (r: Value)
    ensures v.Num? && field in DateFields ==> r == Date(v.n)
    ensures !(v.Num? && field in DateFields) ==> r == v
    ensures field in DateFields ==> !r.Num?
  {
    if field in DateFields && v.Num? then Date(v.n) else v
  }

  /** `serializeRecord`: the same keys, each value serialised by its own key. */
  function SerializeRecord(d: Doc): (r: Doc)
    ensures r.Keys == d.Keys
    ensures forall k :: k in d ==> r[k] == SerializeValue(k, d[k])
  {
    map k | k in d :: SerializeValue(k, d[k])
  }

  /** `deserializeRecord`: the same keys, each value deserialised by its own key. */
  function DeserializeRecord(d: Doc): (r: Doc)
    ensures r.Keys == d.Keys
    ensures forall k :: k in d ==> r[k] == DeserializeValue(k, d[k])
  {
    map k | k in d :: DeserializeValue(k, d[k])
  }

  /** No date field holds a number: Dates and non-numbers survive the round trip. */
  predicate NoNumberInDateField(d: Doc) {
    forall k :: k in d && k in DateFields ==> !d[k].Num?
  }

  predicate NoDateInDateField(d: Doc) {
    forall k :: k in d && k in DateFields ==> !d[k].Date?
  }

  /** Writing a record and reading it back gives the record, provided no date field holds a number. */
  lemma RecordRoundTrip(d: Doc)
    requires NoNumberInDateField(d)
    ensures DeserializeRecord(SerializeRecord(d)) == d
  {
    var r := DeserializeRecord(SerializeRecord(d));
    assert forall k :: k in d ==> r[k] == d[k];
  }

  /** Reading a stored row and writing it back gives the row, provided no date field holds a Date. */
  lemma StoredRoundTrip(d: Doc)
    requires NoDateInDateField(d)
    ensures SerializeRecord(DeserializeRecord(d)) == d
  {
    var r := SerializeRecord(DeserializeRecord(d));
    assert forall k :: k in d ==> r[k] == d[k];
  }

  /** The condition is needed: a number in a date field comes back as a Date. */
  lemma NumberInDateFieldDoesNotRoundTrip()
    ensures DeserializeRecord(SerializeRecord(map["createdAt" := Num(5)])) == map["createdAt" := Date(5)]
  {
    var d := map["createdAt" := Num(5)];
    assert SerializeRecord(d) == d;
  }

  /** `serializeWhere`: every Date clause value becomes milliseconds, whatever the
      field; field, operator, connector, length and order are kept. */
  function SerializeWhere(where: seq<Clause>): (r: seq<Clause>)
    ensures |r| == |where|
    ensures forall i :: 0 <= i < |r| ==>
      r[i].field == where[i].field && r[i].operator == where[i].operator && r[i].connector == where[i].connector
    ensures forall i :: 0 <= i < |r| ==>
      r[i].value == if where[i].value.Date? then Num(where[i].value.ms) else where[i].value
  {
    if where == [] then []
    else
      var c := where[0];
      [c.(value := if c.value.Date? then Num(c.value.ms) else c.value)] + SerializeWhere(where[1..])
  }

  /** The query `authFindMany` on the server, reduced to the arguments a join
      lookup passes: model name, where clauses and limit. */
  type Remote = (string, seq<Clause>, Option<int>) -> seq<Doc>

  /** `findManyRaw` for a join lookup: clauses serialised on the way out, rows deserialised on the way back. */
  function FindManyRaw(remote: Remote, model: string, where: seq<Clause>, limit: Option<int>): (r: seq<Doc>)
    ensures var raw := remote(model, SerializeWhere(where), limit);
      |r| == |raw| && forall i :: 0 <= i < |r| ==> r[i] == DeserializeRecord(raw[i])
    ensures forall i :: 0 <= i < |r| ==> NoNumberInDateField(r[i])
  {
    var raw := remote(model, SerializeWhere(where), limit);
    seq(|raw|, i requires 0 <= i < |raw| => DeserializeRecord(raw[i]))
  }

  datatype Relation = OneToOne | OneToMany | ManyToMany

  /** One entry of the `join` object: the related model, `on.from`/`on.to`, relation and limit. */
  datatype JoinSpec = JoinSpec(model: string, from: string, to: string, relation: Option<Relation>, limit: Option<int>)

  /** The keys of a `join` object are distinct. */
  predicate DistinctModels(joins: seq<JoinSpec>) {
    forall t, u :: 0 <= t < u < |joins| ==> joins[t].model != joins[u].model
  }

  predicate IsJoinModel(joins: seq<JoinSpec>, k: string) {
    exists t :: 0 <= t < |joins| && joins[t].model == k
  }

  /** The lookup value: strings, numbers and booleans as they are, null and
      undefined as null, anything else stringified. */
  function NormalizeJoinValue(v: Value): (r: Value)
    ensures v.Str? || v.Num? || v.Bool? ==> r == v
    ensures IsNullish(v) ==> r == Null
    ensures !(v.Str? || v.Num? || v.Bool? || IsNullish(v)) ==> r == Str(JsString(v))
    ensures r.Str? || r.Num? || r.Bool? || r.Null?
  {
    if v.Str? || v.Num? || v.Bool? then v
    else if IsNullish(v) then Null
    else Str(JsString(v))
  }

  /** The single clause of a join lookup: `on.to` equals the normalised `on.from` value. */
  function JoinClause(spec: JoinSpec, current: Doc): Clause {
    Clause(spec.to, NormalizeJoinValue(Get(current, spec.from)), Some(Eq), Some(And))
  }

  function Related(remote: Remote, spec: JoinSpec, current: Doc): seq<Doc> {
    FindManyRaw(remote, spec.model, [JoinClause(spec, current)], spec.limit)
  }

  /** What a row gains under the join's name: the first related row or null for
      one-to-one, the whole related list otherwise. */
  function JoinedValue(spec: JoinSpec, related: seq<Doc>): (r: Value)
    ensures spec.relation == Some(OneToOne) ==> r == (if related == [] then Null else Obj(related[0]))
    ensures spec.relation != Some(OneToOne) ==> (r.Arr? && |r.items| == |related|
      && forall i :: 0 <= i < |related| ==> r.items[i] == Obj(related[i]))
  {
    if spec.relation == Some(OneToOne) then (if related == [] then Null else Obj(related[0]))
    else Arr(seq(|related|, i requires 0 <= i < |related| => Obj(related[i])))
  }

  /** The row after the joins, in order; each lookup reads the row as the earlier joins left it. */
  function JoinRow(current: Doc, joins: seq<JoinSpec>, remote: Remote): Doc
    decreases |joins|
  {
    if joins == [] then current
    else
      var spec := joins[0];
      JoinRow(current[spec.model := JoinedValue(spec, Related(remote, spec, current))], joins[1..], remote)
  }

  /** What `attachJoinData` returns. */
  function Attached(rows: seq<Doc>, join: Option<seq<JoinSpec>>, remote: Remote): (r: seq<Doc>)
    ensures join.None? || rows == [] ==> r == rows
    ensures |r| == |rows|
  {
    if join.None? || rows == [] then rows
    else seq(|rows|, i requires 0 <= i < |rows| => JoinRow(rows[i], join.value, remote))
  }

  /** `attachJoinData`: the loop over rows and, per row, over the join entries. */
  method AttachJoinData(rows: seq<Doc>, join: Option<seq<JoinSpec>>, remote: Remote) returns (out: seq<Doc>)
    ensures out == Attached(rows, join, remote)
  {
    if join.None? || |rows| == 0 {
      return rows;
    }
    var joins := join.value;
    var joinedRows: seq<Doc> := [];
    var i := 0;
    while i < |rows|
      invariant 0 <= i <= |rows|
      invariant |joinedRows| == i
      invariant forall k :: 0 <= k < i ==> joinedRows[k] == JoinRow(rows[k], joins, remote)
    {
      var current := rows[i];
      var t := 0;
      while t < |joins|
        invariant 0 <= t <= |joins|
        invariant JoinRow(current, joins[t..], remote) == JoinRow(rows[i], joins, remote)
      {
        var spec := joins[t];
        var related := FindManyRaw(remote, spec.model, [JoinClause(spec, current)], spec.limit);
        current := current[spec.model := JoinedValue(spec, related)];
        assert joins[t..][1..] == joins[t + 1..];
        t := t + 1;
      }
      joinedRows := joinedRows + [current];
      i := i + 1;
    }
    out := joinedRows;
  }

  lemma IsJoinModelTail(joins: seq<JoinSpec>, k: string)
    requires joins != []
    ensures IsJoinModel(joins, k) <==> joins[0].model == k || IsJoinModel(joins[1..], k)
  {
    assert forall u :: 0 <= u < |joins[1..]| ==> joins[1..][u] == joins[u + 1];
    if IsJoinModel(joins, k) && joins[0].model != k {
      var t :| 0 <= t < |joins| && joins[t].model == k;
      assert joins[1..][t - 1].model == k;
    }
  }

  /** A joined row has the source row's keys plus one key per join model. */
  lemma {:induction false} JoinRowKeys(current: Doc, joins: seq<JoinSpec>, remote: Remote)
    decreases |joins|
    ensures var r := JoinRow(current, joins, remote);
      forall k :: k in r <==> k in current || IsJoinModel(joins, k)
  {
    if joins != [] {
      var spec := joins[0];
      var next := current[spec.model := JoinedValue(spec, Related(remote, spec, current))];
      JoinRowKeys(next, joins[1..], remote);
      forall k ensures IsJoinModel(joins, k) <==> k == spec.model || IsJoinModel(joins[1..], k) {
        IsJoinModelTail(joins, k);
      }
    }
  }

  /** Keys that are not join models keep their values. */
  lemma {:induction false} JoinRowKeepsOthers(current: Doc, joins: seq<JoinSpec>, remote: Remote)
    decreases |joins|
    ensures var r := JoinRow(current, joins, remote);
      forall k :: k in current && !IsJoinModel(joins, k) ==> k in r && r[k] == current[k]
  {
    if joins != [] {
      var spec := joins[0];
      var next := current[spec.model := JoinedValue(spec, Related(remote, spec, current))];
      JoinRowKeepsOthers(next, joins[1..], remote);
      forall k ensures IsJoinModel(joins, k) <==> k == spec.model || IsJoinModel(joins[1..], k) {
        IsJoinModelTail(joins, k);
      }
    }
  }

  /** Under each join model: null or a row for one-to-one, a list otherwise. */
  lemma {:induction false} JoinRowShape(current: Doc, joins: seq<JoinSpec>, remote: Remote)
    requires DistinctModels(joins)
    decreases |joins|
    ensures var r := JoinRow(current, joins, remote);
      forall t :: 0 <= t < |joins| ==> (joins[t].model in r &&
        if joins[t].relation == Some(OneToOne) then r[joins[t].model].Null? || r[joins[t].model].Obj?
        else r[joins[t].model].Arr?)
  {
    if joins != [] {
      var spec := joins[0];
      var next := current[spec.model := JoinedValue(spec, Related(remote, spec, current))];
      var rest := joins[1..];
      assert forall u :: 0 <= u < |rest| ==> rest[u] == joins[u + 1];
      JoinRowShape(next, rest, remote);
      assert !IsJoinModel(rest, spec.model);
      JoinRowKeepsOthers(next, rest, remote);
    }
  }

  /** When no join reads a key another join writes, every lookup uses the source
      row's own value: each join model maps to the joined value of the lookup on
      the original row. */
  lemma {:induction false} JoinRowIndependent(current: Doc, joins: seq<JoinSpec>, remote: Remote)
    requires DistinctModels(joins)
    requires forall t, u :: 0 <= t < |joins| && 0 <= u < |joins| ==> joins[t].from != joins[u].model
    decreases |joins|
    ensures var r := JoinRow(current, joins, remote);
      forall t :: 0 <= t < |joins| ==>
        joins[t].model in r && r[joins[t].model] == JoinedValue(joins[t], Related(remote, joins[t], current))
  {
    if joins != [] {
      var spec := joins[0];
      var next := current[spec.model := JoinedValue(spec, Related(remote, spec, current))];
      var rest := joins[1..];
      assert forall t :: 0 <= t < |rest| ==> rest[t] == joins[t + 1];
      JoinRowIndependent(next, rest, remote);
      JoinRowKeepsOthers(next, rest, remote);
      forall t | 0 <= t < |rest| ensures Related(remote, rest[t], next) == Related(remote, rest[t], current) {
        assert rest[t].from != spec.model;
        assert Get(next, rest[t].from) == Get(current, rest[t].from);
      }
      assert !IsJoinModel(rest, spec.model) by {
        forall u | 0 <= u < |rest| ensures rest[u].model != spec.model {
          assert rest[u] == joins[u + 1];
        }
      }
    }
  }

  /** Joining keeps the rows' number and order; each output row is its input
      row plus one key per join model, every other key unchanged. */
  lemma AttachedRows(rows: seq<Doc>, joins: seq<JoinSpec>, remote: Remote, i: int)
    requires 0 <= i < |rows|
    ensures var r := Attached(rows, Some(joins), remote);
      |r| == |rows|
      && (forall k :: k in r[i] <==> k in rows[i] || IsJoinModel(joins, k))
      && (forall k :: k in rows[i] && !IsJoinModel(joins, k) ==> r[i][k] == rows[i][k])
  {
    JoinRowKeys(rows[i], joins, remote);
    JoinRowKeepsOthers(rows[i], joins, remote);
  }
}

=== FILE: auth_query.dfy ===
/** The generic query engine behind the authentication tables (`convex/auth.ts`):
    one where-clause is evaluated against a document, a clause list is folded
    left to right with AND/OR connectors, and the handlers filter, project, sort,
    page, count, patch and delete over the whole table loaded in memory. */
module AuthQuery {
  import opened Wrappers
  import opened Strings
  import opened Seqs
  import opened Sorting
  import opened Values

  datatype Operator =
    | Eq | Ne | Lt | Lte | Gt | Gte | In | NotIn | Contains | StartsWith | EndsWith
      /** An operator name outside the known set; it reaches the `default` branch. */
    | Unknown(name: string)

  datatype Connector = And | Or

  datatype Clause = Clause(field: string, value: Value, operator: Option<Operator>, connector: Option<Connector>)

  /** `value.includes(fieldValue)` on a clause array: SameValueZero, so a stored
      array or object is never found in it. */
  predicate ArrayIncludes(items: seq<Value>, x: Value) {
    IsPrimitive(x) && x in items
  }

  predicate BothNumbers(a: Value, b: Value) {
    a.Num? && b.Num?
  }

  predicate BothStrings(a: Value, b: Value) {
    a.Str? && b.Str?
  }

  /** `evaluateClause`: a total function of the document and the clause. */
  function EvaluateClause(doc: Doc, c: Clause): (r: bool)
    ensures c.operator.GetOr(Eq) == Eq ==> (r <==> IsPrimitive(Get(doc, c.field)) && Get(doc, c.field) == c.value)
    ensures c.operator == Some(Ne) ==> (r <==> !(IsPrimitive(Get(doc, c.field)) && Get(doc, c.field) == c.value))
    ensures c.operator == Some(Lt) ==> (r <==> BothNumbers(Get(doc, c.field), c.value) && Get(doc, c.field).n < c.value.n)
    ensures c.operator == Some(Lte) ==> (r <==> BothNumbers(Get(doc, c.field), c.value) && Get(doc, c.field).n <= c.value.n)
    ensures c.operator == Some(Gt) ==> (r <==> BothNumbers(Get(doc, c.field), c.value) && Get(doc, c.field).n > c.value.n)
    ensures c.operator == Some(Gte) ==> (r <==> BothNumbers(Get(doc, c.field), c.value) && Get(doc, c.field).n >= c.value.n)
    ensures c.operator == Some(In) && c.value.Arr? ==> (r <==> IsPrimitive(Get(doc, c.field)) && Get(doc, c.field) in c.value.items)
    ensures c.operator == Some(NotIn) && c.value.Arr? ==> (r <==> !(IsPrimitive(Get(doc, c.field)) && Get(doc, c.field) in c.value.items))
    ensures (c.operator == Some(In) || c.operator == Some(NotIn)) && !c.value.Arr? ==> !r
    ensures c.operator.Some? && c.operator.value.Unknown? ==> !r
  {
    var fv := Get(doc, c.field);
    var v := c.value;
    match c.operator.GetOr(Eq)
    case Eq => StrictEq(fv, v)
    case Ne => !StrictEq(fv, v)
    case Lt => BothNumbers(fv, v) && fv.n < v.n
    case Lte => BothNumbers(fv, v) && fv.n <= v.n
    case Gt => BothNumbers(fv, v) && fv.n > v.n
    case Gte => BothNumbers(fv, v) && fv.n >= v.n
    case In => if v.Arr? then ArrayIncludes(v.items, fv) else false
    case NotIn => if v.Arr? then !ArrayIncludes(v.items, fv) else false
    case Contains => if BothStrings(fv, v) then Includes(fv.s, v.s) else false
    case StartsWith => if BothStrings(fv, v) then Strings.StartsWith(fv.s, v.s) else false
    case EndsWith => if BothStrings(fv, v) then Strings.EndsWith(fv.s, v.s) else false
    case Unknown(_) => false
  }

  lemma MissingOperatorIsEq(doc: Doc, c: Clause)
    requires c.operator.None?
    ensures EvaluateClause(doc, c) == EvaluateClause(doc, c.(operator := Some(Eq)))
    ensures EvaluateClause(doc, c) <==> IsPrimitive(Get(doc, c.field)) && Get(doc, c.field) == c.value
  {
  }

  lemma UnknownOperatorIsFalse(doc: Doc, c: Clause)
    requires c.operator.Some? && c.operator.value.Unknown?
    ensures !EvaluateClause(doc, c)
  {
  }

  /** The ordering operators compare numbers only. */
  lemma OrderingNeedsNumbers(doc: Doc, c: Clause)
    requires c.operator == Some(Lt) || c.operator == Some(Lte) || c.operator == Some(Gt) || c.operator == Some(Gte)
    requires EvaluateClause(doc, c)
    ensures Get(doc, c.field).Num? && c.value.Num?
  {
  }

  /** On two numbers the ordering operators are the numeric comparisons, and
      a clause whose field or value is not a number never matches. */
  lemma OrderingCompares(doc: Doc, field: string, v: Value, conn: Option<Connector>)
    ensures var fv := Get(doc, field);
      (EvaluateClause(doc, Clause(field, v, Some(Lt), conn)) <==> BothNumbers(fv, v) && fv.n < v.n)
      && (EvaluateClause(doc, Clause(field, v, Some(Lte), conn)) <==> BothNumbers(fv, v) && fv.n <= v.n)
      && (EvaluateClause(doc, Clause(field, v, Some(Gt), conn)) <==> BothNumbers(fv, v) && fv.n > v.n)
      && (EvaluateClause(doc, Clause(field, v, Some(Gte), conn)) <==> BothNumbers(fv, v) && fv.n >= v.n)
  {
  }

  /** Without an array clause value both `in` and `not_in` fail, so `not_in`
      is the negation of `in` only for array values. */
  lemma InNeedsArray(doc: Doc, field: string, v: Value, conn: Option<Connector>)
    ensures !v.Arr? ==> (!EvaluateClause(doc, Clause(field, v, Some(In), conn))
                         && !EvaluateClause(doc, Clause(field, v, Some(NotIn), conn)))
    ensures v.Arr? ==> (EvaluateClause(doc, Clause(field, v, Some(NotIn), conn))
                        == !EvaluateClause(doc, Clause(field, v, Some(In), conn)))
  {
  }

  /** The string operators are substring, prefix and suffix tests on two strings. */
  lemma StringOperators(doc: Doc, field: string, v: Value, conn: Option<Connector>)
    ensures var fv := Get(doc, field);
      (EvaluateClause(doc, Clause(field, v, Some(Contains), conn)) <==>
         BothStrings(fv, v) && exists i :: OccursAt(fv.s, v.s, i))
      && (EvaluateClause(doc, Clause(field, v, Some(StartsWith), conn)) <==>
         BothStrings(fv, v) && |v.s| <= |fv.s| && fv.s[..|v.s|] == v.s)
      && (EvaluateClause(doc, Clause(field, v, Some(EndsWith), conn)) <==>
         BothStrings(fv, v) && |v.s| <= |fv.s| && fv.s[|fv.s| - |v.s|..] == v.s)
  {
  }

  /** Folds the clause result into the accumulator: OR when the clause's
      connector is OR, AND otherwise (including a missing connector). */
  function Combine(acc: bool, doc: Doc, c: Clause): bool {
    if c.connector.GetOr(And) == Or then acc || EvaluateClause(doc, c)
    else acc && EvaluateClause(doc, c)
  }

  /** The left fold seeded with the first clause, whose connector is not read. */
  function Fold(doc: Doc, where: seq<Clause>): bool
    requires |where| > 0
  {
    if |where| == 1 then EvaluateClause(doc, where[0])
    else Combine(Fold(doc, where[..|where| - 1]), doc, where[|where| - 1])
  }

  /** What `matchesWhere` computes. */
  function Matches(doc: Doc, where: seq<Clause>): bool {
    if where == [] then true else Fold(doc, where)
  }

  function MatchPred(where: seq<Clause>): Doc -> bool {
    d => Matches(d, where)
  }

  /** `matchesWhere`: the accumulator loop. */
  method MatchesWhere(doc: Doc, where: seq<Clause>) returns (result: bool)
    ensures result == Matches(doc, where)
  {
    if |where| == 0 {
      return true;
    }
    result := EvaluateClause(doc, where[0]);
    var i := 1;
    while i < |where|
      invariant 1 <= i <= |where|
      invariant result == Fold(doc, where[..i])
    {
      var clause := where[i];
      var clauseResult := EvaluateClause(doc, clause);
      if clause.connector.GetOr(And) == Or {
        result := result || clauseResult;
      } else {
        result := result && clauseResult;
      }
      assert where[..i + 1][..i] == where[..i];
      i := i + 1;
    }
    assert where[..i] == where;
  }

  /** A clause list whose later connectors are all AND holds exactly when every clause does. */
  lemma {:induction false} AllAndMeansEvery(doc: Doc, where: seq<Clause>)
    requires forall i :: 1 <= i < |where| ==> where[i].connector != Some(Or)
    ensures Matches(doc, where) <==> forall i :: 0 <= i < |where| ==> EvaluateClause(doc, where[i])
  {
    if |where| > 1 {
      var init := where[..|where| - 1];
      AllAndMeansEvery(doc, init);
      assert forall i :: 0 <= i < |init| ==> init[i] == where[i];
    }
  }

  /** A non-empty clause list whose later connectors are all OR holds exactly when some clause does. */
  lemma {:induction false} AllOrMeansSome(doc: Doc, where: seq<Clause>)
    requires |where| > 0
    requires forall i :: 1 <= i < |where| ==> where[i].connector == Some(Or)
    ensures Matches(doc, where) <==> exists i :: 0 <= i < |where| && EvaluateClause(doc, where[i])
  {
    if |where| > 1 {
      var init := where[..|where| - 1];
      AllOrMeansSome(doc, init);
      assert forall i :: 0 <= i < |init| ==> init[i] == where[i];
    }
  }

  /** The first clause's connector is never read. */
  lemma {:induction false} FirstConnectorIgnored(doc: Doc, where: seq<Clause>, conn: Option<Connector>)
    requires |where| > 0
    ensures Matches(doc, where[0 := where[0].(connector := conn)]) == Matches(doc, where)
  {
    if |where| > 1 {
      var w' := where[0 := where[0].(connector := conn)];
      FirstConnectorIgnored(doc, where[..|where| - 1], conn);
      assert w'[..|w'| - 1] == where[..|where| - 1][0 := where[0].(connector := conn)];
    }
  }

  /** A connector belongs to the clause it is written on and combines it with
      everything before it: [A, OR B, AND C] is (A or B) and C. */
  lemma ConnectorJoinsWithPrefix(doc: Doc, a: Clause, b: Clause, c: Clause)
    requires b.connector == Some(Or) && c.connector == Some(And)
    ensures Matches(doc, [a, b, c])
        == ((EvaluateClause(doc, a) || EvaluateClause(doc, b)) && EvaluateClause(doc, c))
  {
    assert [a, b, c][..2] == [a, b];
    assert [a, b][..1] == [a];
    assert Fold(doc, [a, b]) == EvaluateClause(doc, a) || EvaluateClause(doc, b);
  }

  /** `pickFields`. */
  function PickFields(doc: Doc, select: Option<seq<string>>): (r: Doc)
    ensures select.None? || select.value == [] ==> r == doc
    ensures select.Some? && select.value != [] ==> forall k :: k in r <==> k in doc && k in select.value
    ensures forall k :: k in r ==> k in doc && r[k] == doc[k]
  {
    if select.None? || select.value == [] then doc
    else map k | k in doc && k in select.value :: doc[k]
  }

  lemma PickFieldsIdempotent(doc: Doc, select: Option<seq<string>>)
    ensures PickFields(PickFields(doc, select), select) == PickFields(doc, select)
  {
  }

  /** `findOne`: the projection of the first matching row, or null. */
  function FindOne(rows: seq<Doc>, where: seq<Clause>, select: Option<seq<string>>): (r: Option<Doc>)
    ensures r.None? <==> forall i :: 0 <= i < |rows| ==> !Matches(rows[i], where)
    ensures r.Some? ==> exists i :: (0 <= i < |rows| && Matches(rows[i], where)
      && (forall j :: 0 <= j < i ==> !Matches(rows[j], where)) && r.value == PickFields(rows[i], select))
  {
    var i := FindIndex(rows, MatchPred(where));
    if i < 0 then None else Some(PickFields(rows[i], select))
  }

  /** The rows `findMany` and `count` start from: all rows for an absent or empty clause list. */
  function Filtered(rows: seq<Doc>, where: Option<seq<Clause>>): (r: seq<Doc>)
    ensures r == Filter(rows, MatchPred(where.GetOr([])))
  {
    if where.Some? && |where.value| > 0 then Filter(rows, MatchPred(where.value))
    else
      FilterAll(rows, MatchPred([]));
      rows
  }

  /** `count`: the number of rows `matchesWhere` accepts. */
  function Count(rows: seq<Doc>, where: Option<seq<Clause>>): (n: nat)
    ensures n == CountWhere(rows, MatchPred(where.GetOr([])))
  {
    if where.None? || |where.value| == 0 then
      FilterAll(rows, MatchPred([]));
      |rows|
    else |Filtered(rows, where)|
  }

  function Project(s: seq<Doc>, select: Option<seq<string>>): (r: seq<Doc>)
    ensures |r| == |s| && forall i :: 0 <= i < |s| ==> r[i] == PickFields(s[i], select)
  {
    seq(|s|, i requires 0 <= i < |s| => PickFields(s[i], select))
  }

  datatype Direction = Asc | Desc

  datatype SortBy = SortBy(field: string, direction: Direction)

  /** Sort-key classes: null and undefined first, then booleans, numbers and strings. */
  function Rank(v: Value): nat {
    if IsNullish(v) then 0
    else if v.Bool? then 1
    else if v.Num? then 2
    else if v.Str? then 3
    else 4
  }

  /** Ascending key order: nullish values first, then within one type JavaScript's `<`. */
  predicate KeyLess(a: Value, b: Value) {
    Rank(a) < Rank(b)
    || (a.Bool? && b.Bool? && !a.b && b.b)
    || (a.Num? && b.Num? && a.n < b.n)
    || (a.Str? && b.Str? && StrLess(a.s, b.s))
  }

  predicate KeyBefore(a: Value, b: Value, dir: Direction) {
    if dir == Asc then KeyLess(a, b) else KeyLess(b, a)
  }

  /** The row order the comparator of `findMany` describes. */
  function DocBefore(sb: SortBy): (Doc, Doc) -> bool {
    (x: Doc, y: Doc) => KeyBefore(Get(x, sb.field), Get(y, sb.field), sb.direction)
  }

  lemma DocBeforeMeans(sb: SortBy, x: Doc, y: Doc)
    ensures DocBefore(sb)(x, y) == KeyBefore(Get(x, sb.field), Get(y, sb.field), sb.direction)
  {
  }

  /** JavaScript's `a > b` for two values of the same primitive type. */
  predicate JsGreater(a: Value, b: Value) {
    (a.Num? && b.Num? && a.n > b.n)
    || (a.Str? && b.Str? && StrLess(b.s, a.s))
    || (a.Bool? && b.Bool? && a.b && !b.b)
  }

  /** The comparator of `findMany`, branch by branch. */
  function SourceCompare(a: Value, b: Value, dir: Direction): int {
    var asc := dir == Asc;
    if StrictEq(a, b) then 0
    else if IsNullish(a) then (if asc then -1 else 1)
    else if IsNullish(b) then (if asc then 1 else -1)
    else if JsGreater(a, b) then (if asc then 1 else -1)
    else (if asc then -1 else 1)
  }

  /** Pairs on which the comparator is consistent: null with null, undefined with
      undefined, a nullish value with anything else, or two values of one primitive type. */
  predicate Comparable(a: Value, b: Value) {
    (IsNullish(a) && IsNullish(b) ==> a == b)
    && (IsNullish(a) || IsNullish(b) || (a.Bool? && b.Bool?) || (a.Num? && b.Num?) || (a.Str? && b.Str?))
  }

  /** On comparable keys, the source comparator answers "before" exactly when the key order does. */
  lemma SourceCompareAgrees(a: Value, b: Value, dir: Direction)
    requires Comparable(a, b)
    ensures SourceCompare(a, b, dir) < 0 <==> KeyBefore(a, b, dir)
    ensures SourceCompare(a, b, dir) > 0 <==> KeyBefore(b, a, dir)
  {
    if a.Str? && b.Str? {
      StrLessIrreflexive(a.s);
      if a.s != b.s {
        StrLessTotal(a.s, b.s);
        if StrLess(a.s, b.s) { StrLessAsymmetric(a.s, b.s); } else { StrLessAsymmetric(b.s, a.s); }
      }
    }
  }

  lemma KeyLessIrreflexive(a: Value)
    ensures !KeyLess(a, a)
  {
    if a.Str? { StrLessIrreflexive(a.s); }
  }

  lemma KeyLessTransitive(a: Value, b: Value, c: Value)
    requires KeyLess(a, b) && KeyLess(b, c)
    ensures KeyLess(a, c)
  {
    if a.Str? && b.Str? && c.Str? && StrLess(a.s, b.s) && StrLess(b.s, c.s) {
      StrLessTransitive(a.s, b.s, c.s);
    }
  }

  lemma KeyLessNegTransitive(a: Value, b: Value, c: Value)
    requires !KeyLess(a, b) && !KeyLess(b, c)
    ensures !KeyLess(a, c)
  {
    if a.Str? && b.Str? && c.Str? && StrLess(a.s, c.s) {
      if a.s == b.s {
      } else if b.s == c.s {
      } else {
        StrLessTotal(a.s, b.s);
        StrLessTotal(b.s, c.s);
        StrLessTransitive(c.s, b.s, a.s);
        StrLessAsymmetric(a.s, c.s);
      }
    }
  }

  /** The comparator is consistent, so the sort is well defined. */
  lemma DocBeforeIsStrictWeakOrder(sb: SortBy)
    ensures StrictWeakOrder(DocBefore(sb))
  {
    var lt := DocBefore(sb);
    var f := sb.field;
    forall x: Doc ensures !lt(x, x) {
      DocBeforeMeans(sb, x, x);
      KeyLessIrreflexive(Get(x, f));
    }
    forall x: Doc, y: Doc, z: Doc | lt(x, y) && lt(y, z) ensures lt(x, z) {
      DocBeforeMeans(sb, x, y);
      DocBeforeMeans(sb, y, z);
      DocBeforeMeans(sb, x, z);
      if sb.direction == Asc {
        KeyLessTransitive(Get(x, f), Get(y, f), Get(z, f));
      } else {
        KeyLessTransitive(Get(z, f), Get(y, f), Get(x, f));
      }
    }
    forall x: Doc, y: Doc, z: Doc | !lt(x, y) && !lt(y, z) ensures !lt(x, z) {
      DocBeforeMeans(sb, x, y);
      DocBeforeMeans(sb, y, z);
      DocBeforeMeans(sb, x, z);
      if sb.direction == Asc {
        KeyLessNegTransitive(Get(x, f), Get(y, f), Get(z, f));
      } else {
        KeyLessNegTransitive(Get(z, f), Get(y, f), Get(x, f));
      }
    }
  }

  /** The rows of `findMany` before paging: filtered, projected, then sorted. */
  function Ordered(rows: seq<Doc>, where: Option<seq<Clause>>, select: Option<seq<string>>, sortBy: Option<SortBy>): (r: seq<Doc>)
    ensures |r| == |Filtered(rows, where)|
  {
    var projected := Project(Filtered(rows, where), select);
    if sortBy.Some? then Sort(projected, DocBefore(sortBy.value)) else projected
  }

  function Max0(x: int): nat {
    if x < 0 then 0 else x
  }

  /** The paging of `findMany`: the slice [offset, offset + limit) with both
      clamped at 0, running to the end when there is no limit. */
  function Page(o: seq<Doc>, limit: Option<int>, offset: Option<int>): (r: seq<Doc>)
    ensures var off := Max0(offset.GetOr(0));
      |r| == (if |o| <= off then 0
              else if limit.Some? && Max0(limit.value) < |o| - off then Max0(limit.value)
              else |o| - off)
      && forall i :: 0 <= i < |r| ==> r[i] == o[off + i]
  {
    var off := Max0(offset.GetOr(0));
    Slice(o, off, if limit.Some? then off + Max0(limit.value) else |o|)
  }

  /** `findMany`: filter, project, sort, then page. */
  function FindMany(rows: seq<Doc>, where: Option<seq<Clause>>, limit: Option<int>, offset: Option<int>,
                    select: Option<seq<string>>, sortBy: Option<SortBy>): (r: seq<Doc>)
    ensures |r| <= |Filtered(rows, where)|
    ensures forall i :: 0 <= i < |r| ==> r[i] in Project(Filtered(rows, where), select)
    ensures limit.None? && offset.None? ==> multiset(r) == multiset(Project(Filtered(rows, where), select))
    ensures limit.Some? ==> |r| <= Max0(limit.value)
  {
    OrderedPermutation(rows, where, select, sortBy);
    PageOfPermutation(Ordered(rows, where, select, sortBy), Project(Filtered(rows, where), select), limit, offset);
    Page(Ordered(rows, where, select, sortBy), limit, offset)
  }

  /** A page of a reordering of `s` holds elements of `s`; without limit and
      offset it is a reordering of all of `s`. */
  lemma PageOfPermutation(o: seq<Doc>, s: seq<Doc>, limit: Option<int>, offset: Option<int>)
    requires multiset(o) == multiset(s)
    ensures forall i :: 0 <= i < |Page(o, limit, offset)| ==> Page(o, limit, offset)[i] in s
    ensures limit.None? && offset.None? ==> multiset(Page(o, limit, offset)) == multiset(s)
  {
    var r := Page(o, limit, offset);
    forall i | 0 <= i < |r| ensures r[i] in s {
      assert r[i] in multiset(o);
    }
    if limit.None? && offset.None? {
      assert r == o;
    }
  }

  /** `findMany` returns (before paging) exactly the projected matching rows, reordered. */
  lemma OrderedPermutation(rows: seq<Doc>, where: Option<seq<Clause>>, select: Option<seq<string>>, sortBy: Option<SortBy>)
    ensures multiset(Ordered(rows, where, select, sortBy)) == multiset(Project(Filtered(rows, where), select))
  {
    if sortBy.Some? {
      SortPermutation(Project(Filtered(rows, where), select), DocBefore(sortBy.value));
    }
  }

  lemma OrderedSorted(rows: seq<Doc>, where: Option<seq<Clause>>, select: Option<seq<string>>, sb: SortBy)
    ensures SortedBy(Ordered(rows, where, select, Some(sb)), DocBefore(sb))
  {
    DocBeforeIsStrictWeakOrder(sb);
    SortSorted(Project(Filtered(rows, where), select), DocBefore(sb));
  }

  /** Rows with equal sort keys keep their input order. */
  lemma OrderedStable(rows: seq<Doc>, where: Option<seq<Clause>>, select: Option<seq<string>>, sb: SortBy, e: Doc)
    ensures EquivClass(Ordered(rows, where, select, Some(sb)), e, DocBefore(sb))
         == EquivClass(Project(Filtered(rows, where), select), e, DocBefore(sb))
  {
    DocBeforeIsStrictWeakOrder(sb);
    SortStable(Project(Filtered(rows, where), select), e, DocBefore(sb));
  }

  /** Ascending: every row whose key is null or undefined comes before every row whose key is not. */
  lemma NullsFirstWhenAscending(rows: seq<Doc>, where: Option<seq<Clause>>, select: Option<seq<string>>, field: string, i: int, j: int)
    requires var o := Ordered(rows, where, select, Some(SortBy(field, Asc)));
      0 <= i < |o| && 0 <= j < |o| && IsNullish(Get(o[j], field)) && !IsNullish(Get(o[i], field))
    ensures j < i
  {
    var sb := SortBy(field, Asc);
    OrderedSorted(rows, where, select, sb);
    var o := Ordered(rows, where, select, Some(sb));
    DocBeforeMeans(sb, o[j], o[i]);
    assert DocBefore(sb)(o[j], o[i]);
  }

  /** Descending: every row whose key is null or undefined comes after every row whose key is not. */
  lemma NullsLastWhenDescending(rows: seq<Doc>, where: Option<seq<Clause>>, select: Option<seq<string>>, field: string, i: int, j: int)
    requires var o := Ordered(rows, where, select, Some(SortBy(field, Desc)));
      0 <= i < |o| && 0 <= j < |o| && IsNullish(Get(o[j], field)) && !IsNullish(Get(o[i], field))
    ensures i < j
  {
    var sb := SortBy(field, Desc);
    OrderedSorted(rows, where, select, sb);
    var o := Ordered(rows, where, select, Some(sb));
    DocBeforeMeans(sb, o[i], o[j]);
    assert DocBefore(sb)(o[i], o[j]);
  }

  /** Projection happens before sorting: sorting on a field the selection drops
      sees only `undefined` keys and leaves the filtered order unchanged. */
  lemma SortOnDroppedFieldKeepsOrder(rows: seq<Doc>, where: Option<seq<Clause>>, select: seq<string>, sb: SortBy)
    requires select != [] && sb.field !in select
    ensures Ordered(rows, where, Some(select), Some(sb)) == Project(Filtered(rows, where), Some(select))
  {
    var p := Project(Filtered(rows, where), Some(select));
    forall i, j | 0 <= i < |p| && 0 <= j < |p| ensures !DocBefore(sb)(p[i], p[j]) {
      assert Get(p[i], sb.field) == Undefined && Get(p[j], sb.field) == Undefined;
      DocBeforeMeans(sb, p[i], p[j]);
    }
    SortAllEquivalent(p, DocBefore(sb));
  }

  /** Paging example: offset 2 and limit 3 over ten rows return rows 2, 3 and 4. */
  lemma PagingExample(o: seq<Doc>)
    requires |o| == 10
    ensures Page(o, Some(3), Some(2)) == [o[2], o[3], o[4]]
  {
    var r := Page(o, Some(3), Some(2));
    assert |r| == 3 && r[0] == o[2] && r[1] == o[3] && r[2] == o[4];
  }

  /** A negative offset counts as 0 and a negative limit as 0. */
  lemma NegativePagingClamped(o: seq<Doc>, k: int)
    requires k < 0
    ensures Page(o, None, Some(k)) == o
    ensures Page(o, Some(k), None) == []
  {
  }

  /** `!row._id`: rows without a truthy id are skipped by the mutations. */
  predicate HasId(d: Doc) {
    Truthy(Get(d, IdField))
  }

  function FirstMatch(rows: seq<Doc>, where: seq<Clause>): (i: int)
    ensures -1 <= i < |rows|
    ensures i == -1 <==> forall j :: 0 <= j < |rows| ==> !Matches(rows[j], where)
    ensures 0 <= i ==> Matches(rows[i], where) && forall j :: 0 <= j < i ==> !Matches(rows[j], where)
  {
    FindIndex(rows, MatchPred(where))
  }

  /** The rows `removeMany` keeps: those not matched, or without an id. */
  function KeepPred(where: seq<Clause>): Doc -> bool {
    d => !(Matches(d, where) && HasId(d))
  }

  /** A row after `updateMany`: patched when it matches and has an id. */
  function UpdatedRow(d: Doc, where: seq<Clause>, update: Doc): Doc {
    if Matches(d, where) && HasId(d) then Patch(d, update) else d
  }

  /** One turn of the `updateMany` loop keeps rows before the cursor updated
      and rows after it untouched. */
  lemma UpdateManyStep(orig: seq<Doc>, rows: seq<Doc>, i: int, where: seq<Clause>, update: Doc)
    requires 0 <= i < |rows| == |orig|
    requires forall k :: 0 <= k < i ==> rows[k] == UpdatedRow(orig[k], where, update)
    requires forall k :: i <= k < |rows| ==> rows[k] == orig[k]
    ensures var next := if Matches(rows[i], where) && HasId(rows[i]) then rows[i := Patch(rows[i], update)] else rows;
      |next| == |orig|
      && (forall k :: 0 <= k < i + 1 ==> next[k] == UpdatedRow(orig[k], where, update))
      && (forall k :: i + 1 <= k < |next| ==> next[k] == orig[k])
  {
  }

  /** One turn of the `removeMany` loop extends the kept rows by the row under
      the cursor exactly when the row is kept. */
  lemma FilterKeepStep(orig: seq<Doc>, i: int, kept: seq<Doc>, keep: Doc -> bool)
    requires 0 <= i < |orig| && kept == Filter(orig[..i], keep)
    ensures (if keep(orig[i]) then kept + [orig[i]] else kept) == Filter(orig[..i + 1], keep)
  {
    FilterStep(orig, i, keep);
  }

  /** One authentication table (users, sessions, accounts or verification tokens).
      The store addresses a row by its `_id`; ids are unique, so the model
      addresses the matched row by its position. */
  class AuthTable {
    var rows: seq<Doc>

    constructor (initial: seq<Doc>)
      ensures rows == initial
    {
      rows := initial;
    }

    /** `create`: the store refuses data that sets a system field (a name
        starting with `_`); otherwise it stores the data with a fresh `_id`
        and the insertion time as `_creationTime`, and returns the stored row. */
    method Create(data: Doc, newId: string, now: int) returns (r: Result<Doc>)
      modifies this
      ensures SetsSystemField(data) ==> r.Failure? && rows == old(rows)
      ensures !SetsSystemField(data) ==> r == Success(data[IdField := Str(newId)][CreationTimeField := Num(now)])
      ensures !SetsSystemField(data) ==> rows == old(rows) + [r.value]
    {
      if SetsSystemField(data) {
        return Failure("System fields cannot be set.");
      }
      var created := data[IdField := Str(newId)][CreationTimeField := Num(now)];
      rows := rows + [created];
      r := Success(created);
    }

    /** `update`: patches only the first matching row, when it has an id. */
    method Update(where: seq<Clause>, update: Doc) returns (r: Option<Doc>)
      modifies this
      ensures var i := FirstMatch(old(rows), where);
        if i < 0 || !HasId(old(rows)[i]) then r.None? && rows == old(rows)
        else rows == old(rows)[i := Patch(old(rows)[i], update)] && r == Some(rows[i])
    {
      var i := FirstMatch(rows, where);
      if i < 0 || !HasId(rows[i]) {
        return None;
      }
      rows := rows[i := Patch(rows[i], update)];
      r := Some(rows[i]);
    }

    /** `updateMany`: patches every matching row that has an id and returns the
        number of matching rows, counting those without an id. */
    method UpdateMany(where: seq<Clause>, update: Doc) returns (n: nat)
      modifies this
      ensures n == CountWhere(old(rows), MatchPred(where))
      ensures |rows| == |old(rows)|
      ensures forall k :: 0 <= k < |rows| ==> rows[k] == UpdatedRow(old(rows)[k], where, update)
    {
      ghost var orig := rows;
      ghost var matching := MatchPred(where);
      n := 0;
      var i := 0;
      while i < |rows|
        invariant 0 <= i <= |rows| == |orig|
        invariant n == CountWhere(orig[..i], matching)
        invariant forall k :: 0 <= k < i ==> rows[k] == UpdatedRow(orig[k], where, update)
        invariant forall k :: i <= k < |rows| ==> rows[k] == orig[k]
      {
        CountStep(orig, i, matching);
        UpdateManyStep(orig, rows, i, where, update);
        var matched := MatchesWhere(rows[i], where);
        if matched {
          n := n + 1;
          if HasId(rows[i]) {
            rows := rows[i := Patch(rows[i], update)];
          }
        }
        i := i + 1;
      }
      assert orig[..i] == orig;
    }

    /** `remove`: deletes only the first matching row, when it has an id. */
    method Remove(where: seq<Clause>)
      modifies this
      ensures var i := FirstMatch(old(rows), where);
        if i < 0 || !HasId(old(rows)[i]) then rows == old(rows)
        else rows == old(rows)[..i] + old(rows)[i + 1..]
    {
      var i := FirstMatch(rows, where);
      if i < 0 || !HasId(rows[i]) {
        return;
      }
      rows := rows[..i] + rows[i + 1..];
    }

    /** `removeMany`: deletes every matching row that has an id and returns the
        number of matching rows. */
    method RemoveMany(where: seq<Clause>) returns (n: nat)
      modifies this
      ensures n == CountWhere(old(rows), MatchPred(where))
      ensures rows == Filter(old(rows), KeepPred(where))
      ensures forall k :: 0 <= k < |rows| ==> !(Matches(rows[k], where) && HasId(rows[k]))
    {
      ghost var orig := rows;
      ghost var matching, keep := MatchPred(where), KeepPred(where);
      var kept: seq<Doc> := [];
      n := 0;
      var i := 0;
      while i < |rows|
        invariant 0 <= i <= |orig| && rows == orig
        invariant n == CountWhere(orig[..i], matching)
        invariant kept == Filter(orig[..i], keep)
      {
        CountStep(orig, i, matching);
        FilterKeepStep(orig, i, kept, keep);
        var matched := MatchesWhere(rows[i], where);
        if matched {
          n := n + 1;
        }
        assert keep(orig[i]) == !(matched && HasId(rows[i]));
        if !(matched && HasId(rows[i])) {
          kept := kept + [rows[i]];
        }
        i := i + 1;
      }
      assert orig[..i] == orig;
      rows := kept;
    }
  }
}

=== FILE: backends.dfy ===
/** Where the two data backends (`convex.ts` over the Convex functions, and
    `mock.ts`) agree and where they differ, stated over the models of both. */
module Backends {
  import opened Wrappers
  import opened Strings
  import opened Seqs
  import opened Sorting
  import opened Domain
  import opened Inventory
  import ConvexProducts
  import ConvexRepository
  import ConvexInventory
  import MockRepository

  /** Both backends list the same categories in the same order: filtering
      before a stable sort (mock) or after it (server) makes no difference. */
  lemma CategoryListsAgree(cs: seq<Category>, activeOnly: Option<bool>)
    ensures MockRepository.ListCategories(cs, activeOnly) == ConvexRepository.ListCategories(cs, activeOnly)
  {
    var lt := BySortOrder();
    ByKeyAscIsStrictWeakOrder((c: Category) => c.sortOrder);
    var keep := (c: Category) => activeOnly == Some(false) || c.isActive;
    FilterSort(cs, keep, lt);
    var sorted := Sort(cs, lt);
    if activeOnly == Some(false) {
      FilterAll(cs, keep);
      FilterAll(sorted, keep);
    } else {
      FilterCongruent(sorted, keep, (c: Category) => c.isActive);
    }
  }

  /** Both product listings hold the same products; only the server sorts them
      (newest update first), the mock keeps stored order. */
  lemma ProductListsSameContents(ps: seq<Product>, publishedOnly: Option<bool>)
    ensures multiset(MockRepository.List(ps, publishedOnly)) == multiset(ConvexProducts.ListProducts(ps, publishedOnly))
  {
    ConvexProducts.ListProductsSpec(ps, publishedOnly);
    if publishedOnly == Some(true) {
      FilterCongruent(ps, MockRepository.IsPublished, (p: Product) => p.isPublished);
    }
  }

  /** When the first holder of a slug is unpublished but a later one is
      published, the server finds nothing and the mock finds the later one. */
  lemma GetBySlugDiffers(ps: seq<Product>, slug: string, k: int)
    requires 0 <= ConvexProducts.SlugHolder(ps, slug) && !ps[ConvexProducts.SlugHolder(ps, slug)].isPublished
    requires 0 <= k < |ps| && ps[k].slug == slug && ps[k].isPublished
    ensures ConvexProducts.BySlug(ps, slug, None) == None
    ensures MockRepository.GetBySlug(ps, slug, None).Some?
    ensures MockRepository.GetBySlug(ps, slug, None).value.isPublished
  {
    var i := FindIndex(ps, (p: Product) => p.slug == slug && (true ==> p.isPublished));
    assert i >= 0;
  }

  /** Listing an id twice: the mock counts the one product patched, the
      server counts both ids. */
  lemma ToggleCountsDiffer(p: Product)
    ensures CountWhere([p], MockRepository.IdListed([p.id, p.id])) == 1
    ensures CountWhere([p.id, p.id], (id: string) => IndexOfId([p], id) >= 0) == 2
  {
  }

  /** One product, variant "Zinc" listed before variant "Amber", one size each. */
  function TwoColourProduct(): Product {
    Product("p1", None, "Tee", "tee", "", "c1", None, None, false, true,
            [Variant("v1", "Zinc", "#777777", [], ["M"], map[], None),
             Variant("v2", "Amber", "#ffbf00", [], ["M"], map[], None)], 0, 0)
  }

  /** The mock keeps rows of one product in stored order; the server orders
      them by colour. */
  lemma FlattenedOrderDiffers()
    ensures var p := TwoColourProduct();
      var zinc := RowFor(p, p.colorVariants[0], "M");
      var amber := RowFor(p, p.colorVariants[1], "M");
      Sort(Flatten([p]), MockRepository.ByProductName()) == [zinc, amber]
      && ConvexInventory.ListFlattened([p]) == [amber, zinc]
  {
    var p := TwoColourProduct();
    var zinc := RowFor(p, p.colorVariants[0], "M");
    var amber := RowFor(p, p.colorVariants[1], "M");
    assert SizeRows(p, p.colorVariants[1], ["M"]) == [amber];
    assert VariantRows(p, p.colorVariants[1..]) == [amber];
    assert Flatten([p]) == [zinc, amber];
    assert [zinc, amber][..1] == [zinc];
    StrLessIrreflexive("Tee");
    assert !MockRepository.ByProductName()(amber, zinc);
    assert Sort([zinc], MockRepository.ByProductName()) == [zinc];
    assert Insert(amber, [zinc], MockRepository.ByProductName()) == [zinc, amber];
    assert Sort([zinc], ConvexInventory.RowBefore()) == [zinc];
    assert StrLess("Amber", "Zinc");
  }

  /** The server only trims and lower-cases a slug, so an inner space
      survives in its base; the mock's slug never holds a space. */
  lemma SlugNormalisationDiffers(slug: string)
    requires ' ' in TrimLower(slug)
    ensures ' ' in ConvexProducts.SlugBase(slug)
    ensures ' ' !in MockRepository.ToSlug(slug)
  {
    var m := MockRepository.ToSlug(slug);
    MockRepository.ToSlugShape(slug);
    MockRepository.SlugHasNoSpace(m);
    assert IsJsWhitespace(' ');
  }

  /** Duplicating a published product: the server's copy is unpublished, the
      mock's copy stays published. */
  method DuplicatePublishDiffers(p: Product, settings: StoreSettings, now: int, newId: string,
                                 suffix: nat -> string, slugSuffix: string)
    returns (onServer: Product, inMock: Product)
    requires p.isPublished && p.id != newId
    ensures onServer.id == newId && !onServer.isPublished
    ensures inMock.id == newId && inMock.isPublished
  {
    var server := new ConvexProducts.ProductTable([p]);
    var r := server.Duplicate(p.id, now, newId, suffix);
    onServer := server.rows[1];
    var mock := new MockRepository.MockState([], [p], settings, []);
    var m := mock.Duplicate(p.id, now, newId, suffix, slugSuffix);
    inMock := m.value;
  }
}

=== FILE: cart.dfy ===
/** The shopping cart's pure rules (`cart-context.tsx`): line identity, the
    updaters that return the next list of lines, and the two totals. */
module Cart {
  import opened Wrappers
  import opened Seqs
  import opened Domain

  /** What identifies a cart line: everything but the quantity. */
  datatype LineKey = LineKey(productId: string, colorVariantId: string, size: string)

  datatype CartItem = CartItem(productId: string, colorVariantId: string, size: string, quantity: int)

  function KeyOf(item: CartItem): LineKey {
    LineKey(item.productId, item.colorVariantId, item.size)
  }

  /** `isSameLine`: two lines are the same line exactly when their keys agree. */
  predicate SameLine(a: LineKey, b: LineKey)
    ensures SameLine(a, b) <==> a == b
  {
    a.productId == b.productId && a.colorVariantId == b.colorVariantId && a.size == b.size
  }

  function OnLine(key: LineKey): CartItem -> bool {
    (item: CartItem) => SameLine(KeyOf(item), key)
  }

  function OffLine(key: LineKey): CartItem -> bool {
    (item: CartItem) => !SameLine(KeyOf(item), key)
  }

  /** No two lines share a key. */
  ghost predicate UniqueKeys(items: seq<CartItem>) {
    forall i, j :: 0 <= i < j < |items| ==> KeyOf(items[i]) != KeyOf(items[j])
  }

  /** `getUnitPrice`: the sale price, else the base price, else 0, of the
      first catalogue product with the id; 0 for an unknown product. */
  function UnitPrice(catalog: seq<Product>, productId: string): (price: int)
    ensures IndexOfId(catalog, productId) < 0 ==> price == 0
    ensures 0 <= IndexOfId(catalog, productId) ==>
      var p := catalog[IndexOfId(catalog, productId)];
      price == (if p.salePrice.Some? then p.salePrice.value else p.basePrice.GetOr(0))
  {
    var i := IndexOfId(catalog, productId);
    if i < 0 then 0 else catalog[i].salePrice.GetOr(catalog[i].basePrice.GetOr(0))
  }

  /** `addItem`: adds the quantity onto the first line with the item's key,
      or appends the item when there is none. */
  function AddItem(items: seq<CartItem>, item: CartItem): (r: seq<CartItem>)
    ensures var i := FindIndex(items, OnLine(KeyOf(item)));
      if i < 0 then r == items + [item]
      else (|r| == |items| && KeyOf(r[i]) == KeyOf(items[i]) && r[i].quantity == items[i].quantity + item.quantity
            && forall j :: 0 <= j < |items| && j != i ==> r[j] == items[j])
  {
    var i := FindIndex(items, OnLine(KeyOf(item)));
    if i < 0 then items + [item]
    else items[i := items[i].(quantity := items[i].quantity + item.quantity)]
  }

  /** The lines with the quantity of every line on the key replaced. */
  function SetQuantity(items: seq<CartItem>, key: LineKey, quantity: int): (r: seq<CartItem>)
    ensures |r| == |items|
    ensures forall j :: 0 <= j < |items| ==>
      r[j] == if SameLine(KeyOf(items[j]), key) then items[j].(quantity := quantity) else items[j]
  {
    if items == [] then []
    else
      var head := if SameLine(KeyOf(items[0]), key) then items[0].(quantity := quantity) else items[0];
      [head] + SetQuantity(items[1..], key, quantity)
  }

  /** `removeItem`: drops exactly the lines on the key, keeping the others in order. */
  function RemoveItem(items: seq<CartItem>, key: LineKey): (r: seq<CartItem>)
    ensures forall j :: 0 <= j < |r| ==> KeyOf(r[j]) != key
    ensures forall j :: 0 <= j < |items| && KeyOf(items[j]) != key ==> items[j] in r
    ensures r == Filter(items, OffLine(key))
  {
    Filter(items, OffLine(key))
  }

  /** `updateQuantity`: a quantity of zero or less removes the line; any
      other sets it on the matching lines and keeps the order. */
  function UpdateQuantity(items: seq<CartItem>, key: LineKey, quantity: int): (r: seq<CartItem>)
    ensures quantity <= 0 ==> r == RemoveItem(items, key)
    ensures 0 < quantity ==> |r| == |items| && forall j :: 0 <= j < |items| ==>
      KeyOf(r[j]) == KeyOf(items[j])
      && r[j].quantity == (if KeyOf(items[j]) == key then quantity else items[j].quantity)
  {
    if quantity <= 0 then RemoveItem(items, key) else SetQuantity(items, key, quantity)
  }

  /** `clearCart`: the empty cart, whose totals are zero. */
  function ClearCart(): (r: seq<CartItem>)
    ensures |r| == 0 && TotalItems(r) == 0
  {
    []
  }

  /** `totalItems`: the quantities summed from the left. */
  function TotalItems(items: seq<CartItem>): int {
    if items == [] then 0 else TotalItems(items[..|items| - 1]) + items[|items| - 1].quantity
  }

  /** What one line adds to the subtotal. */
  function LineAmount(catalog: seq<Product>, item: CartItem): int {
    UnitPrice(catalog, item.productId) * item.quantity
  }

  /** `subtotal`: unit price times quantity summed from the left. */
  function Subtotal(catalog: seq<Product>, items: seq<CartItem>): int {
    if items == [] then 0
    else Subtotal(catalog, items[..|items| - 1]) + LineAmount(catalog, items[|items| - 1])
  }

  /** Non-negative quantities give a non-negative item count. */
  lemma {:induction false} TotalItemsNonNegative(items: seq<CartItem>)
    requires forall i :: 0 <= i < |items| ==> 0 <= items[i].quantity
    ensures 0 <= TotalItems(items)
    decreases |items|
  {
    if items != [] {
      TotalItemsNonNegative(items[..|items| - 1]);
    }
  }

  /** Lines of non-negative amount give a non-negative subtotal. */
  lemma {:induction false} SubtotalNonNegative(catalog: seq<Product>, items: seq<CartItem>)
    requires forall i :: 0 <= i < |items| ==> 0 <= LineAmount(catalog, items[i])
    ensures 0 <= Subtotal(catalog, items)
    decreases |items|
  {
    if items != [] {
      SubtotalNonNegative(catalog, items[..|items| - 1]);
    }
  }

  lemma {:induction false} TotalItemsConcat(a: seq<CartItem>, b: seq<CartItem>)
    ensures TotalItems(a + b) == TotalItems(a) + TotalItems(b)
    decreases |b|
  {
    if b == [] {
      assert a + b == a;
    } else {
      var init := b[..|b| - 1];
      assert (a + b)[..|a + b| - 1] == a + init;
      TotalItemsConcat(a, init);
    }
  }

  lemma {:induction false} SubtotalConcat(catalog: seq<Product>, a: seq<CartItem>, b: seq<CartItem>)
    ensures Subtotal(catalog, a + b) == Subtotal(catalog, a) + Subtotal(catalog, b)
    decreases |b|
  {
    if b == [] {
      assert a + b == a;
    } else {
      var init := b[..|b| - 1];
      assert (a + b)[..|a + b| - 1] == a + init;
      SubtotalConcat(catalog, a, init);
    }
  }

  /** The totals of one line. */
  lemma Single(catalog: seq<Product>, item: CartItem)
    ensures TotalItems([item]) == item.quantity
    ensures Subtotal(catalog, [item]) == LineAmount(catalog, item)
  {
    assert [item][..0] == [];
  }

  /** The totals of a list split around one line. */
  lemma SplitTotals(catalog: seq<Product>, pre: seq<CartItem>, x: CartItem, post: seq<CartItem>)
    ensures TotalItems(pre + [x] + post) == TotalItems(pre) + x.quantity + TotalItems(post)
    ensures Subtotal(catalog, pre + [x] + post) == Subtotal(catalog, pre) + LineAmount(catalog, x) + Subtotal(catalog, post)
  {
    TotalItemsConcat(pre + [x], post);
    TotalItemsConcat(pre, [x]);
    SubtotalConcat(catalog, pre + [x], post);
    SubtotalConcat(catalog, pre, [x]);
    Single(catalog, x);
  }

  /** Changing the quantity of one line changes the totals by the difference. */
  lemma TotalsAfterPatch(catalog: seq<Product>, items: seq<CartItem>, i: nat, quantity: int)
    requires i < |items|
    ensures var r := items[i := items[i].(quantity := quantity)];
      TotalItems(r) == TotalItems(items) - items[i].quantity + quantity
      && Subtotal(catalog, r) == Subtotal(catalog, items) - LineAmount(catalog, items[i]) + LineAmount(catalog, r[i])
  {
    var r := items[i := items[i].(quantity := quantity)];
    var pre, post := items[..i], items[i + 1..];
    SplitAt(items, i);
    UpdateSplit(items, i, r[i]);
    SplitTotals(catalog, pre, items[i], post);
    SplitTotals(catalog, pre, r[i], post);
  }

  /** Raising a line's quantity by q raises its amount by q units. */
  lemma LineAmountAdd(catalog: seq<Product>, line: CartItem, q: int)
    ensures LineAmount(catalog, line.(quantity := line.quantity + q)) == LineAmount(catalog, line) + UnitPrice(catalog, line.productId) * q
  {
    var u := UnitPrice(catalog, line.productId);
    assert u * (line.quantity + q) == u * line.quantity + u * q;
  }

  /** Adding an item raises the item count by its quantity and the subtotal by
      its price, whether it merged into a line or was appended. */
  lemma AddItemTotals(catalog: seq<Product>, items: seq<CartItem>, item: CartItem)
    ensures TotalItems(AddItem(items, item)) == TotalItems(items) + item.quantity
    ensures Subtotal(catalog, AddItem(items, item)) == Subtotal(catalog, items) + UnitPrice(catalog, item.productId) * item.quantity
  {
    var i := FindIndex(items, OnLine(KeyOf(item)));
    if i < 0 {
      assert AddItem(items, item) == items + [item];
      AppendTotals(catalog, items, item);
    } else {
      assert AddItem(items, item) == items[i := items[i].(quantity := items[i].quantity + item.quantity)];
      MergeTotals(catalog, items, i, item);
    }
  }

  /** The totals after appending a new line. */
  lemma AppendTotals(catalog: seq<Product>, items: seq<CartItem>, item: CartItem)
    ensures TotalItems(items + [item]) == TotalItems(items) + item.quantity
    ensures Subtotal(catalog, items + [item]) == Subtotal(catalog, items) + UnitPrice(catalog, item.productId) * item.quantity
  {
    TotalItemsConcat(items, [item]);
    SubtotalConcat(catalog, items, [item]);
    Single(catalog, item);
  }

  /** The totals after merging an item into the line at `i` of the same product. */
  lemma MergeTotals(catalog: seq<Product>, items: seq<CartItem>, i: nat, item: CartItem)
    requires i < |items| && items[i].productId == item.productId
    ensures var r := items[i := items[i].(quantity := items[i].quantity + item.quantity)];
      TotalItems(r) == TotalItems(items) + item.quantity
      && Subtotal(catalog, r) == Subtotal(catalog, items) + UnitPrice(catalog, item.productId) * item.quantity
  {
    var r := items[i := items[i].(quantity := items[i].quantity + item.quantity)];
    TotalsAfterPatch(catalog, items, i, items[i].quantity + item.quantity);
    LineAmountAdd(catalog, items[i], item.quantity);
    assert r[i] == items[i].(quantity := items[i].quantity + item.quantity);
  }

  /** Adding keeps the keys unique, and the item's key then has exactly one line. */
  lemma AddItemKeepsUniqueKeys(items: seq<CartItem>, item: CartItem)
    requires UniqueKeys(items)
    ensures UniqueKeys(AddItem(items, item))
    ensures exists j :: 0 <= j < |AddItem(items, item)| && KeyOf(AddItem(items, item)[j]) == KeyOf(item)
  {
    var r := AddItem(items, item);
    var i := FindIndex(items, OnLine(KeyOf(item)));
    if i < 0 {
      assert KeyOf(r[|items|]) == KeyOf(item);
      forall a, b | 0 <= a < b < |r| ensures KeyOf(r[a]) != KeyOf(r[b]) {
        if b == |items| {
          assert !OnLine(KeyOf(item))(items[a]);
        }
      }
    } else {
      assert KeyOf(r[i]) == KeyOf(item);
      forall a, b | 0 <= a < b < |r| ensures KeyOf(r[a]) != KeyOf(r[b]) {
        assert KeyOf(r[a]) == KeyOf(items[a]) && KeyOf(r[b]) == KeyOf(items[b]);
      }
    }
  }

  /** Removing and re-quantifying keep the keys unique. */
  lemma UpdatesKeepUniqueKeys(items: seq<CartItem>, key: LineKey, quantity: int)
    requires UniqueKeys(items)
    ensures UniqueKeys(RemoveItem(items, key))
    ensures UniqueKeys(UpdateQuantity(items, key, quantity))
  {
    FilterPairwise(items, OffLine(key), (a: CartItem, b: CartItem) => KeyOf(a) != KeyOf(b));
    var r := UpdateQuantity(items, key, quantity);
    if 0 < quantity {
      forall a, b | 0 <= a < b < |r| ensures KeyOf(r[a]) != KeyOf(r[b]) {
        assert KeyOf(r[a]) == KeyOf(items[a]) && KeyOf(r[b]) == KeyOf(items[b]);
      }
    }
  }

  /** With unique keys, removing the key of line i removes that line alone,
      and the item count and subtotal drop by that line's share. */
  lemma RemoveItemAt(catalog: seq<Product>, items: seq<CartItem>, i: nat)
    requires UniqueKeys(items) && i < |items|
    ensures RemoveItem(items, KeyOf(items[i])) == items[..i] + items[i + 1..]
    ensures TotalItems(RemoveItem(items, KeyOf(items[i]))) == TotalItems(items) - items[i].quantity
    ensures Subtotal(catalog, RemoveItem(items, KeyOf(items[i]))) == Subtotal(catalog, items) - LineAmount(catalog, items[i])
  {
    var key := KeyOf(items[i]);
    var pre, post := items[..i], items[i + 1..];
    SplitAt(items, i);
    forall k | 0 <= k < |pre|
      ensures OffLine(key)(pre[k])
    {
      assert pre[k] == items[k];
    }
    forall k | 0 <= k < |post|
      ensures OffLine(key)(post[k])
    {
      assert post[k] == items[i + 1 + k];
    }
    FilterDropOne(pre, items[i], post, OffLine(key));
    SplitTotals(catalog, pre, items[i], post);
    TotalItemsConcat(pre, post);
    SubtotalConcat(catalog, pre, post);
  }
}

=== FILE: catalog.dfy ===
/** The category-slug filter both storefront repositories share
    (`filterByCategorySlug` in `src/lib/data/repositories/convex.ts` and
    `src/lib/data/repositories/mock.ts`): the synthetic `sale` and `new`
    slugs, and top-level categories resolved to their children. */
module Catalog {
  import opened Wrappers
  import opened Seqs
  import opened Domain

  /** `!item.parentId`: no parent, or an empty one. */
  predicate IsTopLevel(c: Category) {
    c.parentId.None? || c.parentId.value == ""
  }

  /** `categories.find(item => item.slug === slug && !item.parentId)`. */
  function TopLevelBySlug(cs: seq<Category>, slug: string): (r: Option<Category>)
    ensures r.None? <==> forall i :: 0 <= i < |cs| ==> !(cs[i].slug == slug && IsTopLevel(cs[i]))
    ensures r.Some? ==> r.value.slug == slug && IsTopLevel(r.value)
    ensures r.Some? ==> (exists i :: 0 <= i < |cs| && cs[i] == r.value
                           && forall j :: 0 <= j < i ==> !(cs[j].slug == slug && IsTopLevel(cs[j])))
  {
    var i := FindIndex(cs, (c: Category) => c.slug == slug && IsTopLevel(c));
    if i < 0 then None else Some(cs[i])
  }

  /** The categories whose parent is `parentId`. */
  function Children(cs: seq<Category>, parentId: string): seq<Category> {
    Filter(cs, (c: Category) => c.parentId == Some(parentId))
  }

  /** A product is in one of the children of `parentId`. */
  predicate InChildOf(cs: seq<Category>, parentId: string, p: Product) {
    exists c :: c in Children(cs, parentId) && c.id == p.categoryId
  }

  /** The `sale` rule: a positive sale price below the base price, a missing price reading as 0. */
  predicate OnSale(p: Product) {
    var base := p.basePrice.GetOr(0);
    var sale := p.salePrice.GetOr(0);
    sale > 0 && sale < base
  }

  /** The `categorySlug` filter of the server-backed listing. */
  function FilterByCategorySlug(slug: string, cs: seq<Category>, ps: seq<Product>): (r: seq<Product>)
    ensures |r| <= |ps|
    ensures forall i :: 0 <= i < |r| ==> r[i] in ps
    ensures slug == "sale" ==> forall i :: 0 <= i < |r| ==> 0 < r[i].salePrice.GetOr(0) < r[i].basePrice.GetOr(0)
  {
    if slug == "sale" then Filter(ps, (p: Product) => OnSale(p))
    else if slug == "new" then
      match TopLevelBySlug(cs, "new")
      case None => ps
      case Some(c) => Filter(ps, (p: Product) => p.categoryId == c.id)
    else
      match TopLevelBySlug(cs, slug)
      case None => ps
      case Some(parent) =>
        if Children(cs, parent.id) == [] then Filter(ps, (p: Product) => p.categoryId == parent.id)
        else Filter(ps, (p: Product) => InChildOf(cs, parent.id, p))
  }

  /** `sale` keeps exactly the products with `0 < salePrice < basePrice`. */
  lemma SaleSlug(cs: seq<Category>, ps: seq<Product>, p: Product)
    ensures p in FilterByCategorySlug("sale", cs, ps) <==>
      p in ps && 0 < p.salePrice.GetOr(0) < p.basePrice.GetOr(0)
  {
    FilterIn(ps, (p: Product) => OnSale(p), p);
  }

  /** `new` keeps the products of the top-level `new` category, or everything when there is none. */
  lemma NewSlug(cs: seq<Category>, ps: seq<Product>, p: Product)
    ensures TopLevelBySlug(cs, "new").None? ==> FilterByCategorySlug("new", cs, ps) == ps
    ensures TopLevelBySlug(cs, "new").Some? ==>
      (p in FilterByCategorySlug("new", cs, ps) <==> p in ps && p.categoryId == TopLevelBySlug(cs, "new").value.id)
  {
    if TopLevelBySlug(cs, "new").Some? {
      var c := TopLevelBySlug(cs, "new").value;
      FilterIn(ps, (p: Product) => p.categoryId == c.id, p);
    }
  }

  /** Any other slug that names no top-level category keeps every product. */
  lemma UnresolvedSlugKeepsAll(slug: string, cs: seq<Category>, ps: seq<Product>)
    requires slug != "sale" && slug != "new" && TopLevelBySlug(cs, slug).None?
    ensures FilterByCategorySlug(slug, cs, ps) == ps
  {
  }

  /** A top-level category with children keeps the products of those children
      only; a childless one keeps the products placed directly in it. */
  lemma ParentSlug(slug: string, cs: seq<Category>, ps: seq<Product>, p: Product)
    requires slug != "sale" && slug != "new" && TopLevelBySlug(cs, slug).Some?
    ensures var parent := TopLevelBySlug(cs, slug).value;
      Children(cs, parent.id) != [] ==>
        (p in FilterByCategorySlug(slug, cs, ps) <==>
          p in ps && exists c :: c in cs && c.parentId == Some(parent.id) && c.id == p.categoryId)
    ensures var parent := TopLevelBySlug(cs, slug).value;
      Children(cs, parent.id) == [] ==>
        (p in FilterByCategorySlug(slug, cs, ps) <==> p in ps && p.categoryId == parent.id)
  {
    var parent := TopLevelBySlug(cs, slug).value;
    var isChild := (c: Category) => c.parentId == Some(parent.id);
    if Children(cs, parent.id) != [] {
      FilterIn(ps, (p: Product) => InChildOf(cs, parent.id, p), p);
      if exists c :: c in cs && c.parentId == Some(parent.id) && c.id == p.categoryId {
        var c :| c in cs && c.parentId == Some(parent.id) && c.id == p.categoryId;
        FilterIn(cs, isChild, c);
      }
      if InChildOf(cs, parent.id, p) {
        var c :| c in Children(cs, parent.id) && c.id == p.categoryId;
        FilterIn(cs, isChild, c);
      }
    } else {
      FilterIn(ps, (p: Product) => p.categoryId == parent.id, p);
    }
  }

  /** Every branch only selects: no product is added or repeated. */
  lemma FilterOnlySelects(slug: string, cs: seq<Category>, ps: seq<Product>)
    ensures multiset(FilterByCategorySlug(slug, cs, ps)) <= multiset(ps)
  {
    if slug == "sale" {
      FilterMultiset(ps, (p: Product) => OnSale(p));
    } else if slug == "new" {
      match TopLevelBySlug(cs, "new")
      case None =>
      case Some(c) => FilterMultiset(ps, (p: Product) => p.categoryId == c.id);
    } else {
      match TopLevelBySlug(cs, slug)
      case None =>
      case Some(parent) =>
        if Children(cs, parent.id) == [] {
          FilterMultiset(ps, (p: Product) => p.categoryId == parent.id);
        } else {
          FilterMultiset(ps, (p: Product) => InChildOf(cs, parent.id, p));
        }
    }
  }

  /** `categories.find(item => item.slug === slug && item.parentId === parentId)`. */
  function SubcategoryBySlug(cs: seq<Category>, parentId: string, slug: string): (r: Option<Category>)
    ensures r.None? <==> forall i :: 0 <= i < |cs| ==> !(cs[i].slug == slug && cs[i].parentId == Some(parentId))
    ensures r.Some? ==> r.value in cs && r.value.slug == slug && r.value.parentId == Some(parentId)
  {
    var i := FindIndex(cs, (c: Category) => c.slug == slug && c.parentId == Some(parentId));
    if i < 0 then None else Some(cs[i])
  }

  /** `listBySubcategorySlugs` over the published products `ps`. */
  function ListBySubcategorySlugs(cs: seq<Category>, ps: seq<Product>, categorySlug: string, subcategorySlug: string): seq<Product> {
    match TopLevelBySlug(cs, categorySlug)
    case None => []
    case Some(parent) =>
      match SubcategoryBySlug(cs, parent.id, subcategorySlug)
      case None => []
      case Some(sub) => Filter(ps, (p: Product) => p.categoryId == sub.id)
  }

  /** Nothing when either slug fails to resolve under its parent; otherwise
      exactly the products filed in the subcategory. */
  lemma SubcategorySelection(cs: seq<Category>, ps: seq<Product>, categorySlug: string, subcategorySlug: string, p: Product)
    ensures TopLevelBySlug(cs, categorySlug).None? ==> ListBySubcategorySlugs(cs, ps, categorySlug, subcategorySlug) == []
    ensures TopLevelBySlug(cs, categorySlug).Some?
      && SubcategoryBySlug(cs, TopLevelBySlug(cs, categorySlug).value.id, subcategorySlug).None?
      ==> ListBySubcategorySlugs(cs, ps, categorySlug, subcategorySlug) == []
    ensures TopLevelBySlug(cs, categorySlug).Some?
      && SubcategoryBySlug(cs, TopLevelBySlug(cs, categorySlug).value.id, subcategorySlug).Some?
      ==> (p in ListBySubcategorySlugs(cs, ps, categorySlug, subcategorySlug) <==>
            p in ps && p.categoryId == SubcategoryBySlug(cs, TopLevelBySlug(cs, categorySlug).value.id, subcategorySlug).value.id)
  {
    if TopLevelBySlug(cs, categorySlug).Some? {
      var parent := TopLevelBySlug(cs, categorySlug).value;
      if SubcategoryBySlug(cs, parent.id, subcategorySlug).Some? {
        var sub := SubcategoryBySlug(cs, parent.id, subcategorySlug).value;
        FilterIn(ps, (p: Product) => p.categoryId == sub.id, p);
      }
    }
  }

  /** `listRelatedBySlug(slug, limit = 4)` over the published products `ps`. */
  function ListRelatedBySlug(ps: seq<Product>, slug: string, limit: Option<int>): seq<Product> {
    SliceTo(Filter(ps, (p: Product) => p.slug != slug), limit.GetOr(4))
  }

  /** The related products leave out the slug, keep the listing's order (a
      prefix of the other products) and number at most `limit`, 4 by default. */
  lemma RelatedSelection(ps: seq<Product>, slug: string, limit: Option<int>)
    ensures var r := ListRelatedBySlug(ps, slug, limit);
      r <= Filter(ps, (p: Product) => p.slug != slug)
      && (forall p :: p in r ==> p in ps && p.slug != slug)
      && (limit.None? ==> |r| <= 4)
      && (limit.Some? && 0 <= limit.value ==> |r| <= limit.value)
  {
    var others := Filter(ps, (p: Product) => p.slug != slug);
    var r := ListRelatedBySlug(ps, slug, limit);
    forall p | p in r ensures p in ps && p.slug != slug {
      var i :| 0 <= i < |r| && r[i] == p;
      assert r[i] == others[i];
      FilterIn(ps, (p: Product) => p.slug != slug, p);
    }
  }

  /** `listFeatured` over the published products `ps`. */
  function Featured(ps: seq<Product>): (r: seq<Product>)
    ensures forall p :: p in r <==> p in ps && p.isFeatured
  {
    var r := Filter(ps, (p: Product) => p.isFeatured);
    assert forall p :: p in r <==> p in ps && p.isFeatured by {
      forall p ensures p in r <==> p in ps && p.isFeatured {
        FilterIn(ps, (p: Product) => p.isFeatured, p);
      }
    }
    r
  }
}

=== FILE: convex_inventory.dfy ===
/** The server-side inventory (`convex/inventory.ts`): the flattened stock
    listing, the audited stock update and the audit-log query. */
module ConvexInventory {
  import opened Wrappers
  import opened Strings
  import opened Seqs
  import opened Sorting
  import opened Domain
  import opened ConvexProducts
  import opened Inventory

  /** `byProductNameThenVariant`, the comparator as written. */
  function RowCompare(a: InventoryRow, b: InventoryRow): int {
    var productCompare := LocaleCompare(a.productName, b.productName);
    if productCompare != 0 then productCompare
    else
      var colorCompare := LocaleCompare(a.colorName, b.colorName);
      if colorCompare != 0 then colorCompare
      else LocaleCompare(a.size, b.size)
  }

  /** The order the comparator defines: by product name, then colour, then size. */
  function RowBefore(): (InventoryRow, InventoryRow) -> bool {
    (a: InventoryRow, b: InventoryRow) =>
      StrLess(a.productName, b.productName)
      || (a.productName == b.productName && StrLess(a.colorName, b.colorName))
      || (a.productName == b.productName && a.colorName == b.colorName && StrLess(a.size, b.size))
  }

  /** The comparator is negative exactly when the first row sorts first, and
      zero exactly when name, colour and size all agree. */
  lemma RowCompareAgrees(a: InventoryRow, b: InventoryRow)
    ensures RowCompare(a, b) < 0 <==> RowBefore()(a, b)
    ensures RowCompare(a, b) > 0 <==> RowBefore()(b, a)
    ensures RowCompare(a, b) == 0 <==> (a.productName == b.productName && a.colorName == b.colorName && a.size == b.size)
  {
  }

  lemma RowBeforeIsStrictWeakOrder()
    ensures StrictWeakOrder(RowBefore())
  {
    var lt := RowBefore();
    forall a ensures !lt(a, a) {
      StrLessIrreflexive(a.productName);
      StrLessIrreflexive(a.colorName);
      StrLessIrreflexive(a.size);
    }
    forall a, b, c | lt(a, b) && lt(b, c) ensures lt(a, c) {
      RowBeforeTransitive(a, b, c);
    }
    forall a, b, c | !lt(a, b) && !lt(b, c) ensures !lt(a, c) {
      RowNotBeforeMeans(a, b);
      RowNotBeforeMeans(b, c);
      RowNotBeforeMeans(a, c);
      StrNotLessTransitive(a.productName, b.productName, c.productName);
      if a.productName == b.productName == c.productName {
        StrNotLessTransitive(a.colorName, b.colorName, c.colorName);
        if a.colorName == b.colorName == c.colorName {
          StrNotLessTransitive(a.size, b.size, c.size);
        }
      }
    }
  }

  lemma RowBeforeTransitive(a: InventoryRow, b: InventoryRow, c: InventoryRow)
    requires RowBefore()(a, b) && RowBefore()(b, c)
    ensures RowBefore()(a, c)
  {
    RowNotBeforeMeans(a, b);
    RowNotBeforeMeans(b, c);
    RowNotBeforeMeans(a, c);
    if a.productName != b.productName || b.productName != c.productName {
      if StrLess(a.productName, b.productName) && StrLess(b.productName, c.productName) {
        StrLessTransitive(a.productName, b.productName, c.productName);
      }
    } else if a.colorName != b.colorName || b.colorName != c.colorName {
      if StrLess(a.colorName, b.colorName) && StrLess(b.colorName, c.colorName) {
        StrLessTransitive(a.colorName, b.colorName, c.colorName);
      }
    } else {
      StrLessIrreflexive(a.productName);
      StrLessIrreflexive(a.colorName);
      StrLessTransitive(a.size, b.size, c.size);
    }
  }

  /** A row not before another is after it in one field at the first field where they differ. */
  lemma RowNotBeforeMeans(a: InventoryRow, b: InventoryRow)
    ensures !RowBefore()(a, b) <==>
      (!StrLess(a.productName, b.productName)
       && (a.productName == b.productName ==> !StrLess(a.colorName, b.colorName))
       && (a.productName == b.productName && a.colorName == b.colorName ==> !StrLess(a.size, b.size)))
  {
  }

  /** `listFlattened`: the flattened rows sorted by the comparator (a stable sort). */
  function ListFlattened(ps: seq<Product>): (r: seq<InventoryRow>)
    ensures multiset(r) == multiset(Flatten(ps))
  {
    SortPermutation(Flatten(ps), RowBefore());
    Sort(Flatten(ps), RowBefore())
  }

  /** The listing holds the flattened rows, one per product, variant and size,
      ordered by product name, then colour, then size. */
  lemma ListFlattenedSpec(ps: seq<Product>, r: InventoryRow)
    ensures multiset(ListFlattened(ps)) == multiset(Flatten(ps))
    ensures |ListFlattened(ps)| == SizeCount(ps)
    ensures r in ListFlattened(ps) <==> exists i, j, k :: RowOf(ps, r, i, j, k)
    ensures forall a, b :: 0 <= a < b < |ListFlattened(ps)| ==> RowCompare(ListFlattened(ps)[a], ListFlattened(ps)[b]) <= 0
  {
    var s := ListFlattened(ps);
    SortPermutation(Flatten(ps), RowBefore());
    RowBeforeIsStrictWeakOrder();
    SortSorted(Flatten(ps), RowBefore());
    FlattenSpec(ps, r);
    assert r in s <==> r in multiset(s);
    forall a, b | 0 <= a < b < |s| ensures RowCompare(s[a], s[b]) <= 0 {
      RowCompareAgrees(s[a], s[b]);
    }
  }

  class AuditLogTable {
    var rows: seq<AuditLog>

    constructor (initial: seq<AuditLog>)
      ensures rows == initial
    {
      rows := initial;
    }
  }

  /** `updateStockWithAudit`: fails with "Product not found." or "Variant not
      found." writing nothing; otherwise stores the clamped value for the size,
      refreshes `updatedAt` and inserts exactly one log carrying the prior and
      the stored value. */
  method UpdateStockWithAudit(products: ProductTable, logs: AuditLogTable, productId: string, variantId: string,
                              size: string, newValue: real, changedBy: string, now: int, logId: string)
    returns (r: Result<StockUpdate>)
    requires products.Valid()
    modifies products, logs
    ensures products.Valid()
    ensures var i := IndexOfId(old(products.rows), productId);
      if i < 0 then
        r == Failure("Product not found.") && products.rows == old(products.rows) && logs.rows == old(logs.rows)
      else
        var p := old(products.rows)[i];
        var j := IndexOfVariant(p.colorVariants, variantId);
        if j < 0 then
          r == Failure("Variant not found.") && products.rows == old(products.rows) && logs.rows == old(logs.rows)
        else
          var v := p.colorVariants[j];
          var value := ClampStock(newValue);
          var log := AuditLog(logId, productId, variantId, size, StockOf(v, size), value, changedBy, now);
          products.rows == old(products.rows)[i := WithStock(p, j, size, value, now)]
          && logs.rows == old(logs.rows) + [log]
          && r == Success(StockUpdate(InventoryRow(p.id, p.name, variantId, v.colorName, size, value, p.isPublished), log))
  {
    var i := IndexOfId(products.rows, productId);
    if i < 0 {
      return Failure("Product not found.");
    }
    var product := products.rows[i];
    var variantIndex := IndexOfVariant(product.colorVariants, variantId);
    if variantIndex < 0 {
      return Failure("Variant not found.");
    }
    var variant := product.colorVariants[variantIndex];
    var currentValue := StockOf(variant, size);
    var normalizedValue := ClampStock(newValue);
    products.rows := products.rows[i := WithStock(product, variantIndex, size, normalizedValue, now)];
    var log := AuditLog(logId, productId, variantId, size, currentValue, normalizedValue, changedBy, now);
    logs.rows := logs.rows + [log];
    r := Success(StockUpdate(InventoryRow(product.id, product.name, variantId, variant.colorName, size, normalizedValue, product.isPublished), log));
  }

}

=== FILE: convex_products.dfy ===
/** The server-side product table (`convex/products.ts`): slug probing, the
    published listing and slug lookup, and the create, update, soft-delete,
    duplicate and bulk-publish mutations. `Date.now()`, fresh ids and random
    suffixes are parameters. */
module ConvexProducts {
  import opened Wrappers
  import opened Strings
  import opened Seqs
  import opened Sorting
  import opened Domain

  /** `slug.trim().toLowerCase() || 'product'`. */
  function SlugBase(slug: string): (b: string)
    ensures b != []
    ensures TrimLower(slug) != [] ==> b == TrimLower(slug)
    ensures TrimLower(slug) == [] ==> b == "product"
  {
    var t := TrimLower(slug);
    if t == [] then "product" else t
  }

  /** The index of the first product holding a slug: the `by_slug` index lists
      equal slugs in insertion order. */
  function SlugHolder(rows: seq<Product>, slug: string): (i: int)
    ensures -1 <= i < |rows|
    ensures i == -1 <==> forall j :: 0 <= j < |rows| ==> rows[j].slug != slug
    ensures 0 <= i ==> rows[i].slug == slug && forall j :: 0 <= j < i ==> rows[j].slug != slug
  {
    if rows == [] then -1
    else if rows[0].slug == slug then 0
    else
      var k := SlugHolder(rows[1..], slug);
      if k == -1 then -1 else k + 1
  }

  /** The probe accepts a slug nobody holds, or whose first holder is `excludeId`. */
  predicate SlugFree(rows: seq<Product>, slug: string, excludeId: Option<string>) {
    var h := SlugHolder(rows, slug);
    h < 0 || Some(rows[h].id) == excludeId
  }

  /** Candidate `n` is the first one the probe accepts. */
  predicate FirstFree(rows: seq<Product>, base: string, n: nat, excludeId: Option<string>) {
    SlugFree(rows, Candidate(base, n), excludeId) && Rejected(rows, base, n, excludeId)
  }

  /** The probe rejects every candidate before the `n`-th. */
  predicate Rejected(rows: seq<Product>, base: string, n: nat, excludeId: Option<string>) {
    forall m :: 0 <= m < n ==> !SlugFree(rows, Candidate(base, m), excludeId)
  }

  /** The probe's answer is determined: at most one candidate is the first free one. */
  lemma FirstFreeUnique(rows: seq<Product>, base: string, m: nat, n: nat, excludeId: Option<string>)
    requires FirstFree(rows, base, m, excludeId) && FirstFree(rows, base, n, excludeId)
    ensures m == n
  {
  }

  /** A taken candidate is a slug of the table not probed before, so every
      rejected probe uses up one of the table's finitely many slugs. */
  lemma ProbeProgress(rows: seq<Product>, base: string, k: nat, excludeId: Option<string>)
    requires Tried(base, k) <= Slugs(rows) && Rejected(rows, base, k, excludeId)
    requires !SlugFree(rows, Candidate(base, k), excludeId)
    ensures Tried(base, k + 1) <= Slugs(rows) && Rejected(rows, base, k + 1, excludeId)
    ensures |Slugs(rows) - Tried(base, k + 1)| < |Slugs(rows) - Tried(base, k)|
  {
    var c := Candidate(base, k);
    var h := SlugHolder(rows, c);
    assert c in Slugs(rows) by {
      assert rows[h].slug == c;
    }
    TriedStep(base, k);
    UseUpOne(Slugs(rows), Tried(base, k), c);
  }

  /** Ids identify products. */
  predicate UniqueIds(rows: seq<Product>) {
    forall i, j :: 0 <= i < j < |rows| ==> rows[i].id != rows[j].id
  }

  /** Replacing a product by one with the same id keeps ids unique. */
  lemma PatchKeepsIds(rows: seq<Product>, i: int, p: Product)
    requires UniqueIds(rows) && 0 <= i < |rows| && p.id == rows[i].id
    ensures UniqueIds(rows[i := p])
  {
  }

  /** When the base slug is free or held first by the product itself, the
      probe for that product accepts the base. */
  lemma OwnBaseAccepted(rows: seq<Product>, base: string, n: nat, i: int, id: string)
    requires 0 <= i < |rows| && rows[i].id == id
    requires FirstFree(rows, base, n, Some(id))
    ensures (SlugHolder(rows, base) < 0 || SlugHolder(rows, base) == i) ==> Candidate(base, n) == base
  {
    if SlugHolder(rows, base) < 0 || SlugHolder(rows, base) == i {
      assert SlugFree(rows, Candidate(base, 0), Some(id));
    }
  }

  /** The listing order: newest `updatedAt` first. */
  function NewestFirst(): (Product, Product) -> bool {
    ByKeyDesc((p: Product) => p.updatedAt)
  }

  /** `list`: published rows only when `publishedOnly` is true, newest update first. */
  function ListProducts(rows: seq<Product>, publishedOnly: Option<bool>): (r: seq<Product>)
    ensures |r| <= |rows|
    ensures publishedOnly != Some(true) ==> |r| == |rows|
    ensures forall i :: 0 <= i < |r| ==> r[i] in rows
    ensures publishedOnly == Some(true) ==> forall i :: 0 <= i < |r| ==> r[i].isPublished
  {
    var filtered := if publishedOnly == Some(true) then Filter(rows, (p: Product) => p.isPublished) else rows;
    SortMembers(filtered, NewestFirst());
    Sort(filtered, NewestFirst())
  }

  /** The listing holds exactly the (published) rows, ordered by `updatedAt`
      descending, rows with equal `updatedAt` in table order. */
  lemma ListProductsSpec(rows: seq<Product>, publishedOnly: Option<bool>)
    ensures var filtered := if publishedOnly == Some(true) then Filter(rows, (p: Product) => p.isPublished) else rows;
      var r := ListProducts(rows, publishedOnly);
      multiset(r) == multiset(filtered)
      && (forall i, j :: 0 <= i < j < |r| ==> r[i].updatedAt >= r[j].updatedAt)
      && (forall e :: EquivClass(r, e, NewestFirst()) == EquivClass(filtered, e, NewestFirst()))
  {
    var filtered := if publishedOnly == Some(true) then Filter(rows, (p: Product) => p.isPublished) else rows;
    var lt := NewestFirst();
    ByKeyDescIsStrictWeakOrder((p: Product) => p.updatedAt);
    SortPermutation(filtered, lt);
    SortSorted(filtered, lt);
    forall e ensures EquivClass(Sort(filtered, lt), e, lt) == EquivClass(filtered, e, lt) {
      SortStable(filtered, e, lt);
    }
  }

  /** With `publishedOnly` every listed product is published, and every published product is listed. */
  lemma ListPublishedOnly(rows: seq<Product>, k: int)
    requires 0 <= k < |rows|
    ensures forall i :: 0 <= i < |ListProducts(rows, Some(true))| ==> ListProducts(rows, Some(true))[i].isPublished
    ensures rows[k].isPublished ==> rows[k] in ListProducts(rows, Some(true))
  {
    var filtered := Filter(rows, (p: Product) => p.isPublished);
    ListProductsSpec(rows, Some(true));
    var r := ListProducts(rows, Some(true));
    forall i | 0 <= i < |r| ensures r[i].isPublished {
      assert r[i] in multiset(filtered);
    }
    if rows[k].isPublished {
      assert rows[k] in multiset(filtered);
    }
  }

  /** `bySlug`: the first holder of the slug, hidden when it is unpublished
      unless `publishedOnly` is explicitly false. */
  function BySlug(rows: seq<Product>, slug: string, publishedOnly: Option<bool>): (r: Option<Product>)
    ensures SlugHolder(rows, slug) < 0 ==> r.None?
    ensures var h := SlugHolder(rows, slug);
      0 <= h ==> r == (if publishedOnly != Some(false) && !rows[h].isPublished then None else Some(rows[h]))
    ensures r.Some? ==> r.value in rows && r.value.slug == slug && (publishedOnly != Some(false) ==> r.value.isPublished)
  {
    var h := SlugHolder(rows, slug);
    if h < 0 then None
    else if publishedOnly != Some(false) && !rows[h].isPublished then None
    else Some(rows[h])
  }

  class ProductTable {
    var rows: seq<Product>

    ghost predicate Valid()
      reads this
    {
      UniqueIds(rows)
    }

    constructor (initial: seq<Product>)
      requires UniqueIds(initial)
      ensures Valid() && rows == initial
    {
      rows := initial;
    }

    /** `ensureUniqueSlug`: probes the base, then `base-1`, `base-2`, ... and
        returns the first candidate that no product holds or whose first holder
        is `excludeId`. */
    method EnsureUniqueSlug(slug: string, excludeId: Option<string>) returns (candidate: string)
      ensures exists n: nat :: FirstFree(rows, SlugBase(slug), n, excludeId) && candidate == Candidate(SlugBase(slug), n)
    {
      var base := SlugBase(slug);
      candidate := base;
      var attempt := 1;
      while true
        invariant attempt >= 1 && candidate == Candidate(base, attempt - 1)
        invariant Tried(base, attempt - 1) <= Slugs(rows)
        invariant Rejected(rows, base, attempt - 1, excludeId)
        decreases |Slugs(rows) - Tried(base, attempt - 1)|
      {
        var h := SlugHolder(rows, candidate);
        if h < 0 || Some(rows[h].id) == excludeId {
          assert FirstFree(rows, base, attempt - 1, excludeId);
          return;
        }
        ProbeProgress(rows, base, attempt - 1, excludeId);
        candidate := Suffixed(base, attempt);
        attempt := attempt + 1;
      }
    }

    /** `create`: inserts the input under the probed slug with `createdAt == updatedAt == now`. */
    method Create(input: ProductInput, now: int, newId: string) returns (id: string)
      requires Valid() && forall i :: 0 <= i < |rows| ==> rows[i].id != newId
      modifies this
      ensures Valid() && id == newId
      ensures |rows| == |old(rows)| + 1 && rows[..|old(rows)|] == old(rows)
      ensures var p := rows[|old(rows)|];
        p == FromInput(input, newId, p.slug, now, now)
        && (exists n: nat :: FirstFree(old(rows), SlugBase(input.slug), n, None) && p.slug == Candidate(SlugBase(input.slug), n))
        && forall i :: 0 <= i < |old(rows)| ==> old(rows)[i].slug != p.slug
    {
      var slug := EnsureUniqueSlug(input.slug, None);
      rows := rows + [FromInput(input, newId, slug, now, now)];
      id := newId;
    }

    /** `update`: "Product not found." for an unknown id; otherwise every
        supplied input field is written (an absent sku or price keeps the stored
        one), with the slug probed excluding the product itself and
        `updatedAt` refreshed. */
    method Update(id: string, input: ProductInput, now: int) returns (r: Result<string>)
      requires Valid()
      modifies this
      ensures Valid()
      ensures var i := IndexOfId(old(rows), id);
        if i < 0 then r == Failure("Product not found.") && rows == old(rows)
        else
          r == Success(id) && |rows| == |old(rows)|
          && rows == old(rows)[i := Overlay(old(rows)[i], input, rows[i].slug, now)]
          && (exists n: nat :: FirstFree(old(rows), SlugBase(input.slug), n, Some(id))
                && rows[i].slug == Candidate(SlugBase(input.slug), n))
          && ((SlugHolder(old(rows), SlugBase(input.slug)) < 0 || SlugHolder(old(rows), SlugBase(input.slug)) == i)
                ==> rows[i].slug == SlugBase(input.slug))
    {
      var i := IndexOfId(rows, id);
      if i < 0 {
        return Failure("Product not found.");
      }
      var slug := EnsureUniqueSlug(input.slug, Some(id));
      ghost var n: nat :| FirstFree(rows, SlugBase(input.slug), n, Some(id)) && slug == Candidate(SlugBase(input.slug), n);
      OwnBaseAccepted(rows, SlugBase(input.slug), n, i, id);
      PatchKeepsIds(rows, i, Overlay(rows[i], input, slug, now));
      rows := rows[i := Overlay(rows[i], input, slug, now)];
      r := Success(id);
    }

    /** `softDelete`: unpublishes and refreshes `updatedAt`; an unknown id changes nothing. */
    method SoftDelete(id: string, now: int) returns (r: string)
      requires Valid()
      modifies this
      ensures Valid() && r == id
      ensures var i := IndexOfId(old(rows), id);
        if i < 0 then rows == old(rows)
        else rows == old(rows)[i := old(rows)[i].(isPublished := false, updatedAt := now)]
    {
      var i := IndexOfId(rows, id);
      if i >= 0 {
        rows := rows[i := rows[i].(isPublished := false, updatedAt := now)];
      }
      r := id;
    }

    /** `duplicate`: inserts an unpublished copy named "<name> (Copy)", with the
        sku suffixed only when it is non-empty, the slug probed from
        "<slug>-copy" and each variant id suffixed with `-copy-<random>`. */
    method Duplicate(id: string, now: int, newId: string, suffix: nat -> string) returns (r: Result<string>)
      requires Valid() && forall i :: 0 <= i < |rows| ==> rows[i].id != newId
      modifies this
      ensures Valid()
      ensures var i := IndexOfId(old(rows), id);
        if i < 0 then r == Failure("Product not found.") && rows == old(rows)
        else
          var src := old(rows)[i];
          r == Success(newId)
          && |rows| == |old(rows)| + 1 && rows[..|old(rows)|] == old(rows)
          && var p := rows[|old(rows)|];
          p == Product(newId, CopySku(src.sku), src.name + " (Copy)", p.slug, src.description, src.categoryId,
                       src.basePrice, src.salePrice, src.isFeatured, false, CopyVariants(src.colorVariants, suffix), now, now)
          && exists n: nat :: FirstFree(old(rows), SlugBase(src.slug + "-copy"), n, None)
                && p.slug == Candidate(SlugBase(src.slug + "-copy"), n)
    {
      var i := IndexOfId(rows, id);
      if i < 0 {
        return Failure("Product not found.");
      }
      var src := rows[i];
      var slug := EnsureUniqueSlug(src.slug + "-copy", None);
      var copy := Product(newId, CopySku(src.sku), src.name + " (Copy)", slug, src.description, src.categoryId,
                          src.basePrice, src.salePrice, src.isFeatured, false, CopyVariants(src.colorVariants, suffix), now, now);
      rows := rows + [copy];
      r := Success(newId);
    }

    /** `toggleBulkStatus`: sets `isPublished` on every listed id that resolves
        and counts the ids patched, so an id listed twice counts twice. */
    method ToggleBulkStatus(ids: seq<string>, isPublished: bool, now: int) returns (updatedCount: nat)
      requires Valid()
      modifies this
      ensures Valid()
      ensures updatedCount == CountWhere(ids, (id: string) => IndexOfId(old(rows), id) >= 0)
      ensures rows == Toggled(old(rows), ids, isPublished, now)
    {
      ghost var orig := rows;
      ghost var resolves := (id: string) => IndexOfId(orig, id) >= 0;
      updatedCount := 0;
      var k := 0;
      while k < |ids|
        invariant 0 <= k <= |ids|
        invariant rows == PatchedInTurn(orig, ids, k, isPublished, now)
        invariant updatedCount == CountWhere(ids[..k], resolves)
      {
        ToggleTurn(orig, ids, k, rows, isPublished, now);
        CountStep(ids, k, resolves);
        var i := IndexOfId(rows, ids[k]);
        if i >= 0 {
          rows := rows[i := rows[i].(isPublished := isPublished, updatedAt := now)];
          updatedCount := updatedCount + 1;
        }
        k := k + 1;
      }
      PatchedInTurnIsToggled(orig, ids, k, isPublished, now);
      assert ids[..k] == ids;
    }
  }

  /** The table after the bulk toggle has handled the first `k` ids, one patch
      per id that resolves at its turn. */
  function PatchedInTurn(orig: seq<Product>, ids: seq<string>, k: int, isPublished: bool, now: int): (r: seq<Product>)
    requires 0 <= k <= |ids|
    ensures |r| == |orig| && forall j :: 0 <= j < |r| ==> r[j].id == orig[j].id
    decreases k
  {
    if k == 0 then orig
    else
      var t := PatchedInTurn(orig, ids, k - 1, isPublished, now);
      var i := IndexOfId(t, ids[k - 1]);
      if i < 0 then t else t[i := t[i].(isPublished := isPublished, updatedAt := now)]
  }

  /** One turn of the bulk toggle loop: the id resolves in the patched table
      exactly when it resolves in the original one. */
  lemma ToggleTurn(orig: seq<Product>, ids: seq<string>, k: int, rows: seq<Product>, isPublished: bool, now: int)
    requires 0 <= k < |ids| && rows == PatchedInTurn(orig, ids, k, isPublished, now)
    ensures IndexOfId(rows, ids[k]) >= 0 <==> IndexOfId(orig, ids[k]) >= 0
    ensures IndexOfId(rows, ids[k]) < 0 ==> PatchedInTurn(orig, ids, k + 1, isPublished, now) == rows
    ensures var i := IndexOfId(rows, ids[k]);
      0 <= i ==> PatchedInTurn(orig, ids, k + 1, isPublished, now) == rows[i := rows[i].(isPublished := isPublished, updatedAt := now)]
  {
    IdsAgree(orig, rows, ids[k]);
  }

  /** Patching id by id sets the flag on exactly the products whose id is listed. */
  lemma {:induction false} PatchedInTurnIsToggled(orig: seq<Product>, ids: seq<string>, k: int, isPublished: bool, now: int)
    requires UniqueIds(orig) && 0 <= k <= |ids|
    ensures PatchedInTurn(orig, ids, k, isPublished, now) == Toggled(orig, ids[..k], isPublished, now)
    decreases k
  {
    if k == 0 {
      assert ids[..0] == [];
    } else {
      PatchedInTurnIsToggled(orig, ids, k - 1, isPublished, now);
      ToggleLoopStep(orig, ids, k - 1, PatchedInTurn(orig, ids, k - 1, isPublished, now), isPublished, now);
    }
  }

  /** Patching the product an id resolves to extends the patched table by that id. */
  lemma ToggleStep(orig: seq<Product>, done: seq<string>, id: string, isPublished: bool, now: int)
    requires UniqueIds(orig)
    ensures var t := Toggled(orig, done, isPublished, now);
      var i := IndexOfId(t, id);
      Toggled(orig, done + [id], isPublished, now)
        == if i < 0 then t else t[i := t[i].(isPublished := isPublished, updatedAt := now)]
  {
    var t := Toggled(orig, done, isPublished, now);
    var i := IndexOfId(t, id);
    var t' := Toggled(orig, done + [id], isPublished, now);
    forall j | 0 <= j < |orig|
      ensures t'[j] == if i < 0 then t[j] else t[i := t[i].(isPublished := isPublished, updatedAt := now)][j]
    {
      assert orig[j].id in done + [id] <==> orig[j].id in done || orig[j].id == id;
    }
  }

  /** One turn of the bulk toggle loop: the id resolves in the patched table
      exactly when it resolves in the original one, and patching it extends the
      toggled prefix by one id. */
  lemma ToggleLoopStep(orig: seq<Product>, ids: seq<string>, k: int, rows: seq<Product>, isPublished: bool, now: int)
    requires UniqueIds(orig) && 0 <= k < |ids| && rows == Toggled(orig, ids[..k], isPublished, now)
    ensures var i := IndexOfId(rows, ids[k]);
      (i >= 0 <==> IndexOfId(orig, ids[k]) >= 0)
      && Toggled(orig, ids[..k + 1], isPublished, now)
           == if i < 0 then rows else rows[i := rows[i].(isPublished := isPublished, updatedAt := now)]
  {
    IdsAgree(orig, rows, ids[k]);
    TakeStep(ids, k);
    ToggleStep(orig, ids[..k], ids[k], isPublished, now);
  }

  /** Two tables with the same ids at the same positions resolve ids alike. */
  lemma IdsAgree(a: seq<Product>, b: seq<Product>, id: string)
    requires |a| == |b| && forall j :: 0 <= j < |a| ==> a[j].id == b[j].id
    ensures IndexOfId(a, id) == IndexOfId(b, id)
  {
    if a != [] {
      IdsAgree(a[1..], b[1..], id);
    }
  }

  /** Listing an existing id twice counts two updates. */
  lemma DuplicateIdsCountTwice(rows: seq<Product>, id: string)
    requires IndexOfId(rows, id) >= 0
    ensures CountWhere([id, id], (x: string) => IndexOfId(rows, x) >= 0) == 2
  {
  }

  lemma SlugBaseOfX()
    ensures SlugBase("x") == "x"
  {
    assert TrimStart("x") == "x";
    assert TrimEnd("x") == "x";
    assert ToLower("x") == "x";
  }

  /** On an empty table the probe accepts the base itself. */
  lemma ProbeOnEmpty(base: string, slug: string)
    requires exists n: nat :: FirstFree([], base, n, None) && slug == Candidate(base, n)
    ensures slug == base
  {
    var n: nat :| FirstFree([], base, n, None) && slug == Candidate(base, n);
    assert FirstFree([], base, 0, None);
    FirstFreeUnique([], base, n, 0, None);
  }

  /** After a product took "x", the probe for "x" settles on "x-1". */
  lemma ProbeAfterX(rows: seq<Product>, slug: string)
    requires |rows| == 1 && rows[0].slug == "x"
    requires exists n: nat :: FirstFree(rows, "x", n, None) && slug == Candidate("x", n)
    ensures slug == "x-1"
  {
    var n: nat :| FirstFree(rows, "x", n, None) && slug == Candidate("x", n);
    SecondProbeForX(rows[0]);
    assert rows == [rows[0]];
    FirstFreeUnique(rows, "x", n, 1, None);
  }

  /** With "x" taken, candidate 1 is the first free one. */
  lemma SecondProbeForX(p: Product)
    requires p.slug == "x"
    ensures FirstFree([p], "x", 1, None)
  {
    assert Candidate("x", 1) == "x-1";
    assert !SlugFree([p], Candidate("x", 0), None);
  }

  /** Creating two products with slug "x" gives them the slugs "x" and "x-1". */
  method CreateTwiceSameSlug(input: ProductInput, now: int) returns (first: string, second: string)
    requires input.slug == "x"
    ensures first == "x" && second == "x-1"
  {
    SlugBaseOfX();
    var table := new ProductTable([]);
    var _ := table.Create(input, now, "p1");
    first := table.rows[0].slug;
    ProbeOnEmpty("x", first);
    ghost var before := table.rows;
    var _ := table.Create(input, now, "p2");
    second := table.rows[1].slug;
    ProbeAfterX(before, second);
  }
}

=== FILE: convex_repository.dfy ===
/** The storefront's view of the server (`src/lib/data/repositories/convex.ts`):
    the normalisers that turn untyped server rows into typed records, the
    settings fallbacks and the category listing. The remote calls are left
    out; their results are the inputs here. */
module ConvexRepository {
  import opened Wrappers
  import opened Strings
  import opened Seqs
  import opened Sorting
  import opened Values
  import opened Domain

  function ToStringOrUndefined(v: Value): (r: Option<string>)
    ensures r.Some? <==> v.Str?
    ensures r.Some? ==> v == Str(r.value)
  {
    if v.Str? then Some(v.s) else None
  }

  function ToNumberOrUndefined(v: Value): (r: Option<int>)
    ensures r.Some? <==> v.Num?
    ensures r.Some? ==> v == Num(r.value)
  {
    if v.Num? then Some(v.n) else None
  }

  /** `typeof v === 'object'` for a truthy value. */
  predicate IsObject(v: Value) {
    v.Obj? || v.Arr? || v.Date?
  }

  predicate IsStrValue(v: Value) {
    v.Str?
  }

  /** The string items, in order and with repeats: position by position the
      strings of `filter(entry => typeof entry === 'string')`. */
  function StringsOf(items: seq<Value>): (r: seq<string>)
    ensures |r| == |Filter(items, IsStrValue)|
    ensures forall i :: 0 <= i < |r| ==> Filter(items, IsStrValue)[i] == Str(r[i])
    ensures forall s :: s in r <==> Str(s) in items
  {
    if items == [] then []
    else
      var rest := StringsOf(items[1..]);
      assert forall s :: Str(s) in items <==> Str(s) == items[0] || Str(s) in items[1..];
      var kept := Filter(items[1..], IsStrValue);
      assert Filter(items, IsStrValue) == (if items[0].Str? then [items[0]] else []) + kept;
      if items[0].Str? then
        StringsCons(items[0], kept, rest);
        [items[0].s] + rest
      else
        assert Filter(items, IsStrValue) == kept;
        rest
  }

  /** A string item in front keeps the position-by-position match. */
  lemma StringsCons(x: Value, kept: seq<Value>, rest: seq<string>)
    requires x.Str? && |rest| == |kept|
    requires forall i :: 0 <= i < |rest| ==> kept[i] == Str(rest[i])
    ensures forall i :: 0 <= i < |rest| + 1 ==> ([x] + kept)[i] == Str(([x.s] + rest)[i])
  {
  }

  /** `toStringArray`: the string entries of an array in order, nothing for anything else. */
  function ToStringArray(v: Value): (r: seq<string>)
    ensures !v.Arr? ==> r == []
    ensures v.Arr? ==> forall s :: s in r <==> Str(s) in v.items
    ensures v.Arr? ==> |r| == |Filter(v.items, IsStrValue)| && forall i :: 0 <= i < |r| ==> Filter(v.items, IsStrValue)[i] == Str(r[i])
  {
    if v.Arr? then StringsOf(v.items) else []
  }

  /** The numeric entries of an object or array, as `toStockRecord` collects
      them from `Object.entries`. */
  function StockRecordOf(v: Value): (r: map<string, int>)
    ensures !v.Obj? && !v.Arr? ==> r == map[]
    ensures forall k :: k in r <==> k in OwnEntries(v) && OwnEntries(v)[k].Num?
    ensures forall k :: k in r ==> OwnEntries(v)[k] == Num(r[k])
    ensures v.Obj? ==> forall k :: k in r <==> k in v.fields && v.fields[k].Num?
  {
    var entries := OwnEntries(v);
    map k | k in entries.Keys && entries[k].Num? :: entries[k].n
  }

  /** Of an array, exactly the numeric items are kept, each under its index. */
  lemma StockRecordOfArrayKeys(items: seq<Value>)
    ensures forall i :: 0 <= i < |items| ==> (NatToString(i) in StockRecordOf(Arr(items)) <==> items[i].Num?)
    ensures forall i :: 0 <= i < |items| && items[i].Num? ==> StockRecordOf(Arr(items))[NatToString(i)] == items[i].n
    ensures forall k :: k in StockRecordOf(Arr(items)) ==> exists i :: 0 <= i < |items| && k == NatToString(i) && items[i].Num?
  {
    ArrayEntries(items);
  }

  lemma SmallIndexKeys()
    ensures NatToString(0) == "0" && NatToString(1) == "1" && NatToString(2) == "2"
  {
  }

  /** An array's numeric items come back keyed by their index. */
  lemma StockRecordOfArray()
    ensures StockRecordOf(Arr([Num(5), Str("x"), Num(7)])) == map["0" := 5, "2" := 7]
  {
    var v := Arr([Num(5), Str("x"), Num(7)]);
    StockRecordOfArrayKeys(v.items);
    var r := StockRecordOf(v);
    SmallIndexKeys();
    assert "0" in r && "2" in r && "1" !in r;
    forall k | k in r ensures k == "0" || k == "2" {
      var i :| 0 <= i < 3 && k == NatToString(i) && v.items[i].Num?;
      assert i == 0 || i == 2;
    }
    assert r.Keys == {"0", "2"};
  }

  /** `toStockRecord`: walks the entries of an object or array, keeping the numeric ones. */
  method ToStockRecord(value: Value) returns (result: map<string, int>)
    ensures result == StockRecordOf(value)
  {
    if !Truthy(value) || !IsObject(value) {
      return map[];
    }
    result := NumericEntries(OwnEntries(value));
  }

  /** The `for (const [key, amount] of Object.entries(value))` loop of `toStockRecord`. */
  method NumericEntries(fields: map<string, Value>) returns (result: map<string, int>)
    ensures result == map k | k in fields.Keys && fields[k].Num? :: fields[k].n
  {
    result := map[];
    var remaining := fields.Keys;
    while remaining != {}
      invariant remaining <= fields.Keys
      invariant result == map k | k in fields.Keys - remaining && fields[k].Num? :: fields[k].n
      decreases |remaining|
    {
      var key :| key in remaining;
      if fields[key].Num? {
        result := result[key := fields[key].n];
      }
      remaining := remaining - {key};
    }
  }

  /** One measurement entry: each of the five fields read as a property of
      the entry. An object entry gives its numeric fields; an array entry has
      no such fields except `length`, its item count; a Date has none. */
  function MeasurementOf(m: Value): (r: Measurement)
    ensures m.Obj? ==> r.shoulder == ToNumberOrUndefined(Get(m.fields, "shoulder"))
    ensures m.Obj? ==> r.chest == ToNumberOrUndefined(Get(m.fields, "chest"))
    ensures m.Obj? ==> r.sleeve == ToNumberOrUndefined(Get(m.fields, "sleeve"))
    ensures m.Obj? ==> r.waist == ToNumberOrUndefined(Get(m.fields, "waist"))
    ensures m.Obj? ==> r.length == ToNumberOrUndefined(Get(m.fields, "length"))
    ensures m.Arr? ==> r == Measurement(None, None, None, None, Some(|m.items|))
    ensures !m.Obj? && !m.Arr? ==> r == Measurement(None, None, None, None, None)
  {
    var fields := if m.Obj? then m.fields else map[];
    Measurement(ToNumberOrUndefined(Get(fields, "shoulder")), ToNumberOrUndefined(Get(fields, "chest")),
                ToNumberOrUndefined(Get(fields, "sleeve")), ToNumberOrUndefined(Get(fields, "waist")),
                if m.Arr? then Some(|m.items|) else ToNumberOrUndefined(Get(fields, "length")))
  }

  /** The entries `toMeasurementMap` collects: one per object-valued entry of
      an object or array. */
  function MeasurementEntries(v: Value): (r: map<string, Measurement>)
    ensures !v.Obj? && !v.Arr? ==> r == map[]
    ensures forall k :: k in r <==> k in OwnEntries(v) && IsObject(OwnEntries(v)[k])
    ensures forall k :: k in r ==> r[k] == MeasurementOf(OwnEntries(v)[k])
  {
    ObjectEntries(OwnEntries(v), OwnEntries(v).Keys)
  }

  /** The result of `toMeasurementMap`: undefined when no entry is an object. */
  function MeasurementMapOf(v: Value): (r: Option<map<string, Measurement>>)
    ensures r.None? <==> forall k :: k in OwnEntries(v) ==> !IsObject(OwnEntries(v)[k])
    ensures !v.Obj? && !v.Arr? ==> r.None?
    ensures r.Some? ==> r.value == MeasurementEntries(v)
  {
    var entries := MeasurementEntries(v);
    if |entries| > 0 then Some(entries)
    else
      assert entries.Keys == {};
      None
  }

  /** Of an array, exactly the object items give an entry, each under its index. */
  lemma MeasurementEntriesOfArrayKeys(items: seq<Value>)
    ensures forall i :: 0 <= i < |items| ==> (NatToString(i) in MeasurementEntries(Arr(items)) <==> IsObject(items[i]))
    ensures forall i :: 0 <= i < |items| && IsObject(items[i]) ==> MeasurementEntries(Arr(items))[NatToString(i)] == MeasurementOf(items[i])
    ensures forall k :: k in MeasurementEntries(Arr(items)) ==> exists i :: 0 <= i < |items| && k == NatToString(i) && IsObject(items[i])
  {
    ArrayEntries(items);
  }

  /** An array of measurements comes back keyed by index. */
  lemma MeasurementMapOfArray(m: map<string, Value>)
    ensures MeasurementMapOf(Arr([Obj(m)])) == Some(map["0" := MeasurementOf(Obj(m))])
  {
    var v := Arr([Obj(m)]);
    MeasurementEntriesOfArrayKeys(v.items);
    var e := MeasurementEntries(v);
    SmallIndexKeys();
    assert "0" in e;
    forall k | k in e ensures k == "0" {
      var i :| 0 <= i < 1 && k == NatToString(i);
    }
    assert e.Keys == {"0"};
    assert e == map["0" := MeasurementOf(Obj(m))];
    assert |e| == 1;
  }

  /** An array entry is kept, with its item count as its `length`:
      `{M: [1, 2]}` gives `{M: {length: 2}}`. */
  lemma MeasurementMapOfArrayEntry()
    ensures MeasurementMapOf(Obj(map["M" := Arr([Num(1), Num(2)])]))
         == Some(map["M" := Measurement(None, None, None, None, Some(2))])
  {
    var v := Obj(map["M" := Arr([Num(1), Num(2)])]);
    var e := MeasurementEntries(v);
    assert OwnEntries(v) == v.fields;
    assert e.Keys == {"M"};
    assert e == map["M" := Measurement(None, None, None, None, Some(2))];
    assert |e| == 1;
  }

  /** `toMeasurementMap`: walks the entries of an object or array, normalising the object-valued ones. */
  method ToMeasurementMap(value: Value) returns (r: Option<map<string, Measurement>>)
    ensures r == MeasurementMapOf(value)
  {
    if !Truthy(value) || !IsObject(value) {
      return None;
    }
    var result := MeasurementEntriesLoop(OwnEntries(value));
    r := if |result| > 0 then Some(result) else None;
  }

  /** The `for (const [key, measurement] of Object.entries(value))` loop of `toMeasurementMap`. */
  method MeasurementEntriesLoop(fields: map<string, Value>) returns (result: map<string, Measurement>)
    ensures result == ObjectEntries(fields, fields.Keys)
  {
    result := map[];
    var remaining := fields.Keys;
    while remaining != {}
      invariant remaining <= fields.Keys
      invariant result == ObjectEntries(fields, fields.Keys - remaining)
      decreases |remaining|
    {
      var key :| key in remaining;
      var measurement := fields[key];
      ObjectEntriesStep(fields, fields.Keys - remaining, key);
      assert fields.Keys - (remaining - {key}) == (fields.Keys - remaining) + {key};
      if Truthy(measurement) && IsObject(measurement) {
        result := result[key := MeasurementOf(measurement)];
      }
      remaining := remaining - {key};
    }
    assert fields.Keys - remaining == fields.Keys;
  }

  /** The measurement entries among the keys `done`. */
  function ObjectEntries(fields: map<string, Value>, done: set<string>): map<string, Measurement> {
    map k | k in done && k in fields && IsObject(fields[k]) :: MeasurementOf(fields[k])
  }

  /** Visiting one more key adds its entry exactly when it holds an object. */
  lemma ObjectEntriesStep(fields: map<string, Value>, done: set<string>, key: string)
    requires key in fields
    ensures IsObject(fields[key]) ==> ObjectEntries(fields, done + {key}) == ObjectEntries(fields, done)[key := MeasurementOf(fields[key])]
    ensures !IsObject(fields[key]) ==> ObjectEntries(fields, done + {key}) == ObjectEntries(fields, done)
  {
  }

  /** `Number(input?.updatedAt ?? Date.now())`: a missing value reads as `now`,
      a number as itself, a boolean as 1 or 0 and a Date as its milliseconds. */
  function UpdatedAtOf(input: Option<Doc>, now: int): (r: int)
    ensures input.None? ==> r == now
    ensures input.Some? ==> var v := Get(input.value, "updatedAt");
      (IsNullish(v) ==> r == now)
      && (v.Num? ==> r == v.n)
      && (v.Bool? ==> r == if v.b then 1 else 0)
      && (v.Date? ==> r == v.ms)
  {
    var v := if input.Some? then Get(input.value, "updatedAt") else Undefined;
    match v
    case Undefined => now
    case Null => now
    case Num(n) => n
    case Bool(b) => if b then 1 else 0
    case Date(ms) => ms
    case _ => 0
  }

  function StrField(doc: Doc, name: string): Option<string> {
    ToStringOrUndefined(Get(doc, name))
  }

  /** `toStoreSettings`: the typed settings of the stored row (or of no row). */
  function ToStoreSettings(input: Option<Doc>, now: int): (r: StoreSettings)
    ensures input.None? ==> r.id == "store-settings" && r.updatedAt == now
    ensures r.fields.contactEmail.Some? && r.fields.contactPhone.Some?
    ensures r.fields.pickupAddress.Some? && r.fields.pickupHours.Some?
    ensures r.updatedAt == UpdatedAtOf(input, now)
    ensures input.Some? && !IsNullish(Get(input.value, IdField)) ==> r.id == JsString(Get(input.value, IdField))
  {
    var doc := if input.Some? then input.value else map[];
    var rawId := Get(doc, IdField);
    StoreSettings(
      if IsNullish(rawId) then "store-settings" else JsString(rawId),
      SettingsFields(
        StrField(doc, "heroTitle"), StrField(doc, "heroSubtitle"), StrField(doc, "heroImageUrl"), StrField(doc, "heroCtaLabel"), StrField(doc, "heroCtaLink"),
        if Get(doc, "saleBannerEnabled").Bool? then Some(Get(doc, "saleBannerEnabled").b) else None,
        StrField(doc, "saleBannerText"), StrField(doc, "saleBannerLink"), StrField(doc, "announcementBar"),
        Some(StrField(doc, "contactEmail").GetOr(BrandContactEmail)),
        Some(StrField(doc, "contactPhone").GetOr(BrandContactPhone)),
        Some(StrField(doc, "pickupAddress").GetOr(BrandPickupAddress)),
        Some(StrField(doc, "pickupHours").GetOr(BrandPickupHours)),
        StrField(doc, "socialInstagram"), StrField(doc, "socialFacebook"), StrField(doc, "socialTiktok")),
      if Get(doc, "featuredProductIds").Arr? then Some(ToStringArray(Get(doc, "featuredProductIds"))) else None,
      UpdatedAtOf(input, now))
  }

  /** Field by field: an optional text setting is kept only when it is a
      string; a stored string contact setting wins, otherwise the brand value
      is used; `saleBannerEnabled` is kept only when it is a boolean;
      `featuredProductIds` is the string items of an array, else absent. A
      missing `_id` reads as "store-settings", any other as its string form. */
  lemma StoreSettingsFallbacks(doc: Doc, now: int)
    ensures var r := ToStoreSettings(Some(doc), now);
      r.fields.contactEmail == Some(if Get(doc, "contactEmail").Str? then Get(doc, "contactEmail").s else BrandContactEmail)
      && r.fields.contactPhone == Some(if Get(doc, "contactPhone").Str? then Get(doc, "contactPhone").s else BrandContactPhone)
      && r.fields.pickupAddress == Some(if Get(doc, "pickupAddress").Str? then Get(doc, "pickupAddress").s else BrandPickupAddress)
      && r.fields.pickupHours == Some(if Get(doc, "pickupHours").Str? then Get(doc, "pickupHours").s else BrandPickupHours)
      && (IsNullish(Get(doc, IdField)) ==> r.id == "store-settings")
      && (Get(doc, IdField).Str? ==> r.id == Get(doc, IdField).s)
    ensures var r := ToStoreSettings(Some(doc), now);
      r.fields.heroTitle == ToStringOrUndefined(Get(doc, "heroTitle"))
      && r.fields.heroSubtitle == ToStringOrUndefined(Get(doc, "heroSubtitle"))
      && r.fields.heroImageUrl == ToStringOrUndefined(Get(doc, "heroImageUrl"))
      && r.fields.heroCtaLabel == ToStringOrUndefined(Get(doc, "heroCtaLabel"))
      && r.fields.heroCtaLink == ToStringOrUndefined(Get(doc, "heroCtaLink"))
      && r.fields.saleBannerText == ToStringOrUndefined(Get(doc, "saleBannerText"))
      && r.fields.saleBannerLink == ToStringOrUndefined(Get(doc, "saleBannerLink"))
      && r.fields.announcementBar == ToStringOrUndefined(Get(doc, "announcementBar"))
      && r.fields.socialInstagram == ToStringOrUndefined(Get(doc, "socialInstagram"))
      && r.fields.socialFacebook == ToStringOrUndefined(Get(doc, "socialFacebook"))
      && r.fields.socialTiktok == ToStringOrUndefined(Get(doc, "socialTiktok"))
    ensures var r := ToStoreSettings(Some(doc), now); var b := Get(doc, "saleBannerEnabled");
      r.fields.saleBannerEnabled == (if b.Bool? then Some(b.b) else None)
    ensures var r := ToStoreSettings(Some(doc), now); var ids := Get(doc, "featuredProductIds");
      (ids.Arr? ==> r.featuredProductIds == Some(StringsOf(ids.items)))
      && (!ids.Arr? ==> r.featuredProductIds.None?)
  {
  }

  /** With no stored row every optional field is absent and the contact fields take the brand values. */
  lemma NoSettingsRow(now: int)
    ensures var r := ToStoreSettings(None, now);
      r.fields == SettingsFields(None, None, None, None, None, None, None, None, None,
                                 Some(BrandContactEmail), Some(BrandContactPhone),
                                 Some(BrandPickupAddress), Some(BrandPickupHours), None, None, None)
      && r.featuredProductIds.None?
  {
  }

  /** Category `list`: all categories sorted by `sortOrder` (a stable sort),
      then only the active ones unless `activeOnly` is explicitly false. */
  function ListCategories(cs: seq<Category>, activeOnly: Option<bool>): (r: seq<Category>)
    ensures |r| <= |cs|
    ensures activeOnly == Some(false) ==> |r| == |cs|
    ensures forall i :: 0 <= i < |r| ==> r[i] in cs
    ensures activeOnly != Some(false) ==> forall i :: 0 <= i < |r| ==> r[i].isActive
  {
    var sorted := Sort(cs, BySortOrder());
    SortMembers(cs, BySortOrder());
    if activeOnly == Some(false) then sorted else Filter(sorted, (c: Category) => c.isActive)
  }

  /** The listing holds the (active) categories, each once, in ascending `sortOrder`. */
  lemma ListCategoriesSpec(cs: seq<Category>, activeOnly: Option<bool>)
    ensures var r := ListCategories(cs, activeOnly);
      (forall i, j :: 0 <= i < j < |r| ==> r[i].sortOrder <= r[j].sortOrder)
      && (activeOnly == Some(false) ==> multiset(r) == multiset(cs))
      && (activeOnly != Some(false) ==> multiset(r) == multiset(Filter(cs, (c: Category) => c.isActive)))
      && (activeOnly != Some(false) ==> forall c :: c in r ==> c.isActive)
  {
    var sorted := Sort(cs, BySortOrder());
    var active := (c: Category) => c.isActive;
    ByKeyAscIsStrictWeakOrder((c: Category) => c.sortOrder);
    SortPermutation(cs, BySortOrder());
    SortSorted(cs, BySortOrder());
    FilterPairwise(sorted, active, (a: Category, b: Category) => a.sortOrder <= b.sortOrder);
    FilterPermutation(cs, sorted, active);
  }
}

=== FILE: convex_settings.dfy ===
/** The singleton store-settings table (`convex/settings.ts`): `get` reads the
    first row, `upsert` patches it or inserts the first one. */
module ConvexSettings {
  import opened Wrappers
  import opened Domain

  /** `{ ...args }` over a stored row: a supplied field replaces the stored
      one, an absent field keeps it. */
  function MergeFields(stored: SettingsFields, args: SettingsFields): (r: SettingsFields)
    ensures r.heroTitle == Pick(args.heroTitle, stored.heroTitle) && r.heroSubtitle == Pick(args.heroSubtitle, stored.heroSubtitle)
    ensures r.heroImageUrl == Pick(args.heroImageUrl, stored.heroImageUrl) && r.heroCtaLabel == Pick(args.heroCtaLabel, stored.heroCtaLabel)
    ensures r.heroCtaLink == Pick(args.heroCtaLink, stored.heroCtaLink) && r.saleBannerEnabled == Pick(args.saleBannerEnabled, stored.saleBannerEnabled)
    ensures r.saleBannerText == Pick(args.saleBannerText, stored.saleBannerText) && r.saleBannerLink == Pick(args.saleBannerLink, stored.saleBannerLink)
    ensures r.announcementBar == Pick(args.announcementBar, stored.announcementBar) && r.contactEmail == Pick(args.contactEmail, stored.contactEmail)
    ensures r.contactPhone == Pick(args.contactPhone, stored.contactPhone) && r.pickupAddress == Pick(args.pickupAddress, stored.pickupAddress)
    ensures r.pickupHours == Pick(args.pickupHours, stored.pickupHours) && r.socialInstagram == Pick(args.socialInstagram, stored.socialInstagram)
    ensures r.socialFacebook == Pick(args.socialFacebook, stored.socialFacebook) && r.socialTiktok == Pick(args.socialTiktok, stored.socialTiktok)
  {
    SettingsFields(
      Pick(args.heroTitle, stored.heroTitle),
      Pick(args.heroSubtitle, stored.heroSubtitle),
      Pick(args.heroImageUrl, stored.heroImageUrl),
      Pick(args.heroCtaLabel, stored.heroCtaLabel),
      Pick(args.heroCtaLink, stored.heroCtaLink),
      Pick(args.saleBannerEnabled, stored.saleBannerEnabled),
      Pick(args.saleBannerText, stored.saleBannerText),
      Pick(args.saleBannerLink, stored.saleBannerLink),
      Pick(args.announcementBar, stored.announcementBar),
      Pick(args.contactEmail, stored.contactEmail),
      Pick(args.contactPhone, stored.contactPhone),
      Pick(args.pickupAddress, stored.pickupAddress),
      Pick(args.pickupHours, stored.pickupHours),
      Pick(args.socialInstagram, stored.socialInstagram),
      Pick(args.socialFacebook, stored.socialFacebook),
      Pick(args.socialTiktok, stored.socialTiktok))
  }

  /** One field of the merge: the supplied value if there is one, else the stored one. */
  function Pick<T>(given: Option<T>, stored: Option<T>): (r: Option<T>)
    ensures given.Some? ==> r == given
    ensures given.None? ==> r == stored
  {
    if given.Some? then given else stored
  }

  const NoFields := SettingsFields(None, None, None, None, None, None, None, None, None, None, None, None, None, None, None, None)

  /** Upserting nothing changes no field; upserting the same fields twice is
      upserting them once; fields supplied later win. */
  lemma MergeLaws(stored: SettingsFields, a: SettingsFields, b: SettingsFields)
    ensures MergeFields(stored, NoFields) == stored
    ensures MergeFields(MergeFields(stored, a), a) == MergeFields(stored, a)
    ensures MergeFields(MergeFields(stored, a), b) == MergeFields(stored, MergeFields(a, b))
  {
  }

  /** The table after `upsert`: the first row patched with the fields and
      `updatedAt`, or a single new row when the table was empty. */
  function Upserted(rows: seq<StoreSettings>, args: SettingsFields, now: int, newId: string): (r: seq<StoreSettings>)
    ensures |r| == if rows == [] then 1 else |rows|
    ensures rows != [] ==> r[0].id == rows[0].id && r[1..] == rows[1..]
    ensures r[0].fields == (if rows == [] then args else MergeFields(rows[0].fields, args))
    ensures r[0].updatedAt == now
    ensures r[0].featuredProductIds == (if rows == [] then None else rows[0].featuredProductIds)
  {
    if rows == [] then [StoreSettings(newId, args, None, now)]
    else [rows[0].(fields := MergeFields(rows[0].fields, args), updatedAt := now)] + rows[1..]
  }

  /** The upserts of one call each. */
  datatype UpsertCall = UpsertCall(args: SettingsFields, now: int, newId: string)

  function UpsertAll(rows: seq<StoreSettings>, calls: seq<UpsertCall>): seq<StoreSettings>
    decreases |calls|
  {
    if calls == [] then rows
    else UpsertAll(Upserted(rows, calls[0].args, calls[0].now, calls[0].newId), calls[1..])
  }

  /** From at most one row, any non-empty run of upserts leaves exactly one
      row, and it keeps the id it got first. */
  lemma {:induction false} UpsertsLeaveOneRow(rows: seq<StoreSettings>, calls: seq<UpsertCall>)
    requires |rows| <= 1 && calls != []
    ensures |UpsertAll(rows, calls)| == 1
    ensures UpsertAll(rows, calls)[0].id == (if rows == [] then calls[0].newId else rows[0].id)
    decreases |calls|
  {
    var next := Upserted(rows, calls[0].args, calls[0].now, calls[0].newId);
    if |calls| > 1 {
      UpsertsLeaveOneRow(next, calls[1..]);
    }
  }

  class SettingsTable {
    var rows: seq<StoreSettings>

    constructor (initial: seq<StoreSettings>)
      ensures rows == initial
    {
      rows := initial;
    }

    /** `get`: the first row, or nothing. */
    function Get(): (r: Option<StoreSettings>)
      reads this
      ensures r.None? <==> rows == []
      ensures r.Some? ==> r.value == rows[0]
    {
      if rows == [] then None else Some(rows[0])
    }

    /** `upsert`: patches the first row and returns its id, or inserts one
        row and returns the new id. */
    method Upsert(args: SettingsFields, now: int, newId: string) returns (id: string)
      modifies this
      ensures rows == Upserted(old(rows), args, now, newId)
      ensures id == if old(rows) == [] then newId else old(rows)[0].id
      ensures Get().Some? && Get().value.id == id && Get().value.updatedAt == now
    {
      if rows != [] {
        var existing := rows[0];
        rows := [existing.(fields := MergeFields(existing.fields, args), updatedAt := now)] + rows[1..];
        return existing.id;
      }
      rows := [StoreSettings(newId, args, None, now)];
      id := newId;
    }
  }
}

=== FILE: convex_users.dfy ===
/** The users table (`convex/users.ts`): lookups by email and by auth id
    through their indexes, and the upsert run when an auth identity signs in. */
module ConvexUsers {
  import opened Wrappers
  import opened Seqs
  import opened Domain

  datatype User = User(
    id: string,
    email: string,
    name: string,
    phone: Option<string>,
    role: Role,
    betterAuthId: string,
    isActive: bool,
    createdAt: int)

  function HasEmail(email: string): User -> bool {
    (u: User) => u.email == email
  }

  function HasAuthId(betterAuthId: string): User -> bool {
    (u: User) => u.betterAuthId == betterAuthId
  }

  /** `byEmail`: the first row with the email (index order is insertion order). */
  function ByEmail(rows: seq<User>, email: string): (r: Option<User>)
    ensures r.None? <==> forall i :: 0 <= i < |rows| ==> rows[i].email != email
    ensures r.Some? ==> r.value == rows[FindIndex(rows, HasEmail(email))] && r.value.email == email
  {
    var i := FindIndex(rows, HasEmail(email));
    if i < 0 then None else Some(rows[i])
  }

  /** `byBetterAuthId`: the first row with the auth id. */
  function ByBetterAuthId(rows: seq<User>, betterAuthId: string): (r: Option<User>)
    ensures r.None? <==> forall i :: 0 <= i < |rows| ==> rows[i].betterAuthId != betterAuthId
    ensures r.Some? ==> r.value == rows[FindIndex(rows, HasAuthId(betterAuthId))] && r.value.betterAuthId == betterAuthId
  {
    var i := FindIndex(rows, HasAuthId(betterAuthId));
    if i < 0 then None else Some(rows[i])
  }

  /** The table after `upsertFromAuth`: the first row with the email gets the
      new name, phone (cleared when absent), role and auth id; otherwise a new
      active row is added. */
  function UpsertedUsers(rows: seq<User>, email: string, name: string, betterAuthId: string, phone: Option<string>,
                         role: Role, now: int, newId: string): (r: seq<User>)
    ensures var i := FindIndex(rows, HasEmail(email));
      if i < 0 then r == rows + [User(newId, email, name, phone, role, betterAuthId, true, now)]
      else (|r| == |rows| && (forall j :: 0 <= j < |rows| && j != i ==> r[j] == rows[j])
            && r[i].id == rows[i].id && r[i].email == rows[i].email
            && r[i].isActive == rows[i].isActive && r[i].createdAt == rows[i].createdAt
            && r[i].name == name && r[i].phone == phone && r[i].role == role && r[i].betterAuthId == betterAuthId)
  {
    var i := FindIndex(rows, HasEmail(email));
    if i < 0 then rows + [User(newId, email, name, phone, role, betterAuthId, true, now)]
    else rows[i := rows[i].(name := name, phone := phone, role := role, betterAuthId := betterAuthId)]
  }

  /** After the upsert, looking the email up finds a row carrying the given
      role and auth id. */
  lemma UpsertThenByEmail(rows: seq<User>, email: string, name: string, betterAuthId: string, phone: Option<string>,
                          role: Role, now: int, newId: string)
    ensures var after := UpsertedUsers(rows, email, name, betterAuthId, phone, role, now, newId);
      ByEmail(after, email).Some?
      && ByEmail(after, email).value.role == role
      && ByEmail(after, email).value.betterAuthId == betterAuthId
      && ByEmail(after, email).value.name == name
  {
    var after := UpsertedUsers(rows, email, name, betterAuthId, phone, role, now, newId);
    var i := FindIndex(rows, HasEmail(email));
    var k := FindIndex(after, HasEmail(email));
    if i < 0 {
      assert after[|rows|].email == email;
      assert k == |rows|;
    } else {
      assert after[i].email == email;
      assert k == i;
    }
  }

  class UserTable {
    var rows: seq<User>

    constructor (initial: seq<User>)
      ensures rows == initial
    {
      rows := initial;
    }

    /** `upsertFromAuth`: returns the id of the patched row, or of the new one. */
    method UpsertFromAuth(email: string, name: string, betterAuthId: string, phone: Option<string>, role: Role,
                          now: int, newId: string) returns (id: string)
      modifies this
      ensures rows == UpsertedUsers(old(rows), email, name, betterAuthId, phone, role, now, newId)
      ensures var i := FindIndex(old(rows), HasEmail(email));
        id == if i < 0 then newId else old(rows)[i].id
      ensures var u := ByEmail(rows, email);
        u.Some? && u.value.role == role && u.value.betterAuthId == betterAuthId && u.value.name == name
    {
      UpsertThenByEmail(rows, email, name, betterAuthId, phone, role, now, newId);
      var i := FindIndex(rows, HasEmail(email));
      if i >= 0 {
        var existing := rows[i];
        rows := rows[i := existing.(name := name, phone := phone, role := role, betterAuthId := betterAuthId)];
        return existing.id;
      }
      rows := rows + [User(newId, email, name, phone, role, betterAuthId, true, now)];
      id := newId;
    }
  }
}

=== FILE: data_source.dfy ===
/** Data-source selection (`source.ts`): which backend the server uses, and
    why, decided from environment values passed in as parameters. */
module DataSource {
  import opened Wrappers
  import opened Strings

  datatype Source = Mock | Convex

  /** A `DataSourceSelection`; `requested` and `fallbackReason` are optional. */
  datatype Selection = Selection(source: Source, requested: Option<Source>, fallbackReason: Option<string>, convexConfigured: bool)

  /** The environment values read: `DATA_SOURCE`, `NEXT_PUBLIC_DATA_SOURCE`,
      `CONVEX_DEPLOYMENT`, `NEXT_PUBLIC_CONVEX_URL`. */
  datatype Env = Env(dataSource: Option<string>, publicDataSource: Option<string>,
                     convexDeployment: Option<string>, publicConvexUrl: Option<string>)

  const RequestedConvexMissing := "DATA_SOURCE is set to convex, but CONVEX_DEPLOYMENT and NEXT_PUBLIC_CONVEX_URL are not both configured."
  const DefaultFallback := "Convex env vars are not fully configured. Falling back to mock source."

  /** `parseSource`: the trimmed, lower-cased value if it names a source;
      nothing for an unset, empty or unknown value. */
  function ParseSource(v: Option<string>): (r: Option<Source>)
    ensures r == Some(Mock) <==> Filled(v) && TrimLower(v.value) == "mock"
    ensures r == Some(Convex) <==> Filled(v) && TrimLower(v.value) == "convex"
  {
    if !Filled(v) then None
    else
      var normalized := TrimLower(v.value);
      if normalized == "mock" then Some(Mock)
      else if normalized == "convex" then Some(Convex)
      else None
  }

  /** Parsing ignores surrounding whitespace and case. */
  lemma ParseSourceTrimsAndLowers()
    ensures ParseSource(Some(" Convex ")) == Some(Convex)
  {
    TrimExample();
    LowerExample();
  }

  lemma TrimExample()
    ensures Trim(" Convex ") == "Convex"
  {
    TrimStartExample();
    TrimEndExample();
  }

  lemma TrimStartExample()
    ensures TrimStart(" Convex ") == "Convex "
  {
    var s := " Convex ";
    assert IsJsWhitespace(s[0]);
    assert s[1..] == "Convex ";
    assert !IsJsWhitespace("Convex "[0]);
  }

  lemma TrimEndExample()
    ensures TrimEnd("Convex ") == "Convex"
  {
    var s := "Convex ";
    assert IsJsWhitespace(s[6]);
    assert s[..6] == "Convex";
    assert !IsJsWhitespace("Convex"[5]);
  }

  lemma LowerExample()
    ensures ToLower("Convex") == "convex"
  {
  }

  /** A value made only of whitespace, like an empty one, names no source. */
  lemma ParseSourceBlank()
    ensures ParseSource(Some("")) == None
    ensures ParseSource(Some("  ")) == None
  {
    assert TrimStart("  ") == TrimStart(" ") == TrimStart("") == "";
  }

  /** `hasConvexConfig`: both the deployment and the public URL are set and non-empty. */
  function HasConvexConfig(env: Env): (r: bool)
    ensures r <==> env.convexDeployment.Some? && env.convexDeployment.value != ""
                   && env.publicConvexUrl.Some? && env.publicConvexUrl.value != ""
  {
    Filled(env.convexDeployment) && Filled(env.publicConvexUrl)
  }

  /** The selection `resolveServerDataSource` builds. */
  function Selected(env: Env): (s: Selection)
    ensures s.requested == ParseSource(env.dataSource) && s.convexConfigured == HasConvexConfig(env)
    // an explicit request for the mock is always honoured, without a reason
    ensures s.requested == Some(Mock) ==> s.source == Mock && s.fallbackReason == None
    // a request for Convex is honoured when it is configured, else explained
    ensures s.requested == Some(Convex) ==>
      (s.source == Convex <==> s.convexConfigured)
      && (s.fallbackReason.Some? <==> !s.convexConfigured)
      && (s.fallbackReason.Some? ==> s.fallbackReason.value == RequestedConvexMissing)
    // with no valid request, Convex exactly when configured, a reason exactly when not
    ensures s.requested == None ==>
      (s.source == Convex <==> s.convexConfigured)
      && (s.fallbackReason.Some? <==> s.source == Mock)
      && (s.fallbackReason.Some? ==> s.fallbackReason.value == DefaultFallback)
    // in every branch Convex is only chosen when configured
    ensures s.source == Convex ==> s.convexConfigured
  {
    var requested := ParseSource(env.dataSource);
    var configured := HasConvexConfig(env);
    if requested == Some(Mock) then Selection(Mock, requested, None, configured)
    else if requested == Some(Convex) then
      if configured then Selection(Convex, requested, None, configured)
      else Selection(Mock, requested, Some(RequestedConvexMissing), configured)
    else if configured then Selection(Convex, None, None, configured)
    else Selection(Mock, None, Some(DefaultFallback), configured)
  }

  /** `resolveClientPreferredSource`: the public variable if it names a
      source, else the server variable if it does, else the mock. */
  function ResolveClientPreferredSource(env: Env): (r: Source)
    ensures ParseSource(env.publicDataSource).Some? ==> r == ParseSource(env.publicDataSource).value
    ensures ParseSource(env.publicDataSource).None? && ParseSource(env.dataSource).Some? ==> r == ParseSource(env.dataSource).value
    ensures ParseSource(env.publicDataSource).None? && ParseSource(env.dataSource).None? ==> r == Mock
  {
    var fromClientEnv := ParseSource(env.publicDataSource);
    if fromClientEnv.Some? then fromClientEnv.value
    else ParseSource(env.dataSource).GetOr(Mock)
  }

  /** The server honours a valid request exactly when Convex is not wanted
      without its configuration: asking for mock always gets mock, and asking
      for Convex gets Convex once configured. */
  lemma RequestHonoured(env: Env)
    requires ParseSource(env.dataSource).Some?
    ensures Selected(env).source == ParseSource(env.dataSource).value <==>
      (ParseSource(env.dataSource) == Some(Mock) || HasConvexConfig(env))
  {
  }
}

=== FILE: domain.dfy ===
/** The catalog records shared by both data backends (`src/lib/types.ts`,
    `convex/schema.ts`): products with colour variants, categories, store
    settings and inventory audit logs, plus the stock arithmetic both backends use.
    Prices and timestamps are integers (minor currency units, epoch milliseconds). */
module Domain {
  import opened Wrappers
  import opened Strings
  import opened Sorting
  import opened Seqs

  /** The brand fallbacks for the contact settings (`BRAND` in `src/lib/constants.ts`). */
  const BrandContactEmail := "zweaungnaing.info@gmail.com"
  const BrandContactPhone := "+95973159230"
  const BrandPickupAddress := "Awbar Street, Kyauk Myoung Gyi Ward, Tamwe Township, Yangon"
  const BrandPickupHours := "Weekdays 10:00 AM - 4:00 PM"

  /** A user's role (`'customer' | 'admin'`). */
  datatype Role = Customer | Admin

  datatype Measurement = Measurement(
    shoulder: Option<int>, chest: Option<int>, sleeve: Option<int>, waist: Option<int>, length: Option<int>)

  datatype Variant = Variant(
    id: string,
    colorName: string,
    colorHex: string,
    images: seq<string>,
    selectedSizes: seq<string>,
    stock: map<string, int>,
    measurements: Option<map<string, Measurement>>)

  /** The editable part of a product (`ProductInput`, `ProductUpsertInput`). */
  datatype ProductInput = ProductInput(
    sku: Option<string>,
    name: string,
    slug: string,
    description: string,
    categoryId: string,
    basePrice: Option<int>,
    salePrice: Option<int>,
    isFeatured: bool,
    isPublished: bool,
    colorVariants: seq<Variant>)

  datatype Product = Product(
    id: string,
    sku: Option<string>,
    name: string,
    slug: string,
    description: string,
    categoryId: string,
    basePrice: Option<int>,
    salePrice: Option<int>,
    isFeatured: bool,
    isPublished: bool,
    colorVariants: seq<Variant>,
    createdAt: int,
    updatedAt: int)

  /** A stored product made of an input and its system fields. */
  function FromInput(input: ProductInput, id: string, slug: string, createdAt: int, updatedAt: int): (p: Product)
    ensures p.id == id && p.slug == slug && p.createdAt == createdAt && p.updatedAt == updatedAt
    ensures p.sku == input.sku && p.name == input.name && p.description == input.description
    ensures p.categoryId == input.categoryId && p.basePrice == input.basePrice && p.salePrice == input.salePrice
    ensures p.isFeatured == input.isFeatured && p.isPublished == input.isPublished
    ensures p.colorVariants == input.colorVariants
  {
    Product(id, input.sku, input.name, slug, input.description, input.categoryId, input.basePrice,
            input.salePrice, input.isFeatured, input.isPublished, input.colorVariants, createdAt, updatedAt)
  }

  datatype Category = Category(
    id: string,
    name: string,
    slug: string,
    description: Option<string>,
    parentId: Option<string>,
    sortOrder: int,
    isActive: bool,
    createdAt: int,
    updatedAt: int)

  datatype AuditLog = AuditLog(
    id: string,
    productId: string,
    variantId: string,
    size: string,
    oldValue: int,
    newValue: int,
    changedBy: string,
    changedAt: int)

  /** One line of the flattened inventory: a product, one of its variants and one selected size. */
  datatype InventoryRow = InventoryRow(
    productId: string,
    productName: string,
    variantId: string,
    colorName: string,
    size: string,
    stock: int,
    isPublished: bool)

  /** The optional, editable store settings fields. */
  datatype SettingsFields = SettingsFields(
    heroTitle: Option<string>,
    heroSubtitle: Option<string>,
    heroImageUrl: Option<string>,
    heroCtaLabel: Option<string>,
    heroCtaLink: Option<string>,
    saleBannerEnabled: Option<bool>,
    saleBannerText: Option<string>,
    saleBannerLink: Option<string>,
    announcementBar: Option<string>,
    contactEmail: Option<string>,
    contactPhone: Option<string>,
    pickupAddress: Option<string>,
    pickupHours: Option<string>,
    socialInstagram: Option<string>,
    socialFacebook: Option<string>,
    socialTiktok: Option<string>)

  datatype StoreSettings = StoreSettings(
    id: string,
    fields: SettingsFields,
    featuredProductIds: Option<seq<string>>,
    updatedAt: int)

  /** `variant.stock[size] ?? 0`. */
  function StockOf(v: Variant, size: string): int {
    if size in v.stock then v.stock[size] else 0
  }

  /** `Math.max(0, Math.floor(newValue))`: the stored stock is a non-negative
      integer, the largest one not above the requested value (0 for negative requests). */
  function ClampStock(newValue: real): (r: nat)
    ensures newValue < 0.0 ==> r == 0
    ensures 0.0 <= newValue ==> r as real <= newValue < r as real + 1.0
  {
    if newValue.Floor < 0 then 0 else newValue.Floor
  }

  /** The inventory row a product, variant and size describe. */
  function RowFor(p: Product, v: Variant, size: string): (r: InventoryRow)
    ensures r.productId == p.id && r.productName == p.name && r.variantId == v.id
    ensures r.colorName == v.colorName && r.size == size && r.isPublished == p.isPublished
    ensures r.stock == StockOf(v, size)
  {
    InventoryRow(p.id, p.name, v.id, v.colorName, size, StockOf(v, size), p.isPublished)
  }

  /** The index of the first product with the given id, or -1. */
  function IndexOfId(products: seq<Product>, id: string): (i: int)
    ensures -1 <= i < |products|
    ensures i == -1 <==> forall j :: 0 <= j < |products| ==> products[j].id != id
    ensures 0 <= i ==> products[i].id == id && forall j :: 0 <= j < i ==> products[j].id != id
  {
    FindIndex(products, (x: Product) => x.id == id)
  }

  /** The index of the first variant with the given id, or -1. */
  function IndexOfVariant(variants: seq<Variant>, id: string): (i: int)
    ensures -1 <= i < |variants|
    ensures i == -1 <==> forall j :: 0 <= j < |variants| ==> variants[j].id != id
    ensures 0 <= i ==> variants[i].id == id && forall j :: 0 <= j < i ==> variants[j].id != id
  {
    FindIndex(variants, (x: Variant) => x.id == id)
  }

  /** Replacing a product by one with the same id keeps where the id resolves. */
  lemma IndexOfIdPatched(products: seq<Product>, i: int, q: Product)
    requires 0 <= i < |products| && IndexOfId(products, products[i].id) == i && q.id == products[i].id
    ensures IndexOfId(products[i := q], q.id) == i
  {
    var ps := products[i := q];
    forall t | 0 <= t < i ensures ps[t].id != q.id {
      assert ps[t] == products[t];
    }
    assert ps[i].id == q.id;
  }

  /** Changing variants other than the `j`-th, and that one only outside its id,
      keeps where its id resolves. */
  lemma IndexOfVariantPatched(vs: seq<Variant>, ws: seq<Variant>, j: int)
    requires 0 <= j < |vs| == |ws| && IndexOfVariant(vs, vs[j].id) == j
    requires ws[j].id == vs[j].id && forall t :: 0 <= t < |vs| && t != j ==> ws[t] == vs[t]
    ensures IndexOfVariant(ws, vs[j].id) == j
  {
    forall t | 0 <= t < j ensures ws[t].id != vs[j].id {
      assert ws[t] == vs[t];
    }
  }

  /** The variant after a stock update: the size's entry set to `value`, and the
      size appended to the selected sizes only when it was not there. */
  function SetStock(v: Variant, size: string, value: int): (r: Variant)
    ensures r.stock == v.stock[size := value]
    ensures size in v.selectedSizes ==> r.selectedSizes == v.selectedSizes
    ensures size !in v.selectedSizes ==> r.selectedSizes == v.selectedSizes + [size]
    ensures r.id == v.id && r.colorName == v.colorName && r.colorHex == v.colorHex
    ensures r.images == v.images && r.measurements == v.measurements
  {
    v.(stock := v.stock[size := value],
       selectedSizes := if size in v.selectedSizes then v.selectedSizes else v.selectedSizes + [size])
  }

  predicate NoDuplicates(s: seq<string>) {
    forall i, j :: 0 <= i < j < |s| ==> s[i] != s[j]
  }

  /** A stock update stores the value under the size, leaves every other size
      alone, lists the size, and introduces no duplicate size. */
  lemma SetStockEffect(v: Variant, size: string, value: int)
    ensures StockOf(SetStock(v, size, value), size) == value
    ensures forall other :: other != size ==> StockOf(SetStock(v, size, value), other) == StockOf(v, other)
    ensures size in SetStock(v, size, value).selectedSizes
    ensures NoDuplicates(v.selectedSizes) ==> NoDuplicates(SetStock(v, size, value).selectedSizes)
  {
  }

  /** `${base}-${n}`. */
  function Suffixed(base: string, n: nat): string {
    base + "-" + NatToString(n)
  }

  /** Different numbers give different suffixed slugs, and none equals the base. */
  lemma SuffixedInjective(base: string, m: nat, n: nat)
    ensures Suffixed(base, m) == Suffixed(base, n) ==> m == n
    ensures Suffixed(base, m) != base
  {
    if Suffixed(base, m) == Suffixed(base, n) {
      var k := |base| + 1;
      assert Suffixed(base, m)[k..] == NatToString(m);
      assert Suffixed(base, n)[k..] == NatToString(n);
      NatToStringInjective(m, n);
    }
  }

  /** The probe sequence: the base, then `base-1`, `base-2`, ... */
  function Candidate(base: string, n: nat): string {
    if n == 0 then base else Suffixed(base, n)
  }

  lemma CandidateInjective(base: string, m: nat, n: nat)
    requires Candidate(base, m) == Candidate(base, n)
    ensures m == n
  {
    if m != 0 && n != 0 {
      SuffixedInjective(base, m, n);
    } else if m != 0 {
      SuffixedInjective(base, m, m);
    } else if n != 0 {
      SuffixedInjective(base, n, n);
    }
  }

  /** The candidates probed before attempt `k`. */
  function Tried(base: string, k: nat): set<string> {
    set m | 0 <= m < k :: Candidate(base, m)
  }

  /** The next candidate is not among those tried before it. */
  lemma TriedStep(base: string, k: nat)
    ensures Tried(base, k + 1) == Tried(base, k) + {Candidate(base, k)}
    ensures Candidate(base, k) !in Tried(base, k)
  {
    if Candidate(base, k) in Tried(base, k) {
      var m :| 0 <= m < k && Candidate(base, m) == Candidate(base, k);
      CandidateInjective(base, m, k);
    }
  }

  /** Rejecting a slug of the table not tried before leaves fewer untried slugs. */
  lemma UseUpOne(slugs: set<string>, tried: set<string>, c: string)
    requires tried <= slugs && c in slugs && c !in tried
    ensures tried + {c} <= slugs && |slugs - (tried + {c})| < |slugs - tried|
  {
    assert slugs - (tried + {c}) == (slugs - tried) - {c};
  }

  function Slugs(rows: seq<Product>): set<string> {
    set i | 0 <= i < |rows| :: rows[i].slug
  }

  /** `sku ? sku + '-COPY' : undefined`. */
  function CopySku(sku: Option<string>): (r: Option<string>)
    ensures sku.Some? && sku.value != "" ==> r == Some(sku.value + "-COPY")
    ensures sku.None? || sku.value == "" ==> r.None?
  {
    if sku.Some? && sku.value != "" then Some(sku.value + "-COPY") else None
  }

  /** Each variant keeps everything but its id, which gets `-copy-<suffix>`. */
  function CopyVariants(vs: seq<Variant>, suffix: nat -> string): (r: seq<Variant>)
    ensures |r| == |vs|
    ensures forall k :: 0 <= k < |vs| ==> r[k] == vs[k].(id := vs[k].id + "-copy-" + suffix(k))
  {
    seq(|vs|, k requires 0 <= k < |vs| => vs[k].(id := vs[k].id + "-copy-" + suffix(k)))
  }

  /** `{...existing, ...input}`: every input field replaces the stored one,
      except that an absent optional field (sku, prices) keeps the stored value. */
  function Overlay(existing: Product, input: ProductInput, slug: string, updatedAt: int): (p: Product)
    ensures p.id == existing.id && p.createdAt == existing.createdAt
    ensures p.slug == slug && p.updatedAt == updatedAt
    ensures p.sku == (if input.sku.Some? then input.sku else existing.sku)
    ensures p.basePrice == (if input.basePrice.Some? then input.basePrice else existing.basePrice)
    ensures p.salePrice == (if input.salePrice.Some? then input.salePrice else existing.salePrice)
    ensures p.name == input.name && p.description == input.description && p.categoryId == input.categoryId
    ensures p.isFeatured == input.isFeatured && p.isPublished == input.isPublished
    ensures p.colorVariants == input.colorVariants
  {
    Product(existing.id,
            if input.sku.Some? then input.sku else existing.sku,
            input.name, slug, input.description, input.categoryId,
            if input.basePrice.Some? then input.basePrice else existing.basePrice,
            if input.salePrice.Some? then input.salePrice else existing.salePrice,
            input.isFeatured, input.isPublished, input.colorVariants, existing.createdAt, updatedAt)
  }

  /** The products after a bulk publish toggle: every product whose id is
      listed gets the new `isPublished` and `updatedAt`. */
  function Toggled(orig: seq<Product>, ids: seq<string>, isPublished: bool, now: int): (r: seq<Product>)
    ensures |r| == |orig|
    ensures forall j :: 0 <= j < |r| ==> r[j].id == orig[j].id
  {
    seq(|orig|, j requires 0 <= j < |orig| =>
      if orig[j].id in ids then orig[j].(isPublished := isPublished, updatedAt := now) else orig[j])
  }


  /** The category order: ascending `sortOrder` (`a.sortOrder - b.sortOrder`). */
  function BySortOrder(): (Category, Category) -> bool {
    ByKeyAsc((c: Category) => c.sortOrder)
  }
}

=== FILE: inventory.dfy ===
/** The inventory rules both data backends share: the flattened listing
    before sorting, the stock update of one variant and the audit-log query
    (`convex/inventory.ts`, `src/lib/data/repositories/mock.ts`). */
module Inventory {
  import opened Wrappers
  import opened Strings
  import opened Seqs
  import opened Sorting
  import opened Domain

  /** One row per selected size of a variant. */
  function SizeRows(p: Product, v: Variant, sizes: seq<string>): (r: seq<InventoryRow>)
    ensures |r| == |sizes|
    ensures forall k :: 0 <= k < |sizes| ==> r[k] == RowFor(p, v, sizes[k])
  {
    if sizes == [] then [] else [RowFor(p, v, sizes[0])] + SizeRows(p, v, sizes[1..])
  }

  function VariantRows(p: Product, vs: seq<Variant>): seq<InventoryRow> {
    if vs == [] then [] else SizeRows(p, vs[0], vs[0].selectedSizes) + VariantRows(p, vs[1..])
  }

  /** The `flatMap` over products, variants and selected sizes, in that order. */
  function Flatten(ps: seq<Product>): seq<InventoryRow> {
    if ps == [] then [] else VariantRows(ps[0], ps[0].colorVariants) + Flatten(ps[1..])
  }

  function VariantSizeCount(vs: seq<Variant>): nat {
    if vs == [] then 0 else |vs[0].selectedSizes| + VariantSizeCount(vs[1..])
  }

  /** The number of (product, variant, selected size) triples. */
  function SizeCount(ps: seq<Product>): nat {
    if ps == [] then 0 else VariantSizeCount(ps[0].colorVariants) + SizeCount(ps[1..])
  }

  /** A row describes product `i`, its variant `j` and that variant's size `k`. */
  predicate RowOf(ps: seq<Product>, r: InventoryRow, i: int, j: int, k: int) {
    0 <= i < |ps| && 0 <= j < |ps[i].colorVariants| && 0 <= k < |ps[i].colorVariants[j].selectedSizes|
    && r == RowFor(ps[i], ps[i].colorVariants[j], ps[i].colorVariants[j].selectedSizes[k])
  }

  lemma {:induction false} VariantRowsSpec(p: Product, vs: seq<Variant>, r: InventoryRow)
    ensures |VariantRows(p, vs)| == VariantSizeCount(vs)
    ensures r in VariantRows(p, vs) <==>
      exists j, k :: 0 <= j < |vs| && 0 <= k < |vs[j].selectedSizes| && r == RowFor(p, vs[j], vs[j].selectedSizes[k])
  {
    if vs != [] {
      VariantRowsSpec(p, vs[1..], r);
      var sizes := SizeRows(p, vs[0], vs[0].selectedSizes);
      if r in sizes {
        var k :| 0 <= k < |sizes| && sizes[k] == r;
        assert r == RowFor(p, vs[0], vs[0].selectedSizes[k]);
      }
      if exists j, k :: 0 <= j < |vs| && 0 <= k < |vs[j].selectedSizes| && r == RowFor(p, vs[j], vs[j].selectedSizes[k]) {
        var j, k :| 0 <= j < |vs| && 0 <= k < |vs[j].selectedSizes| && r == RowFor(p, vs[j], vs[j].selectedSizes[k]);
        if j == 0 {
          assert sizes[k] == r;
        } else {
          assert vs[1..][j - 1] == vs[j];
        }
      }
    }
  }

  /** `listFlattened` before sorting yields exactly one row per product, variant
      and selected size, with the size's stock or 0. */
  lemma {:induction false} FlattenSpec(ps: seq<Product>, r: InventoryRow)
    ensures |Flatten(ps)| == SizeCount(ps)
    ensures r in Flatten(ps) <==> exists i, j, k :: RowOf(ps, r, i, j, k)
  {
    if ps != [] {
      FlattenSpec(ps[1..], r);
      VariantRowsSpec(ps[0], ps[0].colorVariants, r);
      if r in VariantRows(ps[0], ps[0].colorVariants) {
        var j, k :| 0 <= j < |ps[0].colorVariants| && 0 <= k < |ps[0].colorVariants[j].selectedSizes|
          && r == RowFor(ps[0], ps[0].colorVariants[j], ps[0].colorVariants[j].selectedSizes[k]);
        assert RowOf(ps, r, 0, j, k);
      }
      if r in Flatten(ps[1..]) {
        var i, j, k :| RowOf(ps[1..], r, i, j, k);
        assert RowOf(ps, r, i + 1, j, k);
      }
      if exists i, j, k :: RowOf(ps, r, i, j, k) {
        var i, j, k :| RowOf(ps, r, i, j, k);
        if i == 0 {
          assert r in VariantRows(ps[0], ps[0].colorVariants);
        } else {
          assert RowOf(ps[1..], r, i - 1, j, k);
        }
      }
    }
  }

  /** What `updateStockWithAudit` returns: the updated inventory row and the inserted log. */
  datatype StockUpdate = StockUpdate(row: InventoryRow, log: AuditLog)

  /** The product after variant `j`'s stock for `size` is set to `value`. */
  function WithStock(p: Product, j: int, size: string, value: int, now: int): (q: Product)
    requires 0 <= j < |p.colorVariants|
    ensures |q.colorVariants| == |p.colorVariants|
  {
    p.(colorVariants := p.colorVariants[j := SetStock(p.colorVariants[j], size, value)], updatedAt := now)
  }

  /** Only the targeted variant's entry for that size changes; other sizes,
      other variants and the product's other fields are untouched; the size is
      listed without introducing a duplicate. */
  lemma WithStockEffect(p: Product, j: int, size: string, value: int, now: int)
    requires 0 <= j < |p.colorVariants|
    ensures var q := WithStock(p, j, size, value, now);
      StockOf(q.colorVariants[j], size) == value
      && (forall other :: other != size ==> StockOf(q.colorVariants[j], other) == StockOf(p.colorVariants[j], other))
      && (forall t :: 0 <= t < |p.colorVariants| && t != j ==> q.colorVariants[t] == p.colorVariants[t])
      && size in q.colorVariants[j].selectedSizes
      && (NoDuplicates(p.colorVariants[j].selectedSizes) ==> NoDuplicates(q.colorVariants[j].selectedSizes))
      && q.colorVariants[j].id == p.colorVariants[j].id
      && q == p.(colorVariants := q.colorVariants, updatedAt := now)
  {
    SetStockEffect(p.colorVariants[j], size, value);
  }

  /** The returned row is the flattened row of the updated product for that variant and size. */
  lemma ReturnedRowIsListed(p: Product, j: int, size: string, value: int, now: int)
    requires 0 <= j < |p.colorVariants|
    ensures var q := WithStock(p, j, size, value, now);
      RowFor(q, q.colorVariants[j], size)
        == InventoryRow(p.id, p.name, p.colorVariants[j].id, p.colorVariants[j].colorName, size, value, p.isPublished)
  {
  }

  /** The filter of `listAuditLogs`: each supplied, non-empty filter must match. */
  predicate LogMatches(e: AuditLog, productId: Option<string>, variantId: Option<string>, size: Option<string>) {
    (productId.None? || productId.value == "" || e.productId == productId.value)
    && (variantId.None? || variantId.value == "" || e.variantId == variantId.value)
    && (size.None? || size.value == "" || e.size == size.value)
  }

  function LogFilter(productId: Option<string>, variantId: Option<string>, size: Option<string>): AuditLog -> bool {
    (e: AuditLog) => LogMatches(e, productId, variantId, size)
  }

  function NewestLogFirst(): (AuditLog, AuditLog) -> bool {
    ByKeyDesc((e: AuditLog) => e.changedAt)
  }

  /** `listAuditLogs`: matching entries, newest first, cut at `limit ?? 50`. */
  function ListAuditLogs(logs: seq<AuditLog>, productId: Option<string>, variantId: Option<string>,
                         size: Option<string>, limit: Option<int>): (r: seq<AuditLog>)
    ensures |r| <= |logs|
    ensures limit.None? ==> |r| <= 50
    ensures forall i :: 0 <= i < |r| ==> r[i] in logs && LogMatches(r[i], productId, variantId, size)
  {
    var matching := Filter(logs, LogFilter(productId, variantId, size));
    SortMembers(matching, NewestLogFirst());
    var all := Sort(matching, NewestLogFirst());
    var r := SliceTo(all, limit.GetOr(50));
    assert forall i :: 0 <= i < |r| ==> r[i] == all[i];
    r
  }

  /** The result is the newest matching entries, newest first: a prefix of all
      matching entries sorted by `changedAt` descending, of length
      `min(limit, matches)` for a non-negative limit and at most 50 by default. */
  lemma ListAuditLogsSpec(logs: seq<AuditLog>, productId: Option<string>, variantId: Option<string>,
                          size: Option<string>, limit: Option<int>)
    ensures var all := Sort(Filter(logs, LogFilter(productId, variantId, size)), NewestLogFirst());
      var r := ListAuditLogs(logs, productId, variantId, size, limit);
      r <= all
      && multiset(all) == multiset(Filter(logs, LogFilter(productId, variantId, size)))
      && (forall e :: e in r ==> e in logs && LogMatches(e, productId, variantId, size))
      && (forall a, b :: 0 <= a < b < |r| ==> r[a].changedAt >= r[b].changedAt)
      && (limit.None? ==> |r| == (if |all| < 50 then |all| else 50))
      && (limit.Some? && 0 <= limit.value ==> |r| == (if |all| < limit.value then |all| else limit.value))
  {
    var all := Sort(Filter(logs, LogFilter(productId, variantId, size)), NewestLogFirst());
    var r := ListAuditLogs(logs, productId, variantId, size, limit);
    NewestMatchingSpec(logs, productId, variantId, size);
    PrefixKeepsOrder(r, all, logs, productId, variantId, size);
  }

  /** A prefix of matching entries in newest-first order holds matching
      entries in newest-first order. */
  lemma PrefixKeepsOrder(r: seq<AuditLog>, all: seq<AuditLog>, logs: seq<AuditLog>,
                         productId: Option<string>, variantId: Option<string>, size: Option<string>)
    requires r <= all
    requires forall k :: 0 <= k < |all| ==> all[k] in logs && LogMatches(all[k], productId, variantId, size)
    requires forall a, b :: 0 <= a < b < |all| ==> all[a].changedAt >= all[b].changedAt
    ensures forall e :: e in r ==> e in logs && LogMatches(e, productId, variantId, size)
    ensures forall a, b :: 0 <= a < b < |r| ==> r[a].changedAt >= r[b].changedAt
  {
    forall e | e in r ensures e in logs && LogMatches(e, productId, variantId, size) {
      var k :| 0 <= k < |r| && r[k] == e;
      assert r[k] == all[k];
    }
    forall a, b | 0 <= a < b < |r| ensures r[a].changedAt >= r[b].changedAt {
      assert r[a] == all[a] && r[b] == all[b];
    }
  }

  /** All matching entries sorted newest first: the same entries, each one
      from the log and matching, in descending `changedAt` order. */
  lemma NewestMatchingSpec(logs: seq<AuditLog>, productId: Option<string>, variantId: Option<string>, size: Option<string>)
    ensures var matching := Filter(logs, LogFilter(productId, variantId, size));
      var all := Sort(matching, NewestLogFirst());
      multiset(all) == multiset(matching)
      && (forall k :: 0 <= k < |all| ==> all[k] in logs && LogMatches(all[k], productId, variantId, size))
      && (forall a, b :: 0 <= a < b < |all| ==> all[a].changedAt >= all[b].changedAt)
  {
    var matching := Filter(logs, LogFilter(productId, variantId, size));
    var all := Sort(matching, NewestLogFirst());
    SortPermutation(matching, NewestLogFirst());
    ByKeyDescIsStrictWeakOrder((e: AuditLog) => e.changedAt);
    SortSorted(matching, NewestLogFirst());
    forall k | 0 <= k < |all| ensures all[k] in logs && LogMatches(all[k], productId, variantId, size) {
      assert all[k] in multiset(all);
      assert all[k] in matching;
    }
    forall a, b | 0 <= a < b < |all| ensures all[a].changedAt >= all[b].changedAt {
      assert !NewestLogFirst()(all[b], all[a]);
    }
  }
}

=== FILE: mock_data.dfy ===
/** The storefront selectors over the seeded catalog (`src/lib/mock-data.ts`).
    The seeded product and category arrays are parameters; the seeded
    categories are spelled out for the selector examples. */
module MockData {
  import opened Wrappers
  import opened Seqs
  import opened Domain
  import opened Catalog

  /** The six seeded categories; `now` is the module-load timestamp. */
  function SeedCategories(now: int): seq<Category> {
    [ Category("cat-men", "MEN", "men", None, None, 1, true, now, now),
      Category("cat-women", "WOMEN", "women", None, None, 2, true, now, now),
      Category("cat-new", "NEW", "new", None, None, 3, true, now, now),
      Category("cat-sale", "SALE", "sale", None, None, 4, true, now, now),
      Category("cat-men-shirts", "Shirts", "shirts", None, Some("cat-men"), 1, true, now, now),
      Category("cat-women-shirts", "Shirts", "shirts", None, Some("cat-women"), 1, true, now, now) ]
  }

  /** `getProductBySlug`: the first product with the slug that is published. */
  function GetProductBySlug(ps: seq<Product>, slug: string): (r: Option<Product>)
    ensures r.None? <==> forall i :: 0 <= i < |ps| ==> !(ps[i].slug == slug && ps[i].isPublished)
    ensures r.Some? ==> r.value.slug == slug && r.value.isPublished
    ensures r.Some? ==> (exists i :: 0 <= i < |ps| && ps[i] == r.value
                           && forall j :: 0 <= j < i ==> !(ps[j].slug == slug && ps[j].isPublished))
  {
    var i := FindIndex(ps, (p: Product) => p.slug == slug && p.isPublished);
    if i < 0 then None else Some(ps[i])
  }

  /** `item.salePrice && item.salePrice < (item.basePrice ?? 0)`: a truthy
      (non-zero) sale price below the base price. */
  predicate SaleSelected(p: Product) {
    p.salePrice.Some? && p.salePrice.value != 0 && p.salePrice.value < p.basePrice.GetOr(0)
  }

  /** `getProductsByCategory`. */
  function GetProductsByCategory(cs: seq<Category>, ps: seq<Product>, slug: string): (r: seq<Product>)
    ensures |r| <= |ps|
    ensures forall i :: 0 <= i < |r| ==> r[i] in ps
    ensures slug == "sale" ==> forall i :: 0 <= i < |r| ==> SaleSelected(r[i])
  {
    if slug == "new" then Filter(ps, (p: Product) => p.categoryId == "cat-new")
    else if slug == "sale" then Filter(ps, (p: Product) => SaleSelected(p))
    else
      match TopLevelBySlug(cs, slug)
      case None => ps
      case Some(category) => Filter(ps, (p: Product) => InChildOf(cs, category.id, p))
  }

  /** `new` keeps exactly the products of category `cat-new`, whatever the categories hold. */
  lemma NewIsCatNew(cs: seq<Category>, ps: seq<Product>, p: Product)
    ensures p in GetProductsByCategory(cs, ps, "new") <==> p in ps && p.categoryId == "cat-new"
  {
    FilterIn(ps, (p: Product) => p.categoryId == "cat-new", p);
  }

  /** `sale` keeps the products with a non-zero sale price below the base
      price; unlike the repositories, a negative sale price qualifies. */
  lemma SaleSelection(cs: seq<Category>, ps: seq<Product>, p: Product)
    ensures p in GetProductsByCategory(cs, ps, "sale") <==>
      p in ps && p.salePrice.Some? && p.salePrice.value != 0 && p.salePrice.value < p.basePrice.GetOr(0)
    ensures p.salePrice == Some(-1) && p.basePrice.None? ==> SaleSelected(p) && !OnSale(p)
  {
    FilterIn(ps, (p: Product) => SaleSelected(p), p);
  }

  /** A slug naming no top-level category keeps every product. */
  lemma UnknownSlugKeepsAll(cs: seq<Category>, ps: seq<Product>, slug: string)
    requires slug != "new" && slug != "sale" && TopLevelBySlug(cs, slug).None?
    ensures GetProductsByCategory(cs, ps, slug) == ps
  {
  }

  /** A top-level slug keeps the products of its child categories only, so a
      childless parent yields nothing, where the repositories fall back to
      the products placed directly in it. */
  lemma ParentKeepsChildren(cs: seq<Category>, ps: seq<Product>, slug: string, p: Product)
    requires slug != "new" && slug != "sale" && TopLevelBySlug(cs, slug).Some?
    ensures var parent := TopLevelBySlug(cs, slug).value;
      p in GetProductsByCategory(cs, ps, slug) <==>
        p in ps && exists c :: c in cs && c.parentId == Some(parent.id) && c.id == p.categoryId
    ensures Children(cs, TopLevelBySlug(cs, slug).value.id) == [] ==> GetProductsByCategory(cs, ps, slug) == []
  {
    var parent := TopLevelBySlug(cs, slug).value;
    var isChild := (c: Category) => c.parentId == Some(parent.id);
    FilterIn(ps, (p: Product) => InChildOf(cs, parent.id, p), p);
    if exists c :: c in cs && c.parentId == Some(parent.id) && c.id == p.categoryId {
      var c :| c in cs && c.parentId == Some(parent.id) && c.id == p.categoryId;
      FilterIn(cs, isChild, c);
    }
    if InChildOf(cs, parent.id, p) {
      var c :| c in Children(cs, parent.id) && c.id == p.categoryId;
      FilterIn(cs, isChild, c);
    }
    if Children(cs, parent.id) == [] {
      FilterNone(ps, (p: Product) => InChildOf(cs, parent.id, p));
    }
  }

  /** With the seeded categories, `men` includes every product filed under the men's shirts. */
  lemma MenIncludesMenShirts(now: int, ps: seq<Product>, p: Product)
    requires p in ps && p.categoryId == "cat-men-shirts"
    ensures p in GetProductsByCategory(SeedCategories(now), ps, "men")
  {
    var cs := SeedCategories(now);
    assert cs[0].slug == "men" && IsTopLevel(cs[0]);
    assert TopLevelBySlug(cs, "men") == Some(cs[0]);
    ParentKeepsChildren(cs, ps, "men", p);
    assert cs[4] in cs && cs[4].parentId == Some("cat-men") && cs[4].id == p.categoryId;
  }

  /** `getFeaturedProducts`: exactly the featured and published products, in order. */
  function GetFeaturedProducts(ps: seq<Product>): (r: seq<Product>)
    ensures forall p :: p in r <==> p in ps && p.isFeatured && p.isPublished
  {
    var r := Filter(ps, (p: Product) => p.isFeatured && p.isPublished);
    assert forall p :: p in r <==> p in ps && p.isFeatured && p.isPublished by {
      forall p ensures p in r <==> p in ps && p.isFeatured && p.isPublished {
        FilterIn(ps, (p: Product) => p.isFeatured && p.isPublished, p);
      }
    }
    r
  }
}

=== FILE: mock_repository.dfy ===
/** The in-memory backend (`src/lib/data/repositories/mock.ts`): one mutable
    state holding categories, products, store settings and audit logs, with
    the same repository operations as the server backend. `Date.now()`, fresh
    ids and `randomSuffix()` are parameters; the deep copies it hands out are
    values here. */
module MockRepository {
  import opened Wrappers
  import opened Strings
  import opened Seqs
  import opened Sorting
  import opened Domain
  import opened Inventory
  import Catalog

  // ---------------------------------------------------------------- toSlug

  predicate IsSlugChar(c: char) {
    ('a' <= c <= 'z') || ('0' <= c <= '9') || c == '-'
  }

  predicate IsDash(c: char) {
    c == '-'
  }

  /** `.replace(/[^a-z0-9\s-]/g, '')`. */
  function StripDisallowed(s: string): (r: string)
    ensures forall i :: 0 <= i < |r| ==> IsSlugChar(r[i]) || IsJsWhitespace(r[i])
  {
    Filter(s, (c: char) => IsSlugChar(c) || IsJsWhitespace(c))
  }

  /** The rest of `s` after its leading run of `inRun` characters. */
  function DropRun(s: string, inRun: char -> bool): (r: string)
    ensures |r| <= |s| && r == s[|s| - |r|..]
    ensures s != [] && inRun(s[0]) ==> |r| < |s|
    ensures r == [] || !inRun(r[0])
  {
    if s != [] && inRun(s[0]) then DropRun(s[1..], inRun) else s
  }

  /** Replaces every maximal run of `inRun` characters by one '-'
      (`.replace(/\s+/g, '-')`, `.replace(/-+/g, '-')`). */
  function CollapseRuns(s: string, inRun: char -> bool): (r: string)
    ensures forall i :: 0 <= i < |r| ==> r[i] == '-' || (r[i] in s && !inRun(r[i]))
    decreases |s|
  {
    if s == [] then []
    else if inRun(s[0]) then
      var rest := DropRun(s, inRun);
      assert forall c :: c in rest ==> c in s;
      "-" + CollapseRuns(rest, inRun)
    else [s[0]] + CollapseRuns(s[1..], inRun)
  }

  /** `toSlug`: trim, lower-case, drop everything but letters, digits,
      whitespace and dashes, then turn whitespace runs and dash runs into one dash. */
  function ToSlug(value: string): (r: string)
    ensures SlugShaped(r)
  {
    ToSlugShape(value);
    CollapseRuns(CollapseRuns(StripDisallowed(TrimLower(value)), IsJsWhitespace), IsDash)
  }

  predicate NoDoubleDash(s: string) {
    forall i :: 0 <= i < |s| - 1 ==> !(s[i] == '-' && s[i + 1] == '-')
  }

  predicate SlugShaped(s: string) {
    (forall i :: 0 <= i < |s| ==> IsSlugChar(s[i])) && NoDoubleDash(s)
  }

  /** Collapsing dash runs leaves no two dashes in a row, and keeps a first
      character that is not a dash. */
  lemma {:induction false} CollapseDashes(s: string)
    ensures NoDoubleDash(CollapseRuns(s, IsDash))
    ensures s != [] && !IsDash(s[0]) ==> CollapseRuns(s, IsDash) != [] && CollapseRuns(s, IsDash)[0] == s[0]
  {
    if s != [] {
      if IsDash(s[0]) {
        var rest := DropRun(s, IsDash);
        CollapseDashes(rest);
      } else {
        CollapseDashes(s[1..]);
      }
    }
  }

  /** A slug holds only `a-z`, `0-9` and `-`, and never two dashes in a row. */
  lemma ToSlugShape(value: string)
    ensures SlugShaped(CollapseRuns(CollapseRuns(StripDisallowed(TrimLower(value)), IsJsWhitespace), IsDash))
  {
    var stripped := StripDisallowed(TrimLower(value));
    var spaced := CollapseRuns(stripped, IsJsWhitespace);
    forall i | 0 <= i < |spaced| ensures IsSlugChar(spaced[i]) {
      if spaced[i] != '-' {
        var k :| 0 <= k < |stripped| && stripped[k] == spaced[i];
      }
    }
    var r := CollapseRuns(spaced, IsDash);
    forall i | 0 <= i < |r| ensures IsSlugChar(r[i]) {
      if r[i] != '-' {
        var k :| 0 <= k < |spaced| && spaced[k] == r[i];
      }
    }
    CollapseDashes(spaced);
  }

  /** Collapsing runs of characters that do not occur changes nothing. */
  lemma {:induction false} CollapseAbsent(s: string, inRun: char -> bool)
    requires forall i :: 0 <= i < |s| ==> !inRun(s[i])
    ensures CollapseRuns(s, inRun) == s
  {
    if s != [] {
      CollapseAbsent(s[1..], inRun);
      assert s == [s[0]] + s[1..];
    }
  }

  /** Collapsing dash runs changes nothing when there are no two dashes in a row. */
  lemma {:induction false} CollapseDashesFixed(s: string)
    requires NoDoubleDash(s)
    ensures CollapseRuns(s, IsDash) == s
  {
    if s != [] {
      NoDoubleDashTail(s);
      CollapseDashesFixed(s[1..]);
      CollapseDashesHead(s);
    }
  }

  lemma NoDoubleDashTail(s: string)
    requires s != [] && NoDoubleDash(s)
    ensures NoDoubleDash(s[1..])
  {
    var tail := s[1..];
    forall i | 0 <= i < |tail| - 1 ensures !(tail[i] == '-' && tail[i + 1] == '-') {
      assert tail[i] == s[i + 1] && tail[i + 1] == s[i + 2];
    }
  }

  /** One step of `CollapseDashesFixed`: the head is kept and the tail collapsed. */
  lemma CollapseDashesHead(s: string)
    requires s != [] && NoDoubleDash(s)
    requires CollapseRuns(s[1..], IsDash) == s[1..]
    ensures CollapseRuns(s, IsDash) == s
  {
    var tail := s[1..];
    if IsDash(s[0]) {
      assert tail == [] || !IsDash(tail[0]) by {
        if tail != [] {
          assert tail[0] == s[1];
        }
      }
      assert DropRun(tail, IsDash) == tail;
      assert DropRun(s, IsDash) == tail;
    }
    assert s == [s[0]] + tail;
  }

  /** A slug-shaped string is its own slug. */
  lemma SlugShapedIsFixed(s: string)
    requires SlugShaped(s)
    ensures ToSlug(s) == s
  {
    SlugHasNoSpace(s);
    SlugNormal(s);
    FilterAll(s, (c: char) => IsSlugChar(c) || IsJsWhitespace(c));
    CollapseAbsent(s, IsJsWhitespace);
    CollapseDashesFixed(s);
  }

  /** Trimming and lower-casing keep a string of slug characters. */
  lemma SlugNormal(s: string)
    requires forall i :: 0 <= i < |s| ==> IsSlugChar(s[i])
    ensures TrimLower(s) == s
  {
    if s != [] {
      SlugChar(s[0]);
      SlugChar(s[|s| - 1]);
    }
    SlugIsLower(s);
    TrimLowerFixed(s);
  }

  /** A slug character is not whitespace and has no upper-case form. */
  lemma SlugChar(c: char)
    requires IsSlugChar(c)
    ensures !IsJsWhitespace(c) && LowerChar(c) == c
  {
  }

  lemma SlugHasNoSpace(s: string)
    requires forall i :: 0 <= i < |s| ==> IsSlugChar(s[i])
    ensures forall i :: 0 <= i < |s| ==> !IsJsWhitespace(s[i])
  {
    forall i | 0 <= i < |s| ensures !IsJsWhitespace(s[i]) {
      SlugChar(s[i]);
    }
  }

  lemma SlugIsLower(s: string)
    requires forall i :: 0 <= i < |s| ==> IsSlugChar(s[i])
    ensures ToLower(s) == s
  {
    forall i | 0 <= i < |s| ensures ToLower(s)[i] == s[i] {
      SlugChar(s[i]);
    }
  }

  /** Slugging is idempotent. */
  lemma ToSlugIdempotent(value: string)
    ensures ToSlug(ToSlug(value)) == ToSlug(value)
  {
    ToSlugShape(value);
    SlugShapedIsFixed(ToSlug(value));
  }

  // ------------------------------------------------------- ensureUniqueSlug

  /** `toSlug(base) || 'product-' + randomSuffix()`. */
  function CleanBase(base: string, fallbackSuffix: string): (c: string)
    ensures ToSlug(base) != [] ==> c == ToSlug(base)
    ensures ToSlug(base) == [] ==> c == "product-" + fallbackSuffix
  {
    var t := ToSlug(base);
    if t == [] then "product-" + fallbackSuffix else t
  }

  /** Some product other than `currentId` holds the slug. */
  predicate Taken(ps: seq<Product>, slug: string, currentId: Option<string>) {
    exists i :: 0 <= i < |ps| && ps[i].slug == slug && Some(ps[i].id) != currentId
  }

  /** Candidate `n` is the first one nobody else holds. */
  predicate FirstUntaken(ps: seq<Product>, base: string, n: nat, currentId: Option<string>) {
    !Taken(ps, Candidate(base, n), currentId) && AllTaken(ps, base, n, currentId)
  }

  /** Every candidate before the `n`-th is held by another product. */
  predicate AllTaken(ps: seq<Product>, base: string, n: nat, currentId: Option<string>) {
    forall m :: 0 <= m < n ==> Taken(ps, Candidate(base, m), currentId)
  }

  lemma FirstUntakenUnique(ps: seq<Product>, base: string, m: nat, n: nat, currentId: Option<string>)
    requires FirstUntaken(ps, base, m, currentId) && FirstUntaken(ps, base, n, currentId)
    ensures m == n
  {
  }

  /** Each rejected candidate is a slug of the products not probed before. */
  lemma TakenProgress(ps: seq<Product>, base: string, k: nat, currentId: Option<string>)
    requires Tried(base, k) <= Slugs(ps) && AllTaken(ps, base, k, currentId)
    requires Taken(ps, Candidate(base, k), currentId)
    ensures Tried(base, k + 1) <= Slugs(ps) && AllTaken(ps, base, k + 1, currentId)
    ensures |Slugs(ps) - Tried(base, k + 1)| < |Slugs(ps) - Tried(base, k)|
  {
    var c := Candidate(base, k);
    var h :| 0 <= h < |ps| && ps[h].slug == c && Some(ps[h].id) != currentId;
    assert c in Slugs(ps);
    TriedStep(base, k);
    UseUpOne(Slugs(ps), Tried(base, k), c);
  }

  /** With no product excluded, an untaken slug is held by no product. */
  lemma UntakenIsUnheld(ps: seq<Product>, slug: string)
    requires !Taken(ps, slug, None)
    ensures forall i :: 0 <= i < |ps| ==> ps[i].slug != slug
  {
  }

  lemma UntakenByOthers(ps: seq<Product>, slug: string, id: string)
    requires !Taken(ps, slug, Some(id))
    ensures forall i :: 0 <= i < |ps| && ps[i].id != id ==> ps[i].slug != slug
  {
  }

  /** A slug-shaped, non-empty slug nobody else holds is kept as it is, so
      saving a product under its own slug does not rename it. */
  lemma OwnSlugKept(ps: seq<Product>, slug: string, id: string, fallbackSuffix: string)
    requires SlugShaped(slug) && slug != []
    requires !Taken(ps, slug, Some(id))
    ensures FirstUntaken(ps, CleanBase(slug, fallbackSuffix), 0, Some(id))
    ensures Candidate(CleanBase(slug, fallbackSuffix), 0) == slug
  {
    SlugShapedIsFixed(slug);
  }

  /** Variant ids default to `variant-<suffix>` when empty. */
  function WithVariantIds(vs: seq<Variant>, suffix: nat -> string): (r: seq<Variant>)
    ensures |r| == |vs|
    ensures forall k :: 0 <= k < |vs| ==> r[k].id != []
    ensures forall k :: 0 <= k < |vs| && vs[k].id != [] ==> r[k] == vs[k]
    ensures forall k :: 0 <= k < |vs| ==> r[k] == vs[k].(id := r[k].id)
  {
    seq(|vs|, k requires 0 <= k < |vs| =>
      if vs[k].id == [] then vs[k].(id := "variant-" + suffix(k)) else vs[k])
  }

  /** `input.slug || input.name`. */
  function CreateSlugSource(input: ProductInput): string {
    if input.slug != [] then input.slug else input.name
  }

  /** `input.slug || input.name || existing.name`. */
  function UpdateSlugSource(input: ProductInput, existing: Product): string {
    if input.slug != [] then input.slug else if input.name != [] then input.name else existing.name
  }

  function IsPublished(p: Product): bool {
    p.isPublished
  }

  function IdListed(ids: seq<string>): Product -> bool {
    (p: Product) => p.id in ids
  }

  /** One turn of the in-place toggle loop keeps the products before the
      cursor toggled and those after it untouched. */
  lemma ToggleInPlaceStep(orig: seq<Product>, cur: seq<Product>, k: int, ids: seq<string>, isPublished: bool, now: int)
    requires 0 <= k < |cur| == |orig|
    requires forall j :: 0 <= j < k ==> cur[j] == Toggled(orig, ids, isPublished, now)[j]
    requires forall j :: k <= j < |orig| ==> cur[j] == orig[j]
    ensures orig[k].id in ids ==>
      var next := cur[k := cur[k].(isPublished := isPublished, updatedAt := now)];
      (forall j :: 0 <= j < k + 1 ==> next[j] == Toggled(orig, ids, isPublished, now)[j])
      && (forall j :: k + 1 <= j < |orig| ==> next[j] == orig[j])
    ensures orig[k].id !in ids ==>
      (forall j :: 0 <= j < k + 1 ==> cur[j] == Toggled(orig, ids, isPublished, now)[j])
      && (forall j :: k + 1 <= j < |orig| ==> cur[j] == orig[j])
  {
  }

  /** The module-level `state` object. */
  class MockState {
    var categories: seq<Category>
    var products: seq<Product>
    var storeSettings: StoreSettings
    var inventoryAuditLogs: seq<AuditLog>

    constructor (categories: seq<Category>, products: seq<Product>, storeSettings: StoreSettings,
                 inventoryAuditLogs: seq<AuditLog>)
      ensures this.categories == categories && this.products == products
      ensures this.storeSettings == storeSettings && this.inventoryAuditLogs == inventoryAuditLogs
    {
      this.categories := categories;
      this.products := products;
      this.storeSettings := storeSettings;
      this.inventoryAuditLogs := inventoryAuditLogs;
    }

    /** `ensureUniqueSlug`: the first of `clean`, `clean-1`, `clean-2`, ... that
        no product other than `currentId` holds. */
    method EnsureUniqueSlug(base: string, currentId: Option<string>, fallbackSuffix: string) returns (candidate: string)
      ensures exists n :: FirstUntaken(products, CleanBase(base, fallbackSuffix), n, currentId)
                          && candidate == Candidate(CleanBase(base, fallbackSuffix), n)
      ensures !Taken(products, candidate, currentId)
    {
      var clean := CleanBase(base, fallbackSuffix);
      candidate := clean;
      var index := 1;
      while exists i | 0 <= i < |products| :: products[i].slug == candidate && Some(products[i].id) != currentId
        invariant index >= 1 && candidate == Candidate(clean, index - 1)
        invariant Tried(clean, index - 1) <= Slugs(products)
        invariant AllTaken(products, clean, index - 1, currentId)
        decreases |Slugs(products) - Tried(clean, index - 1)|
      {
        TakenProgress(products, clean, index - 1, currentId);
        candidate := clean + "-" + NatToString(index);
        index := index + 1;
      }
      assert FirstUntaken(products, clean, index - 1, currentId);
    }

    /** `create`: puts the new product first, with a fresh id, a unique slug
        probed from `input.slug || input.name`, non-empty variant ids and
        both timestamps `now`. */
    method Create(input: ProductInput, now: int, newId: string, variantSuffix: nat -> string, slugSuffix: string)
      returns (p: Product)
      modifies this
      ensures products == [p] + old(products)
      ensures p == FromInput(input.(colorVariants := WithVariantIds(input.colorVariants, variantSuffix)), newId, p.slug, now, now)
      ensures exists n :: FirstUntaken(old(products), CleanBase(CreateSlugSource(input), slugSuffix), n, None)
                          && p.slug == Candidate(CleanBase(CreateSlugSource(input), slugSuffix), n)
      ensures forall i :: 0 <= i < |old(products)| ==> old(products)[i].slug != p.slug
      ensures categories == old(categories) && storeSettings == old(storeSettings)
      ensures inventoryAuditLogs == old(inventoryAuditLogs)
    {
      var slug := EnsureUniqueSlug(CreateSlugSource(input), None, slugSuffix);
      UntakenIsUnheld(products, slug);
      var variants := WithVariantIds(input.colorVariants, variantSuffix);
      p := FromInput(input.(colorVariants := variants), newId, slug, now, now);
      products := [p] + products;
    }

    /** `update`: "Product not found." for an unknown id; otherwise the stored
        product overlaid with the input, under a slug probed from
        `input.slug || input.name || existing.name` that ignores the product itself. */
    method Update(id: string, input: ProductInput, now: int, variantSuffix: nat -> string, slugSuffix: string)
      returns (r: Result<Product>)
      modifies this
      ensures IndexOfId(old(products), id) < 0 ==> r == Failure("Product not found.") && products == old(products)
      ensures var i := IndexOfId(old(products), id);
        i >= 0 ==>
          var existing := old(products)[i];
          var base := CleanBase(UpdateSlugSource(input, existing), slugSuffix);
          r.Success?
          && products == old(products)[i := r.value]
          && r.value == Overlay(existing, input.(colorVariants := WithVariantIds(input.colorVariants, variantSuffix)), r.value.slug, now)
          && (exists n :: FirstUntaken(old(products), base, n, Some(id)) && r.value.slug == Candidate(base, n))
          && (forall j :: 0 <= j < |old(products)| && old(products)[j].id != id ==> old(products)[j].slug != r.value.slug)
      ensures categories == old(categories) && storeSettings == old(storeSettings)
      ensures inventoryAuditLogs == old(inventoryAuditLogs)
    {
      var index := IndexOfId(products, id);
      if index < 0 {
        return Failure("Product not found.");
      }
      var existing := products[index];
      var slug := EnsureUniqueSlug(UpdateSlugSource(input, existing), Some(id), slugSuffix);
      UntakenByOthers(products, slug, id);
      var updated := Overlay(existing, input.(colorVariants := WithVariantIds(input.colorVariants, variantSuffix)), slug, now);
      products := products[index := updated];
      r := Success(updated);
    }

    /** `softDelete`: unpublishes the first product with the id; an unknown id changes nothing. */
    method SoftDelete(id: string, now: int)
      modifies this
      ensures var i := IndexOfId(old(products), id);
        products == if i < 0 then old(products)
                    else old(products)[i := old(products)[i].(isPublished := false, updatedAt := now)]
      ensures categories == old(categories) && storeSettings == old(storeSettings)
      ensures inventoryAuditLogs == old(inventoryAuditLogs)
    {
      var index := IndexOfId(products, id);
      if index >= 0 {
        products := products[index := products[index].(isPublished := false, updatedAt := now)];
      }
    }

    /** `duplicate`: "Product not found." for an unknown id; otherwise a copy
        put first, named "<name> (Copy)", publication state kept, slug probed
        from "<slug>-copy", sku and variant ids marked as copies. */
    method Duplicate(id: string, now: int, newId: string, variantSuffix: nat -> string, slugSuffix: string)
      returns (r: Result<Product>)
      modifies this
      ensures var i := IndexOfId(old(products), id);
        if i < 0 then r == Failure("Product not found.") && products == old(products)
        else
          var original := old(products)[i];
          var base := CleanBase(original.slug + "-copy", slugSuffix);
          r.Success?
          && products == [r.value] + old(products)
          && r.value == original.(id := newId, name := original.name + " (Copy)", slug := r.value.slug,
                                  sku := CopySku(original.sku),
                                  colorVariants := CopyVariants(original.colorVariants, variantSuffix),
                                  createdAt := now, updatedAt := now)
          && r.value.isPublished == original.isPublished
          && (exists n :: FirstUntaken(old(products), base, n, None) && r.value.slug == Candidate(base, n))
      ensures categories == old(categories) && storeSettings == old(storeSettings)
      ensures inventoryAuditLogs == old(inventoryAuditLogs)
    {
      var index := IndexOfId(products, id);
      if index < 0 {
        return Failure("Product not found.");
      }
      var original := products[index];
      var slug := EnsureUniqueSlug(original.slug + "-copy", None, slugSuffix);
      var copy := original.(id := newId, name := original.name + " (Copy)", slug := slug, sku := CopySku(original.sku),
                            colorVariants := CopyVariants(original.colorVariants, variantSuffix),
                            createdAt := now, updatedAt := now);
      products := [copy] + products;
      r := Success(copy);
    }

    /** `toggleBulkStatus`: patches every product whose id is listed and counts
        the products patched, so an id listed twice counts once. */
    method ToggleBulkStatus(ids: seq<string>, isPublished: bool, now: int) returns (updated: nat)
      modifies this
      ensures products == Toggled(old(products), ids, isPublished, now)
      ensures updated == CountWhere(old(products), IdListed(ids))
      ensures categories == old(categories) && storeSettings == old(storeSettings)
      ensures inventoryAuditLogs == old(inventoryAuditLogs)
    {
      ghost var orig := products;
      var idSet := set id | id in ids;
      updated := 0;
      var k := 0;
      while k < |products|
        invariant 0 <= k <= |products| == |orig|
        invariant forall j :: 0 <= j < k ==> products[j] == Toggled(orig, ids, isPublished, now)[j]
        invariant forall j :: k <= j < |orig| ==> products[j] == orig[j]
        invariant updated == CountWhere(orig[..k], IdListed(ids))
        invariant categories == old(categories) && storeSettings == old(storeSettings)
        invariant inventoryAuditLogs == old(inventoryAuditLogs)
      {
        CountStep(orig, k, IdListed(ids));
        ToggleInPlaceStep(orig, products, k, ids, isPublished, now);
        if products[k].id in idSet {
          products := products[k := products[k].(isPublished := isPublished, updatedAt := now)];
          updated := updated + 1;
        }
        k := k + 1;
      }
      assert orig[..k] == orig;
    }

    /** `listFlattened`: the product, variant and size loops build the
        flattened rows, then a stable sort orders them by product name only. */
    method ListFlattened() returns (rows: seq<InventoryRow>)
      ensures rows == Sort(Flatten(products), ByProductName())
    {
      rows := [];
      var i := 0;
      while i < |products|
        invariant 0 <= i <= |products|
        invariant rows == Flatten(products[..i])
      {
        var productRows := ProductRows(products[i]);
        FlattenStep(products, i);
        rows := rows + productRows;
        i := i + 1;
      }
      assert products[..i] == products;
      rows := Sort(rows, ByProductName());
    }

    /** `updateStock`: "Product not found." or "Variant not found." change
        nothing; otherwise the clamped value is stored for the size, the size
        listed, `updatedAt` refreshed, one log put first, and the row
        re-read from the updated state returned. */
    method UpdateStock(productId: string, variantId: string, size: string, newValue: real, changedBy: string,
                       now: int, logId: string) returns (r: Result<StockUpdate>)
      modifies this
      ensures var i := IndexOfId(old(products), productId);
        if i < 0 then
          r == Failure("Product not found.") && products == old(products) && inventoryAuditLogs == old(inventoryAuditLogs)
        else
          var p := old(products)[i];
          var j := IndexOfVariant(p.colorVariants, variantId);
          if j < 0 then
            r == Failure("Variant not found.") && products == old(products) && inventoryAuditLogs == old(inventoryAuditLogs)
          else
            var v := p.colorVariants[j];
            var value := ClampStock(newValue);
            var log := AuditLog(logId, p.id, v.id, size, StockOf(v, size), value, changedBy, now);
            products == old(products)[i := WithStock(p, j, size, value, now)]
            && inventoryAuditLogs == [log] + old(inventoryAuditLogs)
            && r == Success(StockUpdate(InventoryRow(p.id, p.name, v.id, v.colorName, size, value, p.isPublished), log))
      ensures categories == old(categories) && storeSettings == old(storeSettings)
    {
      var i := IndexOfId(products, productId);
      if i < 0 {
        return Failure("Product not found.");
      }
      var product := products[i];
      var j := IndexOfVariant(product.colorVariants, variantId);
      if j < 0 {
        return Failure("Variant not found.");
      }
      var variant := product.colorVariants[j];
      var oldValue := StockOf(variant, size);
      var value := ClampStock(newValue);
      products := products[i := WithStock(product, j, size, value, now)];
      var log := AuditLog(logId, product.id, variant.id, size, oldValue, value, changedBy, now);
      inventoryAuditLogs := [log] + inventoryAuditLogs;
      RowAfterUpdate(old(products), i, j, size, value, now);
      var row := FindInventoryRow(products, product.id, variant.id, size);
      r := Success(StockUpdate(row.value, log));
    }
  }

  /** The variant and size loops of `listFlattened` for one product. */
  method ProductRows(product: Product) returns (rows: seq<InventoryRow>)
    ensures rows == VariantRows(product, product.colorVariants)
  {
    rows := [];
    var j := 0;
    while j < |product.colorVariants|
      invariant 0 <= j <= |product.colorVariants|
      invariant rows == VariantRows(product, product.colorVariants[..j])
    {
      var variant := product.colorVariants[j];
      ghost var variantStart := rows;
      var k := 0;
      while k < |variant.selectedSizes|
        invariant 0 <= k <= |variant.selectedSizes|
        invariant rows == variantStart + SizeRows(product, variant, variant.selectedSizes[..k])
      {
        SizeRowsAppend(product, variant, variant.selectedSizes, k);
        rows := rows + [RowFor(product, variant, variant.selectedSizes[k])];
        k := k + 1;
      }
      VariantRowsStep(product, product.colorVariants, j);
      j := j + 1;
    }
    assert product.colorVariants[..j] == product.colorVariants;
  }

  lemma SizeRowsAppend(p: Product, v: Variant, sizes: seq<string>, k: int)
    requires 0 <= k < |sizes|
    ensures SizeRows(p, v, sizes[..k + 1]) == SizeRows(p, v, sizes[..k]) + [RowFor(p, v, sizes[k])]
  {
  }

  lemma VariantRowsStep(p: Product, vs: seq<Variant>, j: int)
    requires 0 <= j < |vs|
    ensures VariantRows(p, vs[..j + 1]) == VariantRows(p, vs[..j]) + SizeRows(p, vs[j], vs[j].selectedSizes[..|vs[j].selectedSizes|])
  {
    assert vs[j].selectedSizes[..|vs[j].selectedSizes|] == vs[j].selectedSizes;
    assert vs[..j + 1] == vs[..j] + [vs[j]];
    VariantRowsAppend(p, vs[..j], vs[j]);
  }

  lemma FlattenStep(ps: seq<Product>, i: int)
    requires 0 <= i < |ps|
    ensures Flatten(ps[..i + 1]) == Flatten(ps[..i]) + VariantRows(ps[i], ps[i].colorVariants)
  {
    assert ps[..i + 1] == ps[..i] + [ps[i]];
    FlattenAppend(ps[..i], ps[i]);
  }

  /** The flattened rows of products followed by one more product. */
  lemma {:induction false} FlattenAppend(ps: seq<Product>, p: Product)
    ensures Flatten(ps + [p]) == Flatten(ps) + VariantRows(p, p.colorVariants)
  {
    if ps == [] {
      assert [p][1..] == [];
    } else {
      assert (ps + [p])[1..] == ps[1..] + [p];
      FlattenAppend(ps[1..], p);
    }
  }

  lemma {:induction false} VariantRowsAppend(p: Product, vs: seq<Variant>, v: Variant)
    ensures VariantRows(p, vs + [v]) == VariantRows(p, vs) + SizeRows(p, v, v.selectedSizes)
  {
    if vs == [] {
      assert [v][1..] == [];
    } else {
      assert (vs + [v])[1..] == vs[1..] + [v];
      VariantRowsAppend(p, vs[1..], v);
    }
  }

  /** `findInventoryRow`: the row of the first product with the id, its first
      variant with the id, and the size. */
  function FindInventoryRow(ps: seq<Product>, productId: string, variantId: string, size: string): (r: Result<InventoryRow>)
    ensures IndexOfId(ps, productId) < 0 ==> r == Failure("Product not found while resolving inventory row.")
    ensures var i := IndexOfId(ps, productId);
      0 <= i ==>
        var j := IndexOfVariant(ps[i].colorVariants, variantId);
        r == if j < 0 then Failure("Variant not found while resolving inventory row.")
             else Success(RowFor(ps[i], ps[i].colorVariants[j], size).(variantId := variantId))
  {
    var i := IndexOfId(ps, productId);
    if i < 0 then Failure("Product not found while resolving inventory row.")
    else
      var p := ps[i];
      var j := IndexOfVariant(p.colorVariants, variantId);
      if j < 0 then Failure("Variant not found while resolving inventory row.")
      else Success(InventoryRow(p.id, p.name, variantId, p.colorVariants[j].colorName, size,
                                StockOf(p.colorVariants[j], size), p.isPublished))
  }

  /** After a stock update the re-read always succeeds and reports the stored value. */
  lemma RowAfterUpdate(ps: seq<Product>, i: int, j: int, size: string, value: int, now: int)
    requires 0 <= i < |ps| && IndexOfId(ps, ps[i].id) == i
    requires 0 <= j < |ps[i].colorVariants| && IndexOfVariant(ps[i].colorVariants, ps[i].colorVariants[j].id) == j
    ensures var p := ps[i]; var v := p.colorVariants[j];
      FindInventoryRow(ps[i := WithStock(p, j, size, value, now)], p.id, v.id, size)
        == Success(InventoryRow(p.id, p.name, v.id, v.colorName, size, value, p.isPublished))
  {
    var p := ps[i];
    var q := WithStock(p, j, size, value, now);
    WithStockEffect(p, j, size, value, now);
    IndexOfIdPatched(ps, i, q);
    IndexOfVariantPatched(p.colorVariants, q.colorVariants, j);
  }

  /** The mock listing's order: product name only. */
  function ByProductName(): (InventoryRow, InventoryRow) -> bool {
    (a: InventoryRow, b: InventoryRow) => StrLess(a.productName, b.productName)
  }

  lemma ByProductNameIsStrictWeakOrder()
    ensures StrictWeakOrder(ByProductName())
  {
    var lt := ByProductName();
    forall a ensures !lt(a, a) {
      StrLessIrreflexive(a.productName);
    }
    forall a, b, c | lt(a, b) && lt(b, c) ensures lt(a, c) {
      StrLessTransitive(a.productName, b.productName, c.productName);
    }
    forall a, b, c | !lt(a, b) && !lt(b, c) ensures !lt(a, c) {
      StrNotLessTransitive(a.productName, b.productName, c.productName);
    }
  }

  /** The mock listing holds the flattened rows in product-name order; rows
      with the same product name keep their flattened order (product, then
      variant, then size as stored), unlike the server's colour-and-size order. */
  lemma ListFlattenedSpec(ps: seq<Product>, e: InventoryRow)
    ensures var r := Sort(Flatten(ps), ByProductName());
      multiset(r) == multiset(Flatten(ps))
      && (forall a, b :: 0 <= a < b < |r| ==> LocaleCompare(r[a].productName, r[b].productName) <= 0)
      && EquivClass(r, e, ByProductName()) == EquivClass(Flatten(ps), e, ByProductName())
  {
    var r := Sort(Flatten(ps), ByProductName());
    ByProductNameIsStrictWeakOrder();
    SortPermutation(Flatten(ps), ByProductName());
    SortSorted(Flatten(ps), ByProductName());
    SortStable(Flatten(ps), e, ByProductName());
    forall a, b | 0 <= a < b < |r| ensures LocaleCompare(r[a].productName, r[b].productName) <= 0 {
      assert !ByProductName()(r[b], r[a]);
    }
  }

  // ------------------------------------------------------------- queries

  function Published(ps: seq<Product>): seq<Product> {
    Filter(ps, IsPublished)
  }

  /** `list`: the published products when `publishedOnly` is true, otherwise
      all of them, in stored order (no sorting). */
  function List(ps: seq<Product>, publishedOnly: Option<bool>): (r: seq<Product>)
    ensures publishedOnly != Some(true) ==> r == ps
    ensures forall p :: p in r <==> p in ps && (publishedOnly == Some(true) ==> p.isPublished)
  {
    if publishedOnly == Some(true) then
      assert forall p :: p in Published(ps) <==> p in ps && p.isPublished by {
        forall p ensures p in Published(ps) <==> p in ps && p.isPublished {
          FilterIn(ps, IsPublished, p);
        }
      }
      Published(ps)
    else ps
  }

  /** `listFeatured`: the published, featured products. */
  function ListFeatured(ps: seq<Product>): (r: seq<Product>)
    ensures forall p :: p in r <==> p in ps && p.isPublished && p.isFeatured
  {
    forall p ensures p in Published(ps) <==> p in ps && p.isPublished {
      FilterIn(ps, IsPublished, p);
    }
    Catalog.Featured(Published(ps))
  }

  /** `listByCategorySlug`: the category filter over the published products. */
  function ListByCategorySlug(cs: seq<Category>, ps: seq<Product>, slug: string): (r: seq<Product>)
    ensures forall p :: p in r ==> p in ps && p.isPublished
  {
    var published := Published(ps);
    Catalog.FilterOnlySelects(slug, cs, published);
    forall p | p in published ensures p in ps && p.isPublished {
      FilterIn(ps, IsPublished, p);
    }
    Catalog.FilterByCategorySlug(slug, cs, published)
  }

  /** `listBySubcategorySlugs` over the published products. */
  function ListBySubcategorySlugs(cs: seq<Category>, ps: seq<Product>, categorySlug: string, subcategorySlug: string)
    : (r: seq<Product>)
    ensures forall p :: p in r ==> p in ps && p.isPublished
    ensures var parent := Catalog.TopLevelBySlug(cs, categorySlug);
      parent.None? || Catalog.SubcategoryBySlug(cs, parent.value.id, subcategorySlug).None? ==> r == []
  {
    var published := Published(ps);
    forall p | p in published ensures p in ps && p.isPublished {
      FilterIn(ps, IsPublished, p);
    }
    var r := Catalog.ListBySubcategorySlugs(cs, published, categorySlug, subcategorySlug);
    forall p | p in r ensures p in published {
      Catalog.SubcategorySelection(cs, published, categorySlug, subcategorySlug, p);
    }
    r
  }

  /** `listRelatedBySlug`: published products other than the slug, at most `limit ?? 4`. */
  function ListRelatedBySlug(ps: seq<Product>, slug: string, limit: Option<int>): (r: seq<Product>)
    ensures forall p :: p in r ==> p in ps && p.isPublished && p.slug != slug
    ensures limit.None? ==> |r| <= 4
    ensures limit.Some? && 0 <= limit.value ==> |r| <= limit.value
  {
    var published := Published(ps);
    Catalog.RelatedSelection(published, slug, limit);
    forall p | p in published ensures p in ps && p.isPublished {
      FilterIn(ps, IsPublished, p);
    }
    Catalog.ListRelatedBySlug(published, slug, limit)
  }

  /** `getById`: the first product with the id. */
  function GetById(ps: seq<Product>, id: string): (r: Option<Product>)
    ensures r.None? <==> forall i :: 0 <= i < |ps| ==> ps[i].id != id
    ensures r.Some? ==> r.value == ps[IndexOfId(ps, id)] && r.value.id == id
  {
    var i := IndexOfId(ps, id);
    if i < 0 then None else Some(ps[i])
  }

  /** `getBySlug`: the first product with the slug that is published, unless
      `publishedOnly` is explicitly false, when it is the first holder of the slug. */
  function GetBySlug(ps: seq<Product>, slug: string, publishedOnly: Option<bool>): (r: Option<Product>)
    ensures var needPublished := publishedOnly.GetOr(true);
      var i := FindIndex(ps, (p: Product) => p.slug == slug && (needPublished ==> p.isPublished));
      r == if i < 0 then None else Some(ps[i])
    ensures r.Some? ==> r.value in ps && r.value.slug == slug && (publishedOnly != Some(false) ==> r.value.isPublished)
    ensures r.None? && publishedOnly != Some(false) ==> forall p :: p in ps && p.slug == slug ==> !p.isPublished
  {
    var needPublished := publishedOnly.GetOr(true);
    var i := FindIndex(ps, (p: Product) => p.slug == slug && (needPublished ==> p.isPublished));
    if i < 0 then None else Some(ps[i])
  }

  /** Category `list`: the active categories (all of them when `activeOnly`
      is explicitly false), then a stable sort by ascending `sortOrder`. */
  function ListCategories(cs: seq<Category>, activeOnly: Option<bool>): (r: seq<Category>)
    ensures |r| <= |cs|
    ensures activeOnly == Some(false) ==> |r| == |cs|
    ensures forall i :: 0 <= i < |r| ==> r[i] in cs
    ensures activeOnly != Some(false) ==> forall i :: 0 <= i < |r| ==> r[i].isActive
  {
    var kept := Filter(cs, (c: Category) => activeOnly == Some(false) || c.isActive);
    SortKeeps(kept, BySortOrder(), (c: Category) => c in cs && (activeOnly == Some(false) || c.isActive));
    if activeOnly == Some(false) then
      FilterAll(cs, (c: Category) => activeOnly == Some(false) || c.isActive);
      Sort(kept, BySortOrder())
    else Sort(kept, BySortOrder())
  }

  /** Settings `get`: the stored settings with the brand's contact details
      filling the four contact fields that are absent. */
  function SettingsWithBrand(s: StoreSettings): (r: StoreSettings)
    ensures r.fields.contactEmail == Some(s.fields.contactEmail.GetOr(BrandContactEmail))
    ensures r.fields.contactPhone == Some(s.fields.contactPhone.GetOr(BrandContactPhone))
    ensures r.fields.pickupAddress == Some(s.fields.pickupAddress.GetOr(BrandPickupAddress))
    ensures r.fields.pickupHours == Some(s.fields.pickupHours.GetOr(BrandPickupHours))
    ensures r == s.(fields := r.fields)
    ensures r.fields == s.fields.(contactEmail := r.fields.contactEmail, contactPhone := r.fields.contactPhone,
                                  pickupAddress := r.fields.pickupAddress, pickupHours := r.fields.pickupHours)
  {
    s.(fields := s.fields.(
      contactEmail := Some(s.fields.contactEmail.GetOr(BrandContactEmail)),
      contactPhone := Some(s.fields.contactPhone.GetOr(BrandContactPhone)),
      pickupAddress := Some(s.fields.pickupAddress.GetOr(BrandPickupAddress)),
      pickupHours := Some(s.fields.pickupHours.GetOr(BrandPickupHours))))
  }

  /** Reading the settings twice gives what reading them once gives, and a
      configured contact field is never replaced by the brand's. */
  lemma SettingsWithBrandStable(s: StoreSettings)
    ensures SettingsWithBrand(SettingsWithBrand(s)) == SettingsWithBrand(s)
    ensures s.fields.contactEmail.Some? ==> SettingsWithBrand(s).fields.contactEmail == s.fields.contactEmail
    ensures s.fields.pickupHours.Some? ==> SettingsWithBrand(s).fields.pickupHours == s.fields.pickupHours
  {
  }
}

=== FILE: order_utils.dfy ===
/** Order arithmetic and order-number formatting (`order-utils.ts`). */
module OrderUtils {
  import opened Strings

  /** `DEFAULT_SHIPPING_FEE` in `constants.ts`. */
  const DefaultShippingFee: int := 2500

  /** The price and quantity of one order line. */
  datatype OrderLine = OrderLine(price: int, quantity: int)

  datatype DeliveryMethod = Pickup | Shipping

  /** `calculateSubtotal`: price times quantity summed from the left. */
  function CalculateSubtotal(items: seq<OrderLine>): int {
    if items == [] then 0
    else CalculateSubtotal(items[..|items| - 1]) + items[|items| - 1].price * items[|items| - 1].quantity
  }

  /** The subtotal of two lists put together is the sum of their subtotals. */
  lemma {:induction false} SubtotalConcat(a: seq<OrderLine>, b: seq<OrderLine>)
    ensures CalculateSubtotal(a + b) == CalculateSubtotal(a) + CalculateSubtotal(b)
    decreases |b|
  {
    if b == [] {
      assert a + b == a;
    } else {
      assert (a + b)[..|a + b| - 1] == a + b[..|b| - 1];
      SubtotalConcat(a, b[..|b| - 1]);
    }
  }

  /** Lines with non-negative prices and quantities never give a negative subtotal. */
  lemma {:induction false} SubtotalNonNegative(items: seq<OrderLine>)
    requires forall i :: 0 <= i < |items| ==> 0 <= items[i].price && 0 <= items[i].quantity
    ensures 0 <= CalculateSubtotal(items)
    decreases |items|
  {
    if items != [] {
      var last := items[|items| - 1];
      SubtotalNonNegative(items[..|items| - 1]);
      assert 0 <= last.price * last.quantity;
    }
  }

  /** 49000 × 1 and 12000 × 2 come to 73000. */
  lemma SubtotalExample()
    ensures CalculateSubtotal([OrderLine(49000, 1), OrderLine(12000, 2)]) == 73000
  {
    assert [OrderLine(49000, 1), OrderLine(12000, 2)][..1] == [OrderLine(49000, 1)];
    assert [OrderLine(49000, 1)][..0] == [];
  }

  /** `calculateShippingFee`: free for pickup, the default fee otherwise. */
  function CalculateShippingFee(delivery: DeliveryMethod): (fee: int)
    ensures fee == 0 <==> delivery == Pickup
    ensures delivery == Shipping ==> fee == DefaultShippingFee
  {
    if delivery == Pickup then 0 else DefaultShippingFee
  }

  /** The fixed part of an order number. */
  function OrderPrefix(year: int): string {
    "ORD-" + IntToString(year) + "-"
  }

  /** `generateOrderNumber`: the prefix with the year, then the sequence
      padded on the left with '0' to four characters. */
  function GenerateOrderNumber(sequence: int, year: int): (r: string)
    ensures StartsWith(r, OrderPrefix(year))
    ensures EndsWith(r, IntToString(sequence))
    ensures |r| == |OrderPrefix(year)| + (if |IntToString(sequence)| < 4 then 4 else |IntToString(sequence)|)
    ensures forall i :: |OrderPrefix(year)| <= i < |r| - |IntToString(sequence)| ==> r[i] == '0'
  {
    OrderPrefix(year) + PadStart(IntToString(sequence), 4, '0')
  }

  /** Sequence 7 in 2026 gives ORD-2026-0007. */
  lemma OrderNumberExample()
    ensures GenerateOrderNumber(7, 2026) == "ORD-2026-0007"
  {
    Prefix2026();
    Padded7();
    assert "ORD-2026-" + "0007" == "ORD-2026-0007";
  }

  lemma Prefix2026()
    ensures OrderPrefix(2026) == "ORD-2026-"
  {
    Digits2026();
  }

  lemma Padded7()
    ensures PadStart(IntToString(7), 4, '0') == "0007"
  {
    assert IntToString(7) == "7";
    assert Repeat('0', 3) == "000";
  }

  lemma Digits2026()
    ensures NatToString(2026) == "2026"
  {
    assert NatToString(2) == "2";
    assert NatToString(20) == NatToString(2) + "0";
    assert NatToString(202) == NatToString(20) + "2";
    assert NatToString(2026) == NatToString(202) + "6";
  }

  /** A sequence of four or more digits is never cut: it follows the prefix verbatim. */
  lemma NoTruncation(sequence: nat, year: int)
    requires 1000 <= sequence
    ensures GenerateOrderNumber(sequence, year) == OrderPrefix(year) + NatToString(sequence)
  {
    NatLength(sequence);
  }

  /** Numbers from 1000 up have at least four digits. */
  lemma NatLength(n: nat)
    requires 1000 <= n
    ensures 4 <= |NatToString(n)|
  {
    var a := n / 10;
    var b := a / 10;
    assert 10 <= b;
    assert |NatToString(n)| == |NatToString(a)| + 1;
    assert |NatToString(a)| == |NatToString(b)| + 1;
    assert |NatToString(b)| != 1;
  }

  /** Within one year, distinct non-negative sequences get distinct order numbers. */
  lemma OrderNumberInjective(a: nat, b: nat, year: int)
    requires GenerateOrderNumber(a, year) == GenerateOrderNumber(b, year)
    ensures a == b
  {
    var x, y := NatToString(a), NatToString(b);
    PrefixCancel(OrderPrefix(year), PadStart(x, 4, '0'), PadStart(y, 4, '0'));
    PaddedDigitsInjective(x, y);
    NatToStringInjective(a, b);
  }

  lemma PrefixCancel(pre: string, u: string, v: string)
    requires pre + u == pre + v
    ensures u == v
  {
    assert u == (pre + u)[|pre|..];
    assert v == (pre + v)[|pre|..];
  }

  /** Padding digit strings without leading zeros to four characters keeps
      them apart. */
  lemma PaddedDigitsInjective(x: string, y: string)
    requires 1 <= |x| && (|x| > 1 ==> x[0] != '0')
    requires 1 <= |y| && (|y| > 1 ==> y[0] != '0')
    requires PadStart(x, 4, '0') == PadStart(y, 4, '0')
    ensures x == y
  {
    if |x| < |y| {
      PaddedDigitsDiffer(x, y);
    } else if |y| < |x| {
      PaddedDigitsDiffer(y, x);
    } else {
      var p := PadStart(x, 4, '0');
      assert EndsWith(p, x) && EndsWith(p, y);
    }
  }

  /** Two digit strings of different lengths without leading zeros stay
      different after padding. */
  lemma PaddedDigitsDiffer(x: string, y: string)
    requires 1 <= |x| < |y|
    requires |y| > 1 ==> y[0] != '0'
    ensures PadStart(x, 4, '0') != PadStart(y, 4, '0')
  {
    var px, py := PadStart(x, 4, '0'), PadStart(y, 4, '0');
    if |y| < 4 {
      var k := 4 - |y|;
      assert py[k] == y[0];
      assert px[k] == '0';
    } else if 4 <= |x| {
      assert |px| == |x| < |y| == |py|;
    } else if |y| == 4 {
      assert py == y;
      assert px[0] == '0';
    } else {
      assert |px| == 4 < |py|;
    }
  }
}

=== FILE: role_sync.dfy ===
/** The super-admin allow-list and the role chosen when an auth identity is
    synced into the users table (`role-sync.ts`). `SUPERADMIN_EMAILS` is a
    parameter. */
module RoleSync {
  import opened Wrappers
  import opened Strings
  import opened Seqs
  import opened Domain
  import ConvexUsers

  /** The raw entries of the setting (empty when unset). */
  function Entries(setting: Option<string>): seq<string> {
    Split(if setting.Some? then setting.value else "", ',')
  }

  /** `.map(trim + toLowerCase).filter(Boolean)` over the entries, in order. */
  function AllowList(entries: seq<string>): seq<string> {
    if entries == [] then []
    else
      var e := TrimLower(entries[0]);
      (if e != "" then [e] else []) + AllowList(entries[1..])
  }

  /** `getSuperAdminEmails`. */
  function SuperAdminEmails(setting: Option<string>): seq<string> {
    AllowList(Entries(setting))
  }

  /** An address is allowed exactly when it is the non-empty normal form of
      some entry. */
  lemma AllowListSpec(entries: seq<string>, e: string)
    ensures e in AllowList(entries) <==> e != "" && exists j :: 0 <= j < |entries| && TrimLower(entries[j]) == e
  {
    if e in AllowList(entries) {
      AllowListSound(entries, e);
    }
    if e != "" && exists j :: 0 <= j < |entries| && TrimLower(entries[j]) == e {
      var j :| 0 <= j < |entries| && TrimLower(entries[j]) == e;
      AllowListComplete(entries, j);
    }
  }

  lemma {:induction false} AllowListSound(entries: seq<string>, e: string)
    requires e in AllowList(entries)
    ensures e != "" && exists j :: 0 <= j < |entries| && TrimLower(entries[j]) == e
  {
    var head := TrimLower(entries[0]);
    var rest := AllowList(entries[1..]);
    assert AllowList(entries) == (if head != "" then [head] else []) + rest;
    if e !in rest {
      assert TrimLower(entries[0]) == e;
    } else {
      AllowListSound(entries[1..], e);
      var j :| 0 <= j < |entries[1..]| && TrimLower(entries[1..][j]) == e;
      assert TrimLower(entries[j + 1]) == e;
    }
  }

  lemma {:induction false} AllowListComplete(entries: seq<string>, j: nat)
    requires j < |entries| && TrimLower(entries[j]) != ""
    ensures TrimLower(entries[j]) in AllowList(entries)
  {
    var head := TrimLower(entries[0]);
    var rest := AllowList(entries[1..]);
    assert AllowList(entries) == (if head != "" then [head] else []) + rest;
    if j > 0 {
      assert entries[1..][j - 1] == entries[j];
      AllowListComplete(entries[1..], j - 1);
    }
  }

  /** Every allowed address is non-empty and in normal form. */
  lemma AllowedIsNormal(entries: seq<string>, e: string)
    requires e in AllowList(entries)
    ensures e != "" && TrimLower(e) == e
  {
    AllowListSpec(entries, e);
    var j :| 0 <= j < |entries| && TrimLower(entries[j]) == e;
    TrimLowerIdempotent(entries[j]);
  }

  /** An unset or empty setting lists nobody. */
  lemma NoSettingNoAdmins()
    ensures SuperAdminEmails(None) == [] && SuperAdminEmails(Some("")) == []
  {
    assert Split("", ',') == [""];
    assert TrimLower("") == "";
    assert AllowList([""]) == [];
  }

  /** `e` is non-empty and the normal form of some entry. */
  predicate Listed(entries: seq<string>, e: string) {
    e != "" && exists j :: 0 <= j < |entries| && TrimLower(entries[j]) == e
  }

  /** `isSuperAdminEmail` of `role-sync.ts`: the normalised address is listed. */
  predicate IsSuperAdminEmail(setting: Option<string>, email: string) {
    TrimLower(email) in SuperAdminEmails(setting)
  }

  /** An address is a super-admin exactly when its normal form is listed. */
  lemma IsSuperAdminEmailSpec(setting: Option<string>, email: string)
    ensures IsSuperAdminEmail(setting, email) <==> Listed(Entries(setting), TrimLower(email))
  {
    ListedInSplit(if setting.Some? then setting.value else "", TrimLower(email));
  }

  lemma ListedInSplit(raw: string, e: string)
    ensures e in AllowList(Split(raw, ',')) <==> Listed(Split(raw, ','), e)
  {
    ListedIff(Split(raw, ','), e);
  }

  lemma ListedIff(entries: seq<string>, e: string)
    ensures e in AllowList(entries) <==> Listed(entries, e)
  {
    AllowListSpec(entries, e);
  }

  /** A leading space is trimmed away. */
  lemma LeadingSpaceTrimmed(email: string)
    ensures TrimLower(" " + email) == TrimLower(email)
  {
    assert (" " + email)[1..] == email;
    assert TrimStart(" " + email) == TrimStart(email);
  }

  /** Two addresses with the same normal form get the same answer. */
  lemma SameNormalForm(setting: Option<string>, a: string, b: string)
    requires TrimLower(a) == TrimLower(b)
    ensures IsSuperAdminEmail(setting, a) == IsSuperAdminEmail(setting, b)
  {
  }

  /** Membership ignores surrounding whitespace and letter case: an address
      and its normal form get the same answer, and a leading space changes
      nothing. */
  lemma MembershipIgnoresPadding(setting: Option<string>, email: string)
    ensures IsSuperAdminEmail(setting, email) == IsSuperAdminEmail(setting, TrimLower(email))
    ensures IsSuperAdminEmail(setting, " " + email) == IsSuperAdminEmail(setting, email)
  {
    TrimLowerIdempotent(email);
    SameNormalForm(setting, email, TrimLower(email));
    LeadingSpaceTrimmed(email);
    SameNormalForm(setting, " " + email, email);
  }

  /** Without a setting, or with an empty one, nobody is a super-admin. */
  lemma NobodyWithoutSetting(email: string)
    ensures !IsSuperAdminEmail(None, email) && !IsSuperAdminEmail(Some(""), email)
  {
    NoSettingNoAdmins();
    EmptyListNobody(None, email);
    EmptyListNobody(Some(""), email);
  }

  lemma EmptyListNobody(setting: Option<string>, email: string)
    requires SuperAdminEmails(setting) == []
    ensures !IsSuperAdminEmail(setting, email)
  {
  }

  /** The role chosen for an identity: admin exactly for a super-admin address. */
  function RoleFor(setting: Option<string>, email: string): (role: Role)
    ensures role == Admin <==> IsSuperAdminEmail(setting, email)
    ensures role == Customer <==> !IsSuperAdminEmail(setting, email)
  {
    if IsSuperAdminEmail(setting, email) then Admin else Customer
  }

  datatype AuthIdentity = AuthIdentity(id: string, email: string, name: string)

  datatype RoleSyncResult = RoleSyncResult(role: Role, betterAuthId: string, userId: string)

  /** `syncDomainRoleFromAuthIdentity`: chooses the role, upserts the user by
      email through `upsertFromAuth`, and reports the role, the auth id and
      the user id the upsert returned. */
  method SyncDomainRoleFromAuthIdentity(setting: Option<string>, identity: AuthIdentity, phone: Option<string>,
                                        users: ConvexUsers.UserTable, now: int, newId: string)
    returns (result: RoleSyncResult)
    modifies users
    ensures result.role == RoleFor(setting, identity.email) && result.betterAuthId == identity.id
    ensures users.rows == ConvexUsers.UpsertedUsers(old(users.rows), identity.email, identity.name, identity.id,
                                                    phone, result.role, now, newId)
    ensures var u := ConvexUsers.ByEmail(users.rows, identity.email);
      u.Some? && u.value.role == result.role && u.value.betterAuthId == identity.id
    ensures var i := FindIndex(old(users.rows), ConvexUsers.HasEmail(identity.email));
      result.userId == if i < 0 then newId else old(users.rows)[i].id
  {
    var role := RoleFor(setting, identity.email);
    var userId := users.UpsertFromAuth(identity.email, identity.name, identity.id, phone, role, now, newId);
    result := RoleSyncResult(role, identity.id, userId);
  }
}

=== FILE: seqs.dfy ===
/** `Array.prototype.filter` and `slice` on sequences, with the facts the
    other modules use about them. */
module Seqs {

  /** `s.filter(p)`: the elements satisfying `p`, in their original order. */
  function Filter<T>(s: seq<T>, p: T -> bool): (r: seq<T>)
    ensures |r| <= |s|
    ensures forall i :: 0 <= i < |r| ==> r[i] in s && p(r[i])
    ensures forall i :: 0 <= i < |s| && p(s[i]) ==> s[i] in r
  {
    if s == [] then [] else (if p(s[0]) then [s[0]] else []) + Filter(s[1..], p)
  }

  /** An element survives the filter exactly when it is in `s` and passes `p`. */
  lemma FilterIn<T>(s: seq<T>, p: T -> bool, x: T)
    ensures x in Filter(s, p) <==> x in s && p(x)
  {
    if x in s && p(x) {
      var i :| 0 <= i < |s| && s[i] == x;
      assert p(s[i]);
    }
  }

  lemma {:induction false} FilterConcat<T>(a: seq<T>, b: seq<T>, p: T -> bool)
    ensures Filter(a + b, p) == Filter(a, p) + Filter(b, p)
  {
    if a != [] {
      assert (a + b)[1..] == a[1..] + b;
      FilterConcat(a[1..], b, p);
    } else {
      assert a + b == b;
    }
  }

  /** Putting the same element in front of two sequences keeps the difference
      between their filtered forms. */
  lemma FilterConsShift<T>(h: T, a: seq<T>, b: seq<T>, extra: seq<T>, p: T -> bool)
    requires Filter(a, p) == Filter(b, p) + extra
    ensures Filter([h] + a, p) == Filter([h] + b, p) + extra
  {
    FilterConcat([h], a, p);
    FilterConcat([h], b, p);
    ConcatAssoc(Filter([h], p), Filter(b, p), extra);
  }

  lemma ConcatAssoc<T>(x: seq<T>, y: seq<T>, z: seq<T>)
    ensures x + (y + z) == (x + y) + z
  {
  }

  lemma SplitHead<T>(s: seq<T>)
    requires s != []
    ensures s == [s[0]] + s[1..]
  {
  }

  lemma FilterCons<T>(h: T, s: seq<T>, p: T -> bool)
    ensures p(h) ==> Filter([h] + s, p) == [h] + Filter(s, p)
    ensures !p(h) ==> Filter([h] + s, p) == Filter(s, p)
  {
    assert ([h] + s)[0] == h && ([h] + s)[1..] == s;
  }

  lemma FilterAppendOne<T>(a: seq<T>, x: T, p: T -> bool)
    ensures Filter(a + [x], p) == Filter(a, p) + (if p(x) then [x] else [])
  {
    FilterConcat(a, [x], p);
  }

  /** Filtering keeps everything exactly when every element passes. */
  lemma {:induction false} FilterAll<T>(s: seq<T>, p: T -> bool)
    requires forall i :: 0 <= i < |s| ==> p(s[i])
    ensures Filter(s, p) == s
  {
    if s != [] {
      FilterAll(s[1..], p);
    }
  }

  /** Filtering with a predicate no element satisfies gives the empty sequence. */
  lemma {:induction false} FilterNone<T>(s: seq<T>, p: T -> bool)
    requires forall i :: 0 <= i < |s| ==> !p(s[i])
    ensures Filter(s, p) == []
  {
    if s != [] {
      FilterNone(s[1..], p);
    }
  }

  /** Two predicates that agree on the elements give the same filter. */
  lemma {:induction false} FilterCongruent<T>(s: seq<T>, p: T -> bool, q: T -> bool)
    requires forall i :: 0 <= i < |s| ==> p(s[i]) == q(s[i])
    ensures Filter(s, p) == Filter(s, q)
  {
    if s != [] {
      FilterCongruent(s[1..], p, q);
    }
  }

  /** Filtering twice is filtering once with the conjunction. */
  lemma {:induction false} FilterFilter<T>(s: seq<T>, p: T -> bool, q: T -> bool)
    ensures Filter(Filter(s, p), q) == Filter(s, x => p(x) && q(x))
  {
    if s != [] {
      FilterFilter(s[1..], p, q);
      var head := if p(s[0]) then [s[0]] else [];
      assert Filter(s, p) == head + Filter(s[1..], p);
      FilterConcat(head, Filter(s[1..], p), q);
    }
  }

  lemma {:induction false} FilterMultiset<T>(s: seq<T>, p: T -> bool)
    ensures multiset(Filter(s, p)) <= multiset(s)
  {
    if s != [] {
      FilterMultiset(s[1..], p);
      SplitHead(s);
      FilterCons(s[0], s[1..], p);
    }
  }

  /** A relation holding between every earlier and later element still holds after filtering. */
  lemma {:induction false} FilterPairwise<T>(s: seq<T>, p: T -> bool, R: (T, T) -> bool)
    requires forall i, j :: 0 <= i < j < |s| ==> R(s[i], s[j])
    ensures forall i, j :: 0 <= i < j < |Filter(s, p)| ==> R(Filter(s, p)[i], Filter(s, p)[j])
  {
    if s != [] {
      var rest := Filter(s[1..], p);
      FilterPairwise(s[1..], p, R);
      SplitHead(s);
      FilterCons(s[0], s[1..], p);
      if p(s[0]) {
        forall k | 0 <= k < |rest| ensures R(s[0], rest[k]) {
          var m :| 0 <= m < |s[1..]| && s[1..][m] == rest[k];
          assert s[m + 1] == rest[k];
        }
        PairwiseCons(s[0], rest, R);
      }
    }
  }

  lemma PairwiseCons<T>(h: T, u: seq<T>, R: (T, T) -> bool)
    requires forall k :: 0 <= k < |u| ==> R(h, u[k])
    requires forall i, j :: 0 <= i < j < |u| ==> R(u[i], u[j])
    ensures var r := [h] + u; forall i, j :: 0 <= i < j < |r| ==> R(r[i], r[j])
  {
    var r := [h] + u;
    forall i, j | 0 <= i < j < |r| ensures R(r[i], r[j]) {
      assert r[j] == u[j - 1];
      if i > 0 {
        assert r[i] == u[i - 1];
      }
    }
  }

  /** Filtering commutes with taking a permutation, up to order. */
  lemma {:induction false} FilterPermutation<T>(a: seq<T>, b: seq<T>, p: T -> bool)
    requires multiset(a) == multiset(b)
    ensures multiset(Filter(a, p)) == multiset(Filter(b, p))
    decreases |a|
  {
    if a != [] {
      var x := a[0];
      assert x in multiset(b);
      var k :| 0 <= k < |b| && b[k] == x;
      var b' := b[..k] + b[k + 1..];
      RemoveAtMultiset(b, k);
      assert a == [x] + a[1..];
      assert multiset(a[1..]) == multiset(b');
      FilterPermutation(a[1..], b', p);
      FilterConcat([x], a[1..], p);
      FilterRemoveAt(b, k, p);
    } else {
      assert b == [];
    }
  }

  lemma RemoveAtMultiset<T>(b: seq<T>, k: int)
    requires 0 <= k < |b|
    ensures multiset(b[..k] + b[k + 1..]) == multiset(b) - multiset{b[k]}
  {
    assert b == b[..k] + [b[k]] + b[k + 1..];
  }

  lemma FilterRemoveAt<T>(b: seq<T>, k: int, p: T -> bool)
    requires 0 <= k < |b|
    ensures multiset(Filter(b, p)) == multiset(Filter([b[k]], p)) + multiset(Filter(b[..k] + b[k + 1..], p))
  {
    SplitAt(b, k);
    FilterMiddle(b[..k], b[k], b[k + 1..], p);
  }

  lemma UpdateSplit<T>(s: seq<T>, k: int, x: T)
    requires 0 <= k < |s|
    ensures s[k := x] == s[..k] + [x] + s[k + 1..]
  {
  }

  lemma SplitAt<T>(b: seq<T>, k: int)
    requires 0 <= k < |b|
    ensures b == b[..k] + [b[k]] + b[k + 1..]
  {
  }

  /** Filtering out the one element that fails, between runs that all pass. */
  lemma FilterDropOne<T>(u: seq<T>, x: T, v: seq<T>, p: T -> bool)
    requires forall k :: 0 <= k < |u| ==> p(u[k])
    requires forall k :: 0 <= k < |v| ==> p(v[k])
    requires !p(x)
    ensures Filter(u + [x] + v, p) == u + v
  {
    FilterConcat(u + [x], v, p);
    FilterConcat(u, [x], p);
    FilterAll(u, p);
    FilterAll(v, p);
    assert Filter([x], p) == [];
    assert u + [] == u;
  }

  lemma FilterMiddle<T>(u: seq<T>, x: T, v: seq<T>, p: T -> bool)
    ensures multiset(Filter(u + [x] + v, p)) == multiset(Filter([x], p)) + multiset(Filter(u + v, p))
  {
    var fu, fx, fv := Filter(u, p), Filter([x], p), Filter(v, p);
    FilterConcat(u + [x], v, p);
    FilterConcat(u, [x], p);
    FilterConcat(u, v, p);
    assert multiset((fu + fx) + fv) == multiset(fu) + multiset(fx) + multiset(fv);
  }

  /** The number of elements satisfying `p`. */
  function CountWhere<T>(s: seq<T>, p: T -> bool): (n: nat)
    ensures n == |Filter(s, p)|
  {
    if s == [] then 0 else (if p(s[0]) then 1 else 0) + CountWhere(s[1..], p)
  }

  lemma TakeStep<T>(s: seq<T>, k: int)
    requires 0 <= k < |s|
    ensures s[..k + 1] == s[..k] + [s[k]]
  {
  }

  /** Counting over one more element of a prefix. */
  lemma CountStep<T>(s: seq<T>, k: int, p: T -> bool)
    requires 0 <= k < |s|
    ensures CountWhere(s[..k + 1], p) == CountWhere(s[..k], p) + (if p(s[k]) then 1 else 0)
  {
    FilterStep(s, k, p);
  }

  /** Filtering one more element of a prefix. */
  lemma FilterStep<T>(s: seq<T>, k: int, p: T -> bool)
    requires 0 <= k < |s|
    ensures Filter(s[..k + 1], p) == Filter(s[..k], p) + (if p(s[k]) then [s[k]] else [])
  {
    TakeStep(s, k);
    FilterAppendOne(s[..k], s[k], p);
  }

  /** The index of the first element satisfying `p`, as `findIndex` (-1 when none). */
  function FindIndex<T>(s: seq<T>, p: T -> bool): (i: int)
    ensures -1 <= i < |s|
    ensures i == -1 <==> forall j :: 0 <= j < |s| ==> !p(s[j])
    ensures 0 <= i ==> p(s[i]) && forall j :: 0 <= j < i ==> !p(s[j])
  {
    if s == [] then -1
    else if p(s[0]) then 0
    else
      var k := FindIndex(s[1..], p);
      if k == -1 then -1 else k + 1
  }

  /** `s.slice(start, end)` for non-negative bounds: both are clamped to the length. */
  function Slice<T>(s: seq<T>, start: nat, end: nat): (r: seq<T>)
    ensures start <= end && end <= |s| ==> r == s[start..end]
    ensures |s| <= start || end <= start ==> r == []
    ensures start < |s| && start < end && |s| <= end ==> r == s[start..]
    ensures |r| == (if |s| <= start || end <= start then 0 else if end < |s| then end - start else |s| - start)
    ensures forall i :: 0 <= i < |r| ==> r[i] == s[start + i]
  {
    var e := if end < |s| then end else |s|;
    if start < e then s[start..e] else []
  }

  /** `s.slice(0, limit)` gives the first `min(limit, |s|)` elements. */
  lemma TakeIsPrefix<T>(s: seq<T>, limit: nat)
    ensures Slice(s, 0, limit) <= s
    ensures |Slice(s, 0, limit)| == if limit < |s| then limit else |s|
  {
  }

  /** `s.slice(0, end)`: a negative end counts back from the end of `s`. */
  function SliceTo<T>(s: seq<T>, end: int): (r: seq<T>)
    ensures r <= s
    ensures 0 <= end ==> |r| == (if end < |s| then end else |s|)
    ensures end < 0 ==> |r| == (if |s| + end < 0 then 0 else |s| + end)
  {
    if end < 0 then (if |s| + end < 0 then [] else s[..|s| + end])
    else if end < |s| then s[..end]
    else s
  }
}

=== FILE: session.dfy ===
/** The cookie session (`session.ts`): its own super-admin test and the
    session derived from the cookie values, which are parameters. */
module Session {
  import opened Wrappers
  import opened Strings
  import opened Domain
  import RoleSync

  /** `isSuperAdminEmail` of `session.ts`: the same list, but the address is
      only lower-cased, not trimmed. */
  predicate IsSuperAdminEmail(setting: Option<string>, email: string) {
    ToLower(email) in RoleSync.SuperAdminEmails(setting)
  }

  /** An address is a super-admin here exactly when its lower-cased form,
      untrimmed, is listed. */
  lemma IsSuperAdminEmailSpec(setting: Option<string>, email: string)
    ensures IsSuperAdminEmail(setting, email) <==> RoleSync.Listed(RoleSync.Entries(setting), ToLower(email))
  {
    RoleSync.ListedIff(RoleSync.Entries(setting), ToLower(email));
  }

  /** A leading space defeats the match here, though the sync rule ignores
      it. */
  lemma PaddingDefeatsMatch(setting: Option<string>, email: string)
    ensures !IsSuperAdminEmail(setting, " " + email)
    ensures RoleSync.IsSuperAdminEmail(setting, " " + email) == RoleSync.IsSuperAdminEmail(setting, email)
  {
    PaddedNotListed(setting, email);
    RoleSync.MembershipIgnoresPadding(setting, email);
  }

  /** Once the address is normalised first, both rules give the same answer. */
  lemma NormalFormAgrees(setting: Option<string>, email: string)
    ensures IsSuperAdminEmail(setting, TrimLower(email)) == RoleSync.IsSuperAdminEmail(setting, email)
  {
    var n := TrimLower(email);
    var allowed := RoleSync.SuperAdminEmails(setting);
    ToLowerIdempotent(Trim(email));
    assert ToLower(n) == n;
    assert IsSuperAdminEmail(setting, n) == (ToLower(n) in allowed);
    assert RoleSync.IsSuperAdminEmail(setting, email) == (n in allowed);
  }

  lemma PaddedNotListed(setting: Option<string>, email: string)
    ensures ToLower(" " + email) !in RoleSync.SuperAdminEmails(setting)
  {
    var padded := ToLower(" " + email);
    assert padded[0] == ' ';
    if padded in RoleSync.SuperAdminEmails(setting) {
      RoleSync.AllowedIsNormal(RoleSync.Entries(setting), padded);
      TrimLowerUnpadded(padded);
      assert false;
    }
  }

  datatype AppSession = AppSession(isAuthenticated: bool, email: Option<string>, name: Option<string>, role: Role)

  /** `getSession` from the session, role, email and name cookies. */
  function GetSession(token: Option<string>, roleCookie: Option<string>,
                      emailCookie: Option<string>, nameCookie: Option<string>): (s: AppSession)
    ensures !Filled(token) ==> s == AppSession(false, None, None, Customer)
    ensures Filled(token) ==> s.isAuthenticated && s.email == emailCookie && s.name == nameCookie
    ensures Filled(token) ==> (s.role == Admin <==> roleCookie == Some("admin"))
  {
    if !Filled(token) then AppSession(false, None, None, Customer)
    else
      var role := if roleCookie == Some("admin") then Admin else Customer;
      AppSession(true, emailCookie, nameCookie, role)
  }
}

=== FILE: sorting.dfy ===
/** `Array.prototype.sort` with a comparator, which ECMAScript requires to be
    stable: modelled as insertion sort over a "sorts strictly before" relation
    `lt` (a comparator result `< 0`). The lemmas prove that the result is a
    permutation of the input, is ordered by `lt`, and keeps elements that
    compare equal in their input order. */
module Sorting {
  import opened Seqs

  ghost predicate Irreflexive<T(!new)>(lt: (T, T) -> bool) {
    forall a :: !lt(a, a)
  }

  ghost predicate Transitive<T(!new)>(lt: (T, T) -> bool) {
    forall a, b, c :: lt(a, b) && lt(b, c) ==> lt(a, c)
  }

  /** "Not before" is transitive too, so comparing equal is an equivalence. */
  ghost predicate NegTransitive<T(!new)>(lt: (T, T) -> bool) {
    forall a, b, c :: !lt(a, b) && !lt(b, c) ==> !lt(a, c)
  }

  /** A consistent comparator, as `Array.prototype.sort` needs to be well defined. */
  ghost predicate StrictWeakOrder<T(!new)>(lt: (T, T) -> bool) {
    Irreflexive(lt) && Transitive(lt) && NegTransitive(lt)
  }

  /** The comparator returns 0 for `a` and `b`. */
  predicate Equiv<T>(a: T, b: T, lt: (T, T) -> bool) {
    !lt(a, b) && !lt(b, a)
  }

  ghost predicate SortedBy<T>(s: seq<T>, lt: (T, T) -> bool) {
    forall i, j :: 0 <= i < j < |s| ==> !lt(s[j], s[i])
  }

  /** Puts `x` after every element of `t` it does not sort strictly before. */
  function Insert<T>(x: T, t: seq<T>, lt: (T, T) -> bool): (r: seq<T>)
    ensures |r| == |t| + 1
    ensures multiset(r) == multiset(t) + multiset{x}
  {
    if t == [] then [x]
    else if lt(x, t[0]) then [x] + t
    else
      assert t == [t[0]] + t[1..];
      [t[0]] + Insert(x, t[1..], lt)
  }

  /** Stable sort: each element, from left to right, is inserted after the
      already-sorted elements it does not sort strictly before. */
  function Sort<T>(s: seq<T>, lt: (T, T) -> bool): (r: seq<T>)
    ensures |r| == |s|
  {
    if s == [] then [] else Insert(s[|s| - 1], Sort(s[..|s| - 1], lt), lt)
  }

  /** Sorting only reorders. */
  lemma {:induction false} SortPermutation<T>(s: seq<T>, lt: (T, T) -> bool)
    ensures multiset(Sort(s, lt)) == multiset(s)
  {
    if s != [] {
      SortPermutation(s[..|s| - 1], lt);
      assert s == s[..|s| - 1] + [s[|s| - 1]];
    }
  }

  /** Every element of the sorted sequence comes from the input. */
  lemma SortMembers<T>(s: seq<T>, lt: (T, T) -> bool)
    ensures forall i :: 0 <= i < |Sort(s, lt)| ==> Sort(s, lt)[i] in s
  {
    SortPermutation(s, lt);
    var r := Sort(s, lt);
    forall i | 0 <= i < |r| ensures r[i] in s {
      assert r[i] in multiset(r);
    }
  }

  /** A property every input element has, every sorted element has. */
  lemma SortKeeps<T>(s: seq<T>, lt: (T, T) -> bool, p: T -> bool)
    requires forall i :: 0 <= i < |s| ==> p(s[i])
    ensures forall i :: 0 <= i < |Sort(s, lt)| ==> p(Sort(s, lt)[i])
  {
    SortMembers(s, lt);
    var r := Sort(s, lt);
    forall i | 0 <= i < |r| ensures p(r[i]) {
      var j :| 0 <= j < |s| && s[j] == r[i];
    }
  }

  /** In a sorted sequence, an element sorting before the head sorts before every element. */
  lemma BeforeHeadBeforeAll<T(!new)>(x: T, t: seq<T>, lt: (T, T) -> bool)
    requires StrictWeakOrder(lt) && SortedBy(t, lt)
    requires t != [] && lt(x, t[0])
    ensures forall k :: 0 <= k < |t| ==> lt(x, t[k])
  {
    forall k | 0 < k < |t| ensures lt(x, t[k]) {
      assert !lt(t[k], t[0]);
    }
  }

  lemma {:induction false} InsertSorted<T(!new)>(x: T, t: seq<T>, lt: (T, T) -> bool)
    requires Irreflexive(lt) && Transitive(lt) && SortedBy(t, lt)
    ensures SortedBy(Insert(x, t, lt), lt)
  {
    if t == [] {
    } else if lt(x, t[0]) {
      forall k | 0 <= k < |t| ensures !lt(t[k], x) {
        if k > 0 { assert !lt(t[k], t[0]); }
      }
      SortedCons(x, t, lt);
    } else {
      SplitHead(t);
      InsertSorted(x, t[1..], lt);
      var rest := Insert(x, t[1..], lt);
      forall k | 0 <= k < |rest|
        ensures !lt(rest[k], t[0])
      {
        InsertMember(x, t[1..], lt, k);
        if rest[k] != x {
          var m :| 0 <= m < |t[1..]| && t[1..][m] == rest[k];
          assert t[m + 1] == rest[k];
        }
      }
      SortedCons(t[0], rest, lt);
    }
  }

  /** Putting in front an element that no later one sorts before keeps a
      sequence sorted. */
  lemma SortedCons<T>(h: T, u: seq<T>, lt: (T, T) -> bool)
    requires SortedBy(u, lt) && forall k :: 0 <= k < |u| ==> !lt(u[k], h)
    ensures SortedBy([h] + u, lt)
  {
    var r := [h] + u;
    forall i, j | 0 <= i < j < |r| ensures !lt(r[j], r[i]) {
      assert r[j] == u[j - 1];
      if 0 < i {
        assert r[i] == u[i - 1];
      }
    }
  }

  /** Every element of an insertion result is the inserted one or one of `t`. */
  lemma InsertMember<T>(x: T, t: seq<T>, lt: (T, T) -> bool, k: int)
    requires 0 <= k < |Insert(x, t, lt)|
    ensures Insert(x, t, lt)[k] == x || Insert(x, t, lt)[k] in t
  {
    var r := Insert(x, t, lt);
    assert r[k] in multiset(t) + multiset{x};
  }

  /** The sorted result is in comparator order. */
  lemma {:induction false} SortSorted<T(!new)>(s: seq<T>, lt: (T, T) -> bool)
    requires Irreflexive(lt) && Transitive(lt)
    ensures SortedBy(Sort(s, lt), lt)
  {
    if s != [] {
      SortSorted(s[..|s| - 1], lt);
      InsertSorted(s[|s| - 1], Sort(s[..|s| - 1], lt), lt);
    }
  }

  /** The elements of `s` that compare equal to `e`, in order. */
  function EquivClass<T>(s: seq<T>, e: T, lt: (T, T) -> bool): seq<T> {
    Filter(s, EquivTo(e, lt))
  }

  function EquivTo<T>(e: T, lt: (T, T) -> bool): T -> bool {
    y => Equiv(y, e, lt)
  }

  lemma NotEquivToLater<T(!new)>(x: T, y: T, e: T, lt: (T, T) -> bool)
    requires StrictWeakOrder(lt) && lt(x, y) && Equiv(x, e, lt)
    ensures !Equiv(y, e, lt)
  {
  }

  lemma {:induction false} InsertEquivClass<T(!new)>(x: T, t: seq<T>, e: T, lt: (T, T) -> bool)
    requires StrictWeakOrder(lt) && SortedBy(t, lt)
    ensures EquivClass(Insert(x, t, lt), e, lt)
         == EquivClass(t, e, lt) + (if Equiv(x, e, lt) then [x] else [])
  {
    if t == [] {
      assert Insert(x, t, lt) == [x];
      FilterAppendOne([], x, EquivTo(e, lt));
    } else if lt(x, t[0]) {
      InsertEquivFront(x, t, e, lt);
    } else {
      assert SortedBy(t[1..], lt);
      InsertEquivClass(x, t[1..], e, lt);
      InsertEquivStep(x, t, e, lt);
    }
  }

  /** An element inserted in front of a sorted sequence joins its class in front,
      where the class was empty. */
  lemma InsertEquivFront<T(!new)>(x: T, t: seq<T>, e: T, lt: (T, T) -> bool)
    requires StrictWeakOrder(lt) && SortedBy(t, lt) && t != [] && lt(x, t[0])
    ensures EquivClass(Insert(x, t, lt), e, lt)
         == EquivClass(t, e, lt) + (if Equiv(x, e, lt) then [x] else [])
  {
    var P := EquivTo(e, lt);
    assert Insert(x, t, lt) == [x] + t;
    FilterConcat([x], t, P);
    assert [] + [x] == [x];
    FilterAppendOne([], x, P);
    if Equiv(x, e, lt) {
      FrontClassEmpty(x, t, e, lt);
    }
  }

  /** Nothing after an element sorting first is equivalent to it. */
  lemma FrontClassEmpty<T(!new)>(x: T, t: seq<T>, e: T, lt: (T, T) -> bool)
    requires StrictWeakOrder(lt) && SortedBy(t, lt) && t != [] && lt(x, t[0]) && Equiv(x, e, lt)
    ensures EquivClass(t, e, lt) == []
  {
    var P := EquivTo(e, lt);
    BeforeHeadBeforeAll(x, t, lt);
    forall k | 0 <= k < |t| ensures !P(t[k]) {
      NotEquivToLater(x, t[k], e, lt);
    }
    FilterNone(t, P);
  }

  /** Inserting past the head keeps the head's share of the class in front. */
  lemma InsertEquivStep<T>(x: T, t: seq<T>, e: T, lt: (T, T) -> bool)
    requires t != [] && !lt(x, t[0])
    requires EquivClass(Insert(x, t[1..], lt), e, lt) == EquivClass(t[1..], e, lt) + (if Equiv(x, e, lt) then [x] else [])
    ensures EquivClass(Insert(x, t, lt), e, lt) == EquivClass(t, e, lt) + (if Equiv(x, e, lt) then [x] else [])
  {
    var rest := Insert(x, t[1..], lt);
    assert Insert(x, t, lt) == [t[0]] + rest;
    assert t == [t[0]] + t[1..];
    FilterConsShift(t[0], rest, t[1..], if Equiv(x, e, lt) then [x] else [], EquivTo(e, lt));
  }

  /** Stability: elements that compare equal keep their relative input order. */
  lemma {:induction false} SortStable<T(!new)>(s: seq<T>, e: T, lt: (T, T) -> bool)
    requires StrictWeakOrder(lt)
    ensures EquivClass(Sort(s, lt), e, lt) == EquivClass(s, e, lt)
  {
    if s != [] {
      var init, last := s[..|s| - 1], s[|s| - 1];
      SortStable(init, e, lt);
      SortSorted(init, lt);
      InsertEquivClass(last, Sort(init, lt), e, lt);
      SplitLast(s);
      FilterAppendOne(init, last, EquivTo(e, lt));
    }
  }
  /** Inserting an element that sorts before none of `t` appends it. */
  lemma {:induction false} InsertAfterAll<T>(x: T, t: seq<T>, lt: (T, T) -> bool)
    requires forall k :: 0 <= k < |t| ==> !lt(x, t[k])
    ensures Insert(x, t, lt) == t + [x]
  {
    if t != [] {
      InsertAfterAll(x, t[1..], lt);
      assert t == [t[0]] + t[1..];
    }
  }

  /** When no element sorts strictly before another, sorting changes nothing. */
  lemma {:induction false} SortAllEquivalent<T>(s: seq<T>, lt: (T, T) -> bool)
    requires forall i, j :: 0 <= i < |s| && 0 <= j < |s| ==> !lt(s[i], s[j])
    ensures Sort(s, lt) == s
  {
    if s != [] {
      var init, last := s[..|s| - 1], s[|s| - 1];
      assert forall i :: 0 <= i < |init| ==> init[i] == s[i];
      SortAllEquivalent(init, lt);
      InsertAfterAll(last, init, lt);
      assert s == init + [last];
    }
  }

  /** Filtering commutes with inserting into a sorted sequence. */
  lemma {:induction false} FilterInsert<T(!new)>(x: T, t: seq<T>, p: T -> bool, lt: (T, T) -> bool)
    requires StrictWeakOrder(lt) && SortedBy(t, lt)
    ensures p(x) ==> Filter(Insert(x, t, lt), p) == Insert(x, Filter(t, p), lt)
    ensures !p(x) ==> Filter(Insert(x, t, lt), p) == Filter(t, p)
  {
    if t == [] {
    } else if lt(x, t[0]) {
      BeforeHeadBeforeAll(x, t, lt);
      FilterInsertBeforeAll(x, t, p, lt);
    } else {
      assert SortedBy(t[1..], lt);
      FilterInsert(x, t[1..], p, lt);
      FilterInsertAfterHead(x, t, p, lt);
    }
  }

  /** Inserting after the head of `t` commutes with filtering when it does so for the tail. */
  lemma FilterInsertAfterHead<T>(x: T, t: seq<T>, p: T -> bool, lt: (T, T) -> bool)
    requires t != [] && !lt(x, t[0])
    requires p(x) ==> Filter(Insert(x, t[1..], lt), p) == Insert(x, Filter(t[1..], p), lt)
    requires !p(x) ==> Filter(Insert(x, t[1..], lt), p) == Filter(t[1..], p)
    ensures p(x) ==> Filter(Insert(x, t, lt), p) == Insert(x, Filter(t, p), lt)
    ensures !p(x) ==> Filter(Insert(x, t, lt), p) == Filter(t, p)
  {
    var rest := t[1..];
    var ir := Insert(x, rest, lt);
    SplitHead(t);
    InsertPastHead(x, t[0], rest, lt);
    FilterCons(t[0], ir, p);
    FilterCons(t[0], rest, p);
    if p(x) && p(t[0]) {
      InsertPastHead(x, t[0], Filter(rest, p), lt);
    }
  }

  /** Inserting an element that does not sort before the head keeps the head first. */
  lemma InsertPastHead<T>(x: T, h: T, u: seq<T>, lt: (T, T) -> bool)
    requires !lt(x, h)
    ensures Insert(x, [h] + u, lt) == [h] + Insert(x, u, lt)
  {
    assert ([h] + u)[0] == h && ([h] + u)[1..] == u;
  }

  /** Inserting an element that sorts before all of `t` puts it first, filtered or not. */
  lemma FilterInsertBeforeAll<T>(x: T, t: seq<T>, p: T -> bool, lt: (T, T) -> bool)
    requires t != [] && forall k :: 0 <= k < |t| ==> lt(x, t[k])
    ensures p(x) ==> Filter(Insert(x, t, lt), p) == Insert(x, Filter(t, p), lt)
    ensures !p(x) ==> Filter(Insert(x, t, lt), p) == Filter(t, p)
  {
    assert Insert(x, t, lt) == [x] + t;
    FilterConcat([x], t, p);
    var ft := Filter(t, p);
    if ft != [] {
      assert ft[0] in t;
      assert lt(x, ft[0]);
      assert Insert(x, ft, lt) == [x] + ft;
    }
  }

  /** Filtering before or after a stable sort gives the same sequence. */
  lemma {:induction false} FilterSort<T(!new)>(s: seq<T>, p: T -> bool, lt: (T, T) -> bool)
    requires StrictWeakOrder(lt)
    ensures Sort(Filter(s, p), lt) == Filter(Sort(s, lt), p)
  {
    if s != [] {
      var init, last := s[..|s| - 1], s[|s| - 1];
      SplitLast(s);
      FilterSort(init, p, lt);
      SortSorted(init, lt);
      FilterInsert(last, Sort(init, lt), p, lt);
      FilterSortStep(init, last, p, lt);
    }
  }

  lemma SplitLast<T>(s: seq<T>)
    requires s != []
    ensures s == s[..|s| - 1] + [s[|s| - 1]]
  {
  }

  /** One step of `FilterSort`: from a sequence to the sequence with one more element. */
  lemma FilterSortStep<T>(init: seq<T>, last: T, p: T -> bool, lt: (T, T) -> bool)
    requires Sort(Filter(init, p), lt) == Filter(Sort(init, lt), p)
    requires p(last) ==> Filter(Insert(last, Sort(init, lt), lt), p) == Insert(last, Filter(Sort(init, lt), p), lt)
    requires !p(last) ==> Filter(Insert(last, Sort(init, lt), lt), p) == Filter(Sort(init, lt), p)
    ensures Sort(Filter(init + [last], p), lt) == Filter(Sort(init + [last], lt), p)
  {
    var s := init + [last];
    var fi := Filter(init, p);
    assert Sort(s, lt) == Insert(last, Sort(init, lt), lt) by {
      assert s[..|s| - 1] == init && s[|s| - 1] == last;
    }
    assert Filter(s, p) == fi + (if p(last) then [last] else []) by {
      FilterAppendOne(init, last, p);
    }
    if p(last) {
      var f := fi + [last];
      assert Sort(f, lt) == Insert(last, Sort(fi, lt), lt) by {
        assert f[..|f| - 1] == fi && f[|f| - 1] == last;
      }
    } else {
      assert Filter(s, p) == fi;
    }
  }

  /** The order of a numeric comparator `key(a) - key(b)` (ascending). */
  function ByKeyAsc<T>(key: T -> int): (T, T) -> bool {
    (a: T, b: T) => key(a) < key(b)
  }

  /** The order of a numeric comparator `key(b) - key(a)` (descending). */
  function ByKeyDesc<T>(key: T -> int): (T, T) -> bool {
    (a: T, b: T) => key(a) > key(b)
  }

  lemma ByKeyAscIsStrictWeakOrder<T(!new)>(key: T -> int)
    ensures StrictWeakOrder(ByKeyAsc(key))
  {
  }

  lemma ByKeyDescIsStrictWeakOrder<T(!new)>(key: T -> int)
    ensures StrictWeakOrder(ByKeyDesc(key))
  {
  }
}

=== FILE: strings.dfy ===
/** The few pieces of JavaScript's `String.prototype` that the core relies on:
    `trim`, `toLowerCase` (ASCII letters), `includes`/`startsWith`/`endsWith`,
    `String(n)` for integers, `padStart`, `split` on one character, and the
    code-unit order used by `<` and (here) `localeCompare`. */
module Strings {

  /** The characters `String.prototype.trim` removes: ECMAScript WhiteSpace and
      LineTerminator code points. */
  predicate IsJsWhitespace(c: char) {
    var n := c as int;
    n == 0x09 || n == 0x0A || n == 0x0B || n == 0x0C || n == 0x0D || n == 0x20 ||
    n == 0xA0 || n == 0x1680 || (0x2000 <= n <= 0x200A) || n == 0x2028 || n == 0x2029 ||
    n == 0x202F || n == 0x205F || n == 0x3000 || n == 0xFEFF
  }

  function TrimStart(s: string): (r: string)
    ensures |r| <= |s| && r == s[|s| - |r|..]
    ensures r == [] || !IsJsWhitespace(r[0])
    ensures forall i :: 0 <= i < |s| - |r| ==> IsJsWhitespace(s[i])
  {
    if s != [] && IsJsWhitespace(s[0]) then TrimStart(s[1..]) else s
  }

  function TrimEnd(s: string): (r: string)
    ensures |r| <= |s| && r == s[..|r|]
    ensures r == [] || !IsJsWhitespace(r[|r| - 1])
    ensures forall i :: |r| <= i < |s| ==> IsJsWhitespace(s[i])
  {
    if s != [] && IsJsWhitespace(s[|s| - 1]) then TrimEnd(s[..|s| - 1]) else s
  }

  /** `s.trim()`: `s` without its leading and trailing whitespace (see
      `TrimCutsWhitespace`). */
  function Trim(s: string): (r: string)
    ensures |r| <= |s|
    ensures r == [] || (!IsJsWhitespace(r[0]) && !IsJsWhitespace(r[|r| - 1]))
  {
    TrimEnd(TrimStart(s))
  }

  /** `Trim(s)` is the window of `s` left after cutting the whitespace off
      both ends: everything before it and after it is whitespace. */
  lemma TrimCutsWhitespace(s: string)
    ensures var a := |s| - |TrimStart(s)|; var r := Trim(s);
      a + |r| <= |s| && r == s[a..a + |r|]
      && (forall i :: 0 <= i < a ==> IsJsWhitespace(s[i]))
      && (forall i :: a + |r| <= i < |s| ==> IsJsWhitespace(s[i]))
  {
    var t := TrimStart(s);
    var r := TrimEnd(t);
    assert Trim(s) == r;
    TrimWindow(s, t, r);
  }

  /** A prefix `r` of a suffix `t` of `s` is a window of `s`; what `t` has
      after `r` is what `s` has after the window. */
  lemma TrimWindow(s: string, t: string, r: string)
    requires |t| <= |s| && t == s[|s| - |t|..]
    requires |r| <= |t| && r == t[..|r|]
    requires forall i :: |r| <= i < |t| ==> IsJsWhitespace(t[i])
    requires forall i :: 0 <= i < |s| - |t| ==> IsJsWhitespace(s[i])
    ensures var a := |s| - |t|;
      a + |r| <= |s| && r == s[a..a + |r|]
      && (forall i :: 0 <= i < a ==> IsJsWhitespace(s[i]))
      && (forall i :: a + |r| <= i < |s| ==> IsJsWhitespace(s[i]))
  {
    var a := |s| - |t|;
    forall i | a + |r| <= i < |s| ensures IsJsWhitespace(s[i]) {
      assert s[i] == t[i - a];
    }
  }

  /** Lower-casing of one character; only the ASCII letters A-Z are mapped. */
  function LowerChar(c: char): char {
    if 'A' <= c <= 'Z' then (c as int + 32) as char else c
  }

  /** `s.toLowerCase()` restricted to ASCII letters. */
  function ToLower(s: string): (r: string)
    ensures |r| == |s|
    ensures forall i :: 0 <= i < |s| ==> r[i] == LowerChar(s[i])
  {
    if s == [] then [] else [LowerChar(s[0])] + ToLower(s[1..])
  }

  lemma ToLowerIdempotent(s: string)
    ensures ToLower(ToLower(s)) == ToLower(s)
  {
  }

  /** The common normalisation `s.trim().toLowerCase()`. */
  function TrimLower(s: string): string {
    ToLower(Trim(s))
  }

  /** Lower-casing neither creates nor removes whitespace, so normalising
      twice is normalising once. */
  lemma TrimLowerIdempotent(s: string)
    ensures TrimLower(TrimLower(s)) == TrimLower(s)
  {
    var u := Trim(s);
    var t := ToLower(u);
    if t != [] {
      LowerCharKeepsWhitespace(u[0]);
      LowerCharKeepsWhitespace(u[|u| - 1]);
    }
    TrimUnpadded(t);
    ToLowerIdempotent(u);
  }

  lemma LowerCharKeepsWhitespace(c: char)
    ensures IsJsWhitespace(LowerChar(c)) == IsJsWhitespace(c)
  {
  }

  /** Trimming a string that neither starts nor ends with whitespace keeps it. */
  lemma TrimUnpadded(t: string)
    requires t == [] || (!IsJsWhitespace(t[0]) && !IsJsWhitespace(t[|t| - 1]))
    ensures Trim(t) == t
  {
    assert TrimStart(t) == t;
  }

  /** A string that is already trimmed and lower case is its own normal form. */
  lemma TrimLowerFixed(t: string)
    requires t == [] || (!IsJsWhitespace(t[0]) && !IsJsWhitespace(t[|t| - 1]))
    requires ToLower(t) == t
    ensures TrimLower(t) == t
  {
    TrimUnpadded(t);
  }

  /** A normalised string neither starts nor ends with whitespace. */
  lemma TrimLowerUnpadded(s: string)
    ensures TrimLower(s) == [] || (!IsJsWhitespace(TrimLower(s)[0]) && !IsJsWhitespace(TrimLower(s)[|TrimLower(s)| - 1]))
  {
  }

  /** `s.startsWith(p)`. */
  predicate StartsWith(s: string, p: string) {
    p <= s
  }

  /** `s.endsWith(p)`. */
  predicate EndsWith(s: string, p: string) {
    |p| <= |s| && s[|s| - |p|..] == p
  }

  /** `sub` occurs in `s` starting at index `i`. */
  predicate OccursAt(s: string, sub: string, i: int) {
    0 <= i && i + |sub| <= |s| && s[i..i + |sub|] == sub
  }

  /** `s.includes(sub)`, computed by scanning, and proved equal to "`sub` occurs somewhere in `s`". */
  function Includes(s: string, sub: string): (b: bool)
    ensures b <==> exists i :: OccursAt(s, sub, i)
  {
    if sub <= s then
      assert OccursAt(s, sub, 0);
      true
    else if s == [] then
      assert forall i :: !OccursAt(s, sub, i);
      false
    else
      var b := Includes(s[1..], sub);
      if b then
        var i :| OccursAt(s[1..], sub, i);
        assert OccursAt(s, sub, i + 1);
        true
      else
        assert forall i :: OccursAt(s, sub, i) ==> i >= 1 && OccursAt(s[1..], sub, i - 1);
        false
  }

  lemma PrefixIsIncluded(s: string, p: string)
    requires StartsWith(s, p)
    ensures Includes(s, p)
  {
    assert OccursAt(s, p, 0);
  }

  lemma SuffixIsIncluded(s: string, p: string)
    requires EndsWith(s, p)
    ensures Includes(s, p)
  {
    assert OccursAt(s, p, |s| - |p|);
  }

  function DigitChar(d: nat): char
    requires d < 10
  {
    "0123456789"[d]
  }

  predicate IsDigit(c: char) {
    '0' <= c <= '9'
  }

  /** `String(n)` for a non-negative integer: its decimal digits, without leading zeros. */
  function NatToString(n: nat): (r: string)
    ensures 1 <= |r|
    ensures forall i :: 0 <= i < |r| ==> IsDigit(r[i])
    ensures (n < 10) == (|r| == 1)
    ensures r[|r| - 1] == DigitChar(n % 10)
    ensures |r| > 1 ==> r[0] != '0'
  {
    if n < 10 then [DigitChar(n)] else NatToString(n / 10) + [DigitChar(n % 10)]
  }

  lemma DigitCharInjective(a: nat, b: nat)
    requires a < 10 && b < 10 && DigitChar(a) == DigitChar(b)
    ensures a == b
  {
  }

  lemma {:induction false} NatToStringInjective(a: nat, b: nat)
    requires NatToString(a) == NatToString(b)
    ensures a == b
  {
    var s := NatToString(a);
    DigitCharInjective(a % 10, b % 10);
    if a >= 10 {
      assert NatToString(a / 10) == s[..|s| - 1] == NatToString(b / 10);
      NatToStringInjective(a / 10, b / 10);
    }
  }

  lemma NatToStringInjectiveAll()
    ensures forall a: nat, b: nat :: NatToString(a) == NatToString(b) ==> a == b
  {
    forall a: nat, b: nat | NatToString(a) == NatToString(b) ensures a == b {
      NatToStringInjective(a, b);
    }
  }

  /** The number a string of decimal digits denotes. */
  function DigitsValue(s: string): (v: nat)
    requires forall i :: 0 <= i < |s| ==> IsDigit(s[i])
  {
    if s == [] then 0 else 10 * DigitsValue(s[..|s| - 1]) + DigitValue(s[|s| - 1])
  }

  function DigitValue(c: char): (d: nat)
    requires IsDigit(c)
    ensures d < 10 && DigitChar(d) == c
  {
    c as int - '0' as int
  }

  /** The digits `String(n)` prints denote `n`. */
  lemma {:induction false} NatToStringValue(n: nat)
    ensures DigitsValue(NatToString(n)) == n
  {
    var s := NatToString(n);
    if n >= 10 {
      assert s[..|s| - 1] == NatToString(n / 10);
      NatToStringValue(n / 10);
    }
  }

  /** `String(n)` for any integer. */
  function IntToString(n: int): (r: string)
    ensures n >= 0 ==> r == NatToString(n)
    ensures n < 0 ==> r == "-" + NatToString(-n)
  {
    if n < 0 then "-" + NatToString(-n) else NatToString(n)
  }

  /** `String(n)` is a minus sign exactly for a negative `n`, then decimal
      digits without a leading zero that denote the magnitude of `n`. */
  lemma IntToStringValue(n: int)
    ensures var r := IntToString(n); 1 <= |r| && (r[0] == '-') == (n < 0)
    ensures var r := IntToString(n); var digits := if n < 0 then r[1..] else r;
      (forall i :: 0 <= i < |digits| ==> IsDigit(digits[i]))
      && DigitsValue(digits) == (if n < 0 then -n else n)
      && (|digits| > 1 ==> digits[0] != '0')
  {
    var m := if n < 0 then -n else n;
    NatToStringValue(m);
    if n < 0 {
      assert IntToString(n)[1..] == NatToString(m);
    }
  }

  function Repeat(c: char, k: nat): (r: string)
    ensures |r| == k && forall i :: 0 <= i < k ==> r[i] == c
  {
    if k == 0 then [] else [c] + Repeat(c, k - 1)
  }

  /** `s.padStart(width, c)` with a one-character filler: never truncates. */
  function PadStart(s: string, width: nat, c: char): (r: string)
    ensures |s| >= width ==> r == s
    ensures |s| < width ==> |r| == width
    ensures EndsWith(r, s)
    ensures forall i :: 0 <= i < |r| - |s| ==> r[i] == c
  {
    if |s| >= width then s else Repeat(c, width - |s|) + s
  }

  /** `s.split(sep)` for a one-character separator: the pieces between separators,
      so `"".split(",")` is `[""]`. */
  function Split(s: string, sep: char): (r: seq<string>)
    ensures 1 <= |r|
    ensures forall i :: 0 <= i < |r| ==> sep !in r[i]
  {
    SplitFromPieces(s, sep, "");
    SplitFrom(s, sep, "")
  }

  /** The pieces of `s` when the piece `cur` has already been read up to it:
      a separator closes the current piece, any other character extends it. */
  function SplitFrom(s: string, sep: char, cur: string): (r: seq<string>)
    ensures 1 <= |r|
  {
    if s == [] then [cur]
    else if s[0] == sep then [cur] + SplitFrom(s[1..], sep, "")
    else SplitFrom(s[1..], sep, cur + [s[0]])
  }

  /** No piece holds the separator, given that the piece begun does not. */
  lemma {:induction false} SplitFromPieces(s: string, sep: char, cur: string)
    requires sep !in cur
    ensures forall i :: 0 <= i < |SplitFrom(s, sep, cur)| ==> sep !in SplitFrom(s, sep, cur)[i]
  {
    if s != [] {
      if s[0] == sep {
        SplitFromPieces(s[1..], sep, "");
        var rest := SplitFrom(s[1..], sep, "");
        assert SplitFrom(s, sep, cur) == [cur] + rest;
        forall i | 0 < i < |SplitFrom(s, sep, cur)|
          ensures sep !in SplitFrom(s, sep, cur)[i]
        {
          assert SplitFrom(s, sep, cur)[i] == rest[i - 1];
        }
      } else {
        SplitFromPieces(s[1..], sep, cur + [s[0]]);
      }
    }
  }

  /** `parts.join(sep)`. */
  function Join(parts: seq<string>, sep: char): string {
    if parts == [] then ""
    else if |parts| == 1 then parts[0]
    else parts[0] + [sep] + Join(parts[1..], sep)
  }

  /** Splitting loses nothing: joining the pieces back gives the input. */
  lemma SplitJoin(s: string, sep: char)
    ensures Join(Split(s, sep), sep) == s
  {
    SplitFromJoin(s, sep, "");
    assert "" + s == s;
  }

  /** Joining the pieces gives back the piece begun followed by the rest. */
  lemma {:induction false} SplitFromJoin(s: string, sep: char, cur: string)
    ensures Join(SplitFrom(s, sep, cur), sep) == cur + s
  {
    if s == [] {
      assert cur + s == cur;
    } else if s[0] == sep {
      SplitFromJoin(s[1..], sep, "");
      JoinAtSeparator(s, sep, cur);
    } else {
      SplitFromJoin(s[1..], sep, cur + [s[0]]);
      assert cur + [s[0]] + s[1..] == cur + s;
    }
  }

  /** At a separator the current piece is closed, and the join puts the
      separator back between it and the pieces of the rest. */
  lemma JoinAtSeparator(s: string, sep: char, cur: string)
    requires s != [] && s[0] == sep
    requires Join(SplitFrom(s[1..], sep, ""), sep) == "" + s[1..]
    ensures Join(SplitFrom(s, sep, cur), sep) == cur + s
  {
    var rest := SplitFrom(s[1..], sep, "");
    assert SplitFrom(s, sep, cur) == [cur] + rest;
    JoinCons(cur, rest, sep);
    assert "" + s[1..] == s[1..];
    assert s == [sep] + s[1..];
  }

  /** Joining a piece in front of at least one more piece adds it and one separator. */
  lemma JoinCons(head: string, rest: seq<string>, sep: char)
    requires rest != []
    ensures Join([head] + rest, sep) == head + ([sep] + Join(rest, sep))
  {
    var r := [head] + rest;
    assert r[0] == head && r[1..] == rest;
  }

  /** Code-unit lexicographic order, as JavaScript's `<` on strings. */
  predicate StrLess(a: string, b: string) {
    if a == [] then b != []
    else if b == [] then false
    else if a[0] != b[0] then a[0] < b[0]
    else StrLess(a[1..], b[1..])
  }

  lemma StrLessIrreflexive(a: string)
    ensures !StrLess(a, a)
  {
  }

  lemma {:induction false} StrLessTransitive(a: string, b: string, c: string)
    requires StrLess(a, b) && StrLess(b, c)
    ensures StrLess(a, c)
  {
    if a != [] && b != [] && c != [] && a[0] == b[0] && b[0] == c[0] {
      StrLessTransitive(a[1..], b[1..], c[1..]);
    }
  }

  lemma {:induction false} StrLessTotal(a: string, b: string)
    requires a != b
    ensures StrLess(a, b) || StrLess(b, a)
  {
    if a != [] && b != [] && a[0] == b[0] {
      assert a == [a[0]] + a[1..] && b == [b[0]] + b[1..];
      StrLessTotal(a[1..], b[1..]);
    }
  }

  lemma StrLessAsymmetric(a: string, b: string)
    requires StrLess(a, b)
    ensures !StrLess(b, a)
  {
    if StrLess(b, a) {
      StrLessTransitive(a, b, a);
      StrLessIrreflexive(a);
    }
  }

  /** `a.localeCompare(b)` read as plain code-unit order: negative, zero or
      positive as `a` sorts before, equal to or after `b`. */
  function LocaleCompare(a: string, b: string): (c: int)
    ensures c < 0 <==> StrLess(a, b)
    ensures c == 0 <==> a == b
    ensures c > 0 <==> StrLess(b, a)
  {
    if a == b then
      StrLessIrreflexive(a);
      0
    else if StrLess(a, b) then
      StrLessAsymmetric(a, b);
      -1
    else
      StrLessTotal(a, b);
      1
  }
  /** Not sorting before is sorting after or being equal. */
  lemma StrNotLessTransitive(a: string, b: string, c: string)
    requires !StrLess(a, b) && !StrLess(b, c)
    ensures !StrLess(a, c)
    ensures !StrLess(b, a) && !StrLess(c, b) ==> a == b == c
  {
    if a != b { StrLessTotal(a, b); }
    if b != c { StrLessTotal(b, c); }
    if StrLess(a, c) {
      if a != b && b != c {
        StrLessTransitive(c, b, a);
        StrLessAsymmetric(a, c);
      } else if a != b {
        StrLessAsymmetric(a, c);
      } else if b != c {
        StrLessAsymmetric(b, c);
      } else {
        StrLessIrreflexive(a);
      }
    }
  }

}

=== FILE: telemetry.dfy ===
/** The data-source breadcrumb trail (`telemetry.ts`): a selection is logged
    unless it equals the previous one, and only the newest 50 entries are
    kept. Also the server-side resolution in `source.ts`, whose only effect
    is to record its selection here. */
module Telemetry {
  import opened Wrappers
  import opened DataSource

  /** The buffer's cap, `slice(-50)`. */
  const Cap: nat := 50

  datatype Breadcrumb = Breadcrumb(at: int, source: Source, requested: Option<Source>,
                                   convexConfigured: bool, fallbackReason: Option<string>)

  /** The breadcrumb logged for a selection at time `now`. */
  function CrumbOf(selection: Selection, now: int): (b: Breadcrumb)
    ensures b.at == now && b.source == selection.source && b.requested == selection.requested
    ensures b.convexConfigured == selection.convexConfigured && b.fallbackReason == selection.fallbackReason
  {
    Breadcrumb(now, selection.source, selection.requested, selection.convexConfigured, selection.fallbackReason)
  }

  /** `slice(-50)`: the last (at most) 50 entries. */
  function Newest<T>(s: seq<T>): (r: seq<T>)
    ensures |r| == if |s| <= Cap then |s| else Cap
    ensures r == s[|s| - |r|..]
  {
    if |s| <= Cap then s else s[|s| - Cap..]
  }

  /** Capping after each append is capping once at the end. */
  lemma NewestAppend<T>(s: seq<T>, x: T)
    ensures Newest(Newest(s) + [x]) == Newest(s + [x])
  {
    if Cap < |s| {
      assert Newest(s) + [x] == (s + [x])[|s| - Cap..];
    }
  }

  /** The module state: the last selection logged (`lastSelectionKey`, which
      starts empty) and the breadcrumbs. */
  datatype Trail = Trail(last: Option<Selection>, crumbs: seq<Breadcrumb>)

  const Initial := Trail(None, [])

  /** One `addDataSourceBreadcrumb` call on the state, with or without the cap. */
  function Step(t: Trail, selection: Selection, now: int, capped: bool): (r: Trail)
    ensures t.last == Some(selection) ==> r == t
    ensures t.last != Some(selection) ==> r.last == Some(selection)
    ensures t.last != Some(selection) && !capped ==> r.crumbs == t.crumbs + [CrumbOf(selection, now)]
    ensures t.last != Some(selection) && capped ==> r.crumbs == Newest(t.crumbs + [CrumbOf(selection, now)])
  {
    if t.last == Some(selection) then t
    else
      var crumbs := t.crumbs + [CrumbOf(selection, now)];
      Trail(Some(selection), if capped then Newest(crumbs) else crumbs)
  }

  datatype Call = Call(selection: Selection, now: int)

  /** A run of calls, oldest first. */
  function Run(t: Trail, calls: seq<Call>, capped: bool): Trail
    decreases |calls|
  {
    if calls == [] then t
    else Run(Step(t, calls[0].selection, calls[0].now, capped), calls[1..], capped)
  }

  /** The first call always logs, because nothing has been logged yet. */
  lemma FirstCallLogs(selection: Selection, now: int)
    ensures Step(Initial, selection, now, true) == Trail(Some(selection), [CrumbOf(selection, now)])
  {
  }

  /** Deduplication only looks at the previous selection: A, B, A logs three times. */
  lemma AlternatingLogsEachTime(a: Selection, b: Selection, t0: int, t1: int, t2: int)
    requires a != b
    ensures Run(Initial, [Call(a, t0), Call(b, t1), Call(a, t2)], true).crumbs
         == [CrumbOf(a, t0), CrumbOf(b, t1), CrumbOf(a, t2)]
  {
    var x, y, z := CrumbOf(a, t0), CrumbOf(b, t1), CrumbOf(a, t2);
    TwoDistinctLog(a, b, t0, t1);
    var r2 := Trail(Some(b), [x, y]);
    assert Some(b) != Some(a);
    StepLogs(r2, a, t2);
    AppendDisplay(x, y, z);
    RunThree(Initial, Call(a, t0), Call(b, t1), Call(a, t2), true);
  }

  lemma RunThree(t: Trail, c0: Call, c1: Call, c2: Call, capped: bool)
    ensures Run(t, [c0, c1, c2], capped)
         == Step(Step(Step(t, c0.selection, c0.now, capped), c1.selection, c1.now, capped), c2.selection, c2.now, capped)
  {
    assert [c0, c1, c2] == [c0] + [c1, c2];
    RunCons(t, c0, [c1, c2], capped);
    RunTwo(Step(t, c0.selection, c0.now, capped), c1, c2, capped);
  }

  lemma TwoDistinctLog(a: Selection, b: Selection, t0: int, t1: int)
    requires a != b
    ensures Step(Step(Initial, a, t0, true), b, t1, true) == Trail(Some(b), [CrumbOf(a, t0), CrumbOf(b, t1)])
  {
    var x, y := CrumbOf(a, t0), CrumbOf(b, t1);
    StepLogs(Initial, a, t0);
    assert Some(a) != Some(b);
    StepLogs(Trail(Some(a), [x]), b, t1);
    AppendDisplay(x, y, y);
  }

  lemma AppendDisplay<T>(x: T, y: T, z: T)
    ensures [] + [x] == [x] && [x] + [y] == [x, y] && [x, y] + [z] == [x, y, z]
  {
  }

  /** A new selection below the cap appends its breadcrumb. */
  lemma StepLogs(t: Trail, selection: Selection, now: int)
    requires t.last != Some(selection) && |t.crumbs| < Cap
    ensures Step(t, selection, now, true) == Trail(Some(selection), t.crumbs + [CrumbOf(selection, now)])
  {
  }

  /** Repeating a selection logs once. */
  lemma RepeatLogsOnce(a: Selection, t0: int, t1: int)
    ensures Run(Initial, [Call(a, t0), Call(a, t1)], true).crumbs == [CrumbOf(a, t0)]
  {
    var s1 := Trail(Some(a), [CrumbOf(a, t0)]);
    RunTwo(Initial, Call(a, t0), Call(a, t1), true);
    assert Step(Initial, a, t0, true) == s1;
  }

  lemma RunCons(t: Trail, c: Call, rest: seq<Call>, capped: bool)
    ensures Run(t, [c] + rest, capped) == Run(Step(t, c.selection, c.now, capped), rest, capped)
  {
    assert ([c] + rest)[1..] == rest;
  }

  lemma RunTwo(t: Trail, c0: Call, c1: Call, capped: bool)
    ensures Run(t, [c0, c1], capped) == Step(Step(t, c0.selection, c0.now, capped), c1.selection, c1.now, capped)
  {
    var t1 := Step(t, c0.selection, c0.now, capped);
    assert [c0, c1] == [c0] + [c1];
    RunCons(t, c0, [c1], capped);
    RunCons(t1, c1, [], capped);
    assert [c1] + [] == [c1];
  }

  /** Every run keeps at most 50 breadcrumbs, and they are the newest of
      those the same run would log without a cap. */
  lemma {:induction false} RunKeepsNewest(last: Option<Selection>, crumbs: seq<Breadcrumb>, calls: seq<Call>)
    ensures var capped := Run(Trail(last, Newest(crumbs)), calls, true);
      var uncapped := Run(Trail(last, crumbs), calls, false);
      capped.last == uncapped.last && capped.crumbs == Newest(uncapped.crumbs) && |capped.crumbs| <= Cap
    decreases |calls|
  {
    if calls != [] {
      var c := calls[0];
      var x := CrumbOf(c.selection, c.now);
      if last == Some(c.selection) {
        RunKeepsNewest(last, crumbs, calls[1..]);
      } else {
        NewestAppend(crumbs, x);
        assert Step(Trail(last, Newest(crumbs)), c.selection, c.now, true) == Trail(Some(c.selection), Newest(crumbs + [x]));
        RunKeepsNewest(Some(c.selection), crumbs + [x], calls[1..]);
      }
    }
  }

  /** The module state of `telemetry.ts`. */
  class BreadcrumbTrail {
    var lastSelectionKey: Option<Selection>
    var breadcrumbs: seq<Breadcrumb>

    constructor ()
      ensures lastSelectionKey == None && breadcrumbs == []
    {
      lastSelectionKey := None;
      breadcrumbs := [];
    }

    ghost predicate Valid()
      reads this
    {
      |breadcrumbs| <= Cap
    }

    /** `addDataSourceBreadcrumb` at time `now`. */
    method AddDataSourceBreadcrumb(selection: Selection, now: int)
      requires Valid()
      modifies this
      ensures Trail(lastSelectionKey, breadcrumbs) == Step(old(Trail(lastSelectionKey, breadcrumbs)), selection, now, true)
      ensures Valid()
    {
      if lastSelectionKey == Some(selection) {
        return;
      }
      lastSelectionKey := Some(selection);
      var existing := breadcrumbs + [CrumbOf(selection, now)];
      breadcrumbs := Newest(existing);
    }
  }

  /** `resolveServerDataSource`: the selection for the environment, recorded
      in the trail before it is returned. */
  method ResolveServerDataSource(env: Env, trail: BreadcrumbTrail, now: int) returns (selection: Selection)
    requires trail.Valid()
    modifies trail
    ensures selection == Selected(env)
    ensures Trail(trail.lastSelectionKey, trail.breadcrumbs)
         == Step(old(Trail(trail.lastSelectionKey, trail.breadcrumbs)), selection, now, true)
  {
    selection := Selected(env);
    trail.AddDataSourceBreadcrumb(selection, now);
  }
}

=== FILE: values.dfy ===
/** Dynamically typed documents as the auth tables and the adapter see them:
    a tagged union of the JavaScript values that occur (the missing field reads
    as `undefined`), and the Convex store's `patch` on a document. */
module Values {
  import opened Strings

  datatype Value =
    | Undefined
    | Null
    | Bool(b: bool)
    | Num(n: int)
    | Str(s: string)
    | Arr(items: seq<Value>)
    | Date(ms: int)
    | Obj(fields: map<string, Value>)

  /** A stored row: field name to value. */
  type Doc = map<string, Value>

  const IdField := "_id"
  const CreationTimeField := "_creationTime"

  /** Whether a document sets a field the store reserves for itself: its
      names start with `_`, like `_id` and `_creationTime`. */
  predicate SetsSystemField(doc: Doc) {
    exists k :: k in doc && |k| > 0 && k[0] == '_'
  }

  /** `doc[field]`: a missing field reads as `undefined`. */
  function Get(doc: Doc, field: string): Value {
    if field in doc then doc[field] else Undefined
  }

  /** `Object.entries(v)` as a map: an object's own fields, an array's items
      keyed by their decimal index, and nothing for any other value (a Date
      has no own enumerable properties). */
  function OwnEntries(v: Value): (r: map<string, Value>)
    ensures v.Obj? ==> r == v.fields
    ensures v.Arr? ==> r == IndexKeyed(v.items, NatToString)
    ensures !v.Obj? && !v.Arr? ==> r == map[]
  {
    match v
    case Obj(fields) => fields
    case Arr(items) => IndexKeyed(items, NatToString)
    case _ => map[]
  }

  /** The entries of an array: item `i` under the key `String(i)`, and no other key. */
  lemma ArrayEntries(items: seq<Value>)
    ensures forall i :: 0 <= i < |items| ==> NatToString(i) in OwnEntries(Arr(items)) && OwnEntries(Arr(items))[NatToString(i)] == items[i]
    ensures forall k :: k in OwnEntries(Arr(items)) ==> exists i :: 0 <= i < |items| && k == NatToString(i)
  {
    NatToStringInjectiveAll();
    IndexKeyedSpec(items, NatToString);
  }

  /** The items of a sequence keyed by `key` of their index. */
  function IndexKeyed<V>(items: seq<V>, key: nat -> string): map<string, V>
  {
    if items == [] then map[]
    else IndexKeyed(items[..|items| - 1], key)[key(|items| - 1) := items[|items| - 1]]
  }

  /** With an injective key, index `i` is stored under `key(i)`, and only
      indices are keys. */
  lemma {:induction false} IndexKeyedSpec<V>(items: seq<V>, key: nat -> string)
    requires forall a: nat, b: nat :: key(a) == key(b) ==> a == b
    ensures forall i :: 0 <= i < |items| ==> key(i) in IndexKeyed(items, key) && IndexKeyed(items, key)[key(i)] == items[i]
    ensures forall k :: k in IndexKeyed(items, key) ==> exists i :: 0 <= i < |items| && k == key(i)
  {
    if items != [] {
      var n := |items| - 1;
      var init := items[..n];
      IndexKeyedSpec(init, key);
      var r := IndexKeyed(items, key);
      assert r == IndexKeyed(init, key)[key(n) := items[n]];
      forall i | 0 <= i < |items|
        ensures key(i) in r && r[key(i)] == items[i]
      {
        if i < n {
          assert init[i] == items[i];
          assert key(i) != key(n);
        }
      }
    }
  }

  predicate IsNullish(v: Value) {
    v.Undefined? || v.Null?
  }

  predicate IsPrimitive(v: Value) {
    v.Undefined? || v.Null? || v.Bool? || v.Num? || v.Str?
  }

  /** `a === b` between a stored value and a value supplied by a caller: arrays,
      objects and dates are compared by reference, and two separately built
      objects are never the same reference. */
  predicate StrictEq(a: Value, b: Value) {
    IsPrimitive(a) && a == b
  }

  /** JavaScript truthiness. */
  predicate Truthy(v: Value) {
    match v
    case Undefined => false
    case Null => false
    case Bool(b) => b
    case Num(n) => n != 0
    case Str(s) => s != ""
    case _ => true
  }

  /** `String(v)`. Arrays join their elements with commas (null and undefined
      elements print as empty), plain objects print as `[object Object]`. */
  function JsString(v: Value): string
    decreases v, 1
  {
    match v
    case Undefined => "undefined"
    case Null => "null"
    case Bool(b) => if b then "true" else "false"
    case Num(n) => IntToString(n)
    case Str(s) => s
    case Arr(items) => JoinElements(items)
    case Date(ms) => IntToString(ms)
    case Obj(_) => "[object Object]"
  }

  function JoinElements(items: seq<Value>): string
    decreases items, 0
  {
    if items == [] then ""
    else
      var head := if IsNullish(items[0]) then "" else JsString(items[0]);
      if |items| == 1 then head else head + "," + JoinElements(items[1..])
  }

  /** The document after the store's `patch(id, update)`: every field of `update`
      is written, a field written as `undefined` is removed, and the `_id` system
      field keeps its value. */
  function Patch(doc: Doc, update: Doc): (r: Doc)
    ensures forall k :: k in update && k != IdField && !update[k].Undefined? ==> k in r && r[k] == update[k]
    ensures forall k :: k in update && k != IdField && update[k].Undefined? ==> k !in r
    ensures forall k :: (k !in update || k == IdField) ==> (k in r <==> k in doc)
    ensures forall k :: k in r && (k !in update || k == IdField) ==> r[k] == doc[k]
  {
    map k | k in doc.Keys + update.Keys && (k !in update || k == IdField || !update[k].Undefined?) && (k in doc || k != IdField)
      :: if k in update && k != IdField then update[k] else doc[k]
  }
}

=== FILE: wrappers.dfy ===
/** Optional values and results with an error message, as the TypeScript code
    expresses them with `undefined`/`null` and thrown `Error`s. */
module Wrappers {

  datatype Option<+T> = None | Some(value: T) {
    function GetOr(default: T): T {
      match this
      case Some(v) => v
      case None => default
    }
  }

  /** JavaScript truthiness of an optional string: set and non-empty. */
  predicate Filled(v: Option<string>) {
    v.Some? && v.value != ""
  }

  /** A call that either returns a value or throws `new Error(error)`. */
  datatype Result<+T> = Success(value: T) | Failure(error: string)
}
